=== FILE: README.md ===
# Blackbox Logic website — a Dafny model of its core

The Blackbox Logic website is a marketing site. Its content (blog posts and
portfolio projects) lives in a headless CMS, and a small Express server keeps
contact-form submissions in memory. This project models the parts of the site
that make decisions, and proves what those decisions promise:

- **Listings.** The blog index and the portfolio showcase derive facet buttons
  from the fetched items. They filter by facet (the blog also by a
  case-insensitive search), split off featured items and show an empty-state
  message (`listing.dfy`, `blog_listing.dfy`, `portfolio_listing.dfy`). A page
  tests its query in a fixed order: loading first, then the error
  (`fetch_state.dfy`).
- **Contact section.** It covers the client-side form rules, the canned-reply
  assistant (an ordered keyword table where the first match wins and reply 1
  is the default) and the chat log, which ignores whitespace-only input
  (`contact_section.dfy`).
- **Server.**
  - The insert schemas decide which request bodies are accepted
    (`schema.dfy`).
  - The in-memory store hands out ids from two independent counters
    (`storage.dfy`).
  - The `/api/contact` handlers return 201/400/500 and list the store
    (`routes.dfy`).
- **CMS schema.** These are the validity rules of the four document types and
  the subtitles of their studio previews (`cms_schema.dfy`).
- **Detail pages.**
  - The SEO props each page derives from its document: fallbacks,
    keywords and the canonical URL.
  - Which sections render: the case study, its cards and nested gallery, and
    the testimonial with its attribution.
  - The defaults of the blog's custom image and code blocks.

  See `blog_post_page.dfy` and `portfolio_project_page.dfy`.
- **Head tags.** The SEO component upserts meta tags and the canonical link
  into the head and replaces the single dynamic structured-data script.
  - `head_tags.dfy` models the head and the three element-level edits.
  - `seo.dfy` models the component's thirteen guarded updates.
  - Proved: every truthy prop reaches each tag it is written to. A falsy prop
    leaves every tag it guards alone: the title, description, keywords,
    canonical link, og:url, twitter:url and both image tags. Without
    structured data the dynamic scripts are unchanged. At most one dynamic
    script remains, and a second run changes nothing.
- **Carousel.** The success-stories carousel moves its index with arrows that
  wrap around and with dots that set it directly (`carousel.dfy`).

The model is purely functional. The store, the chat, the head and the carousel
are immutable values, and each user action is a function from one value to
the next. JavaScript string behaviour the components rely on (truthiness,
`||`, `toLowerCase`, `includes`, `join`, `trim`, rendering a number) is
defined once, in module `Text`. The generic sequence machinery (`filter`,
`find`, first-seen de-duplication) is in module `Seqs`. The modules `Options`
(Option and Result types) and `ImageUrl` (the image-URL builder, a parameter)
support the rest.

Two behaviours of the code are worth knowing. Both are proved about the model
as written:

- On the blog index, a featured post that matches a category other than "All"
  is shown nowhere. The featured card only renders under "All", and the
  regular grid excludes featured posts. If every match is featured, the page
  is blank and "No articles found" does not appear either
  (`BlogListing.BlankPageWithoutMessage`).
- Matching in the chat assistant is by substring, so "this" gets the
  greeting through "hi" (`ContactSection.SubstringNotWord`).

## Model

| member | source | states |
|---|---|---|
| Listing.Facets | client/src/pages/Blog.tsx:140-144 | "All" first, then every facet value exactly once, and only values that occur |
| Listing.FacetsFirstSeen | client/src/pages/Blog.tsx:140-144 | more items only append facets: the buttons already derived keep their order (first-seen order) |
| Listing.CardChips | client/src/components/sections/PortfolioShowcase.tsx:304 | a card shows exactly the first three labels in order, or all of them when there are fewer |
| FetchState.ListingPhaseOf | client/src/pages/Blog.tsx:160-189 | loading wins over the error, and the listing shows only when neither applies |
| FetchState.DetailViewOf | client/src/pages/BlogPost.tsx:152-187 | loading first; an error or a missing document gives "not found"; otherwise the fetched document |
| BlogListing.CategoryFacets | client/src/pages/Blog.tsx:140-144 | "All", then the distinct category titles of all fetched posts; a title is offered iff some post has it |
| BlogListing.FilteredPosts | client/src/pages/Blog.tsx:147-154 | every listed post matches the category and the search; nothing is added |
| BlogListing.FilteredPostsSpec | client/src/pages/Blog.tsx:147-154 | a post is listed iff it was fetched and matches both tests; multiplicities kept; the result is a subsequence of the fetched list |
| BlogListing.SearchIgnoresCase | client/src/pages/Blog.tsx:150-152 | lowering the search term changes nothing |
| BlogListing.InitialFilterKeepsAll | client/src/pages/Blog.tsx:129-130 | with "All" and an empty search the filtered list is the fetched list |
| BlogListing.FilterTwiceIsOnce | client/src/pages/Blog.tsx:147-154 | filtering is idempotent |
| BlogListing.SelectedFacetNonEmpty | client/src/pages/Blog.tsx:140-154 | with an empty search, every derived category button lists at least one post |
| BlogListing.FeaturedPost | client/src/pages/Blog.tsx:156 | absent iff no filtered post is featured; otherwise the first featured one |
| BlogListing.RegularPostsSpec | client/src/pages/Blog.tsx:157 | the grid holds exactly the non-featured filtered posts, in fetched order |
| BlogListing.RenderBlog | client/src/pages/Blog.tsx:160-189 | loading before error before the index, each stated as an iff; the grid is the regular posts of the filtered list; the featured card is the first featured match under "All" and absent otherwise; "No articles found" iff no fetched post passes the filter |
| BlogListing.ShownIff | client/src/pages/Blog.tsx:239 | a filtered post is shown iff it is not featured, or it is the first featured one and the category is "All" |
| BlogListing.SecondFeaturedHidden | client/src/pages/Blog.tsx:156-157 | a featured match after the first is never shown |
| BlogListing.BlankPageWithoutMessage | client/src/pages/Blog.tsx:297 | a page can show no post and still not show the empty-state message |
| PortfolioListing.TypeFacets | client/src/components/sections/PortfolioShowcase.tsx:167-169 | "All", then each distinct project type; a type is offered iff some project has it |
| PortfolioListing.FilteredProjectsSpec | client/src/components/sections/PortfolioShowcase.tsx:172-174 | a project is listed iff the selection is "All" or exactly its type; order and multiplicity kept |
| PortfolioListing.AllKeepsEverything | client/src/components/sections/PortfolioShowcase.tsx:157 | under "All" every project is listed |
| PortfolioListing.SelectedTypeNonEmpty | client/src/components/sections/PortfolioShowcase.tsx:167-174 | every derived type button selects at least one project |
| PortfolioListing.FeaturedProjects | client/src/components/sections/PortfolioShowcase.tsx:176 | a project is kept iff it is filtered and featured, as often as it is filtered, in the filtered order |
| PortfolioListing.GridProjects | client/src/components/sections/PortfolioShowcase.tsx:255 | a filtered project is in the grid iff it is not featured or a specific type is selected, in the filtered order |
| PortfolioListing.RenderPortfolio | client/src/components/sections/PortfolioShowcase.tsx:178-206 | loading before error before the showcase, each stated as an iff; the featured section is the featured filtered projects under "All" and empty otherwise; the grid is the grid filter of the filtered list; "No projects found" iff nothing matches |
| PortfolioListing.ShownExactlyOnce | client/src/components/sections/PortfolioShowcase.tsx:242-258 | the featured section and the grid together show every filtered project exactly once, for any selection; under "All" the section holds exactly the featured ones and the grid exactly the others |
| ContactSection.ValidateForm | client/src/components/sections/ContactSection.tsx:36-43 | each rule reported iff broken: name shorter than 2, e-mail not an address, message shorter than 10; no duplicates |
| ContactSection.FormValidIff | client/src/components/sections/ContactSection.tsx:36-43 | the form is valid iff the three rules hold; the business field never matters |
| ContactSection.FirstMatchSpec | client/src/components/sections/ContactSection.tsx:73-116 | the search finds a rule iff one matches, and it finds the first |
| ContactSection.GetAIResponse | client/src/components/sections/ContactSection.tsx:58-117 | the reply is always one of the canned replies |
| ContactSection.FirstMatchWins | client/src/components/sections/ContactSection.tsx:73-114 | the first rule whose keyword occurs in the lowered message decides the reply |
| ContactSection.NoMatchDefault | client/src/components/sections/ContactSection.tsx:115-117 | with no keyword the reply is reply 1 |
| ContactSection.ReplyIgnoresCase | client/src/components/sections/ContactSection.tsx:71 | the reply does not depend on letter case |
| ContactSection.TableAgreesWithChain | client/src/components/sections/ContactSection.tsx:73-117 | the rule table answers every message as the literal if/else chain does |
| ContactSection.SubstringNotWord | client/src/components/sections/ContactSection.tsx:109-114 | "this" gets the greeting: matching is by substring |
| ContactSection.UpperCaseKeyword | client/src/components/sections/ContactSection.tsx:71-78 | "COST?" gets the pricing reply |
| ContactSection.BlankIsTrimEmpty | client/src/components/sections/ContactSection.tsx:205 | blank means the text trims to nothing |
| ContactSection.SendMessage | client/src/components/sections/ContactSection.tsx:204-228 | blank input leaves the chat unchanged; otherwise exactly two messages are appended, the input is cleared and earlier messages are kept |
| ContactSection.ExchangesAt | client/src/components/sections/ContactSection.tsx:208-226 | with each reply appended at once, the k-th sent text sits at position 2k as a user message, followed by the assistant's reply to it |
| ContactSection.ConversationTranscript | client/src/components/sections/ContactSection.tsx:204-228 | with each reply appended at once, a conversation appends one user message and one reply per non-blank text, in order |
| ContactSection.ChatLogShape | client/src/components/sections/ContactSection.tsx:126-134 | with each reply appended at once, the log after the welcome message alternates a non-blank user text and the reply computed from that text |
| ContactSection.WhitespaceIgnored | client/src/components/sections/ContactSection.tsx:205 | a whitespace-only text changes nothing; any other appends exactly the text and its reply |
| Schema.RequiredString | shared/schema.ts:13-16 | a not-null column accepts exactly a present string, else reports a required or type issue |
| Schema.NullableString | shared/schema.ts:15 | the business column accepts absent, null or a string, and nothing else |
| Schema.ParseContactIff | shared/schema.ts:25-30 | a body parses iff it is an object whose name, email and message are strings and whose business is absent, null or a string |
| Schema.ParseContactIssues | shared/schema.ts:25-30 | each refused field is reported with its reason, and only refused fields are |
| Schema.ExtraKeysIgnored | shared/schema.ts:25-30 | keys outside the pick do not change the result |
| Schema.ContactRoundTrip | shared/schema.ts:25-30 | parsing an encoded payload gives the payload back |
| Schema.ParseUserIff | shared/schema.ts:20-23 | the user payload parses iff username and password are strings, and it picks only those |
| Storage.Initial | server/storage.ts:27-32 | a fresh store is empty with both counters at 1 |
| Storage.CreateUser | server/storage.ts:45-50 | the new user takes the current user counter as its id and is appended; the contact table is untouched |
| Storage.GetUser | server/storage.ts:35-37 | finds a stored user with that id, or is absent iff none has it |
| Storage.GetUserByUsername | server/storage.ts:39-43 | the first-created user with that name, absent iff there is none |
| Storage.StoredBusiness | server/storage.ts:59 | an undefined or null business is stored as null; any string, "" included, is kept |
| Storage.CreateContactSubmission | server/storage.ts:53-64 | the record takes the current contact counter and the given time; the payload fields are stored unchanged; the record is appended and nothing else changes |
| Storage.GetContactSubmissions | server/storage.ts:66-68 | every stored record, in creation order |
| Storage.FirstIdsAreOne | server/storage.ts:27-32 | the first user and the first contact of a fresh store both get id 1, whatever was created in the other table |
| Storage.CreateKeepsValid | server/storage.ts:45-64 | creations keep ids equal to positions plus one and the counters one past the last id |
| Storage.IdsStrictlyIncrease | server/storage.ts:46 | ids strictly increase with creation order |
| Storage.NewIdIsFresh | server/storage.ts:54 | a new id exceeds every stored id, so ids are never reused |
| Storage.GetUserIff | server/storage.ts:35-37 | in a reachable store `getUser` finds exactly the ids handed out so far |
| Storage.RunValid | server/storage.ts:21-69 | every store reachable by creations is valid, and its contact table grows by one per contact creation, keeping earlier records |
| Routes.PostContact | server/routes.ts:10-37 | the status is 201, 400 or 500; 400 iff the schema refuses the body; 201 iff it accepts and nothing fails; the store changes only on 201 |
| Routes.GetContacts | server/routes.ts:40-50 | 200 with every stored submission, or 500 on a failure |
| Routes.ValidPostAddsOne | server/routes.ts:13-22 | an accepted body adds exactly one record, the next id, and returns it with 201 |
| Routes.InvalidPostLeavesStore | server/routes.ts:23-30 | a refused body gets 400 with every issue and the store is unchanged |
| Routes.PostThenGet | server/routes.ts:13-43 | a posted submission is listed last, after all earlier ones |
| Routes.NoServerLengthMinimums | server/routes.ts:13 | the server stores a submission that the page's form would refuse for length |
| Routes.ClientValidIsServerValid | server/routes.ts:13-22 | every body built from contact-form values is accepted and stored with exactly those values |
| CmsSchema.RequiredMaxRule | sanity-schema.js:14 | a required text with a maximum passes iff present and short enough, and is reported at most once |
| CmsSchema.Scheme | sanity-schema.js:227-229 | the scheme is the text before the first colon, and is absent iff there is no colon |
| CmsSchema.WebsiteUrlRule | sanity-schema.js:224-230 | the website URL passes iff present and its scheme, after leading spaces are dropped and letters lowered, is http or https; otherwise exactly one violation, Required when absent and the scheme rule when present |
| CmsSchema.SchemeOf | sanity-schema.js:227-229 | the scheme of `scheme:rest` is `scheme` whenever it holds no colon |
| CmsSchema.SchemeAccepted | sanity-schema.js:227-229 | a URL whose scheme is http or https in any letter case passes |
| CmsSchema.SchemeRefused | sanity-schema.js:227-229 | a URL with any other scheme is refused for its scheme |
| CmsSchema.UpperCaseSchemeAccepted | sanity-schema.js:227-229 | "HTTPS://blkboxlogic.com" passes, as the studio's URL parser lowers the scheme |
| CmsSchema.ImageAltRule | sanity-schema.js:34-47 | an image passes iff it is absent or has alt text |
| CmsSchema.SeoViolations | sanity-schema.js:151-172 | the SEO object passes iff it is absent or its meta title is at most 60 and its description at most 160 characters |
| CmsSchema.BlogPostViolations | sanity-schema.js:9-172 | a blog post is valid iff all of these hold: title (≤ 100), slug, author and excerpt (≤ 200) present; at least one category; publishedAt present; the featured image has alt; the SEO limits hold |
| CmsSchema.PortfolioProjectViolations | sanity-schema.js:200-286 | a project is valid iff all of these hold: title (≤ 100), slug and client present; the website URL has scheme http or https in any letter case; the preview image is present with alt; the description (≤ 300) is present; at least one technology; the type is from the list; completedAt present |
| CmsSchema.AuthorViolations | sanity-schema.js:381-384 | an author is valid iff it has a name |
| CmsSchema.CategoryViolations | sanity-schema.js:442-445 | a category is valid iff it has a title |
| CmsSchema.BlogViolationsOncePerField | sanity-schema.js:11-54 | a missing title is reported as missing only, and an over-long excerpt as too long only |
| CmsSchema.BlogSubtitle | sanity-schema.js:186-190 | the subtitle is truthy iff the author is; otherwise the falsy author passes through |
| CmsSchema.BlogSubtitleRoundTrip | sanity-schema.js:189 | a truthy subtitle is "by " followed by exactly the author name |
| CmsSchema.PortfolioSubtitle | sanity-schema.js:365-369 | the subtitle is the rendered client, then " - ", then the rendered type, with a missing client shown as "undefined" |
| CmsSchema.ValidPortfolioSubtitle | sanity-schema.js:365-369 | a valid project's subtitle is its client and type, and the type part is one of the offered types |
| CmsSchema.TypeFacetsBounded | sanity-schema.js:266-280 | with types from the list, the showcase offers at most seven buttons |
| HeadTags.MetaContent | client/src/components/layout/SEO.tsx:84 | the lookup is absent iff no meta tag has the key |
| HeadTags.UpsertSpec | client/src/components/layout/SEO.tsx:83-105 | after an upsert the lookup finds the new element; the number of matches becomes max(1, before); other lookups and matches are untouched |
| HeadTags.RemoveFirstCount | client/src/components/layout/SEO.tsx:109-112 | removing the first match lowers the number of matches by one, if there was one |
| HeadTags.RemoveFirstDisjoint | client/src/components/layout/SEO.tsx:109-112 | removing a dynamic script leaves every other selector's view unchanged |
| HeadTags.UpdateMetaTagSpec | client/src/components/layout/SEO.tsx:83-93 | the tag shows the new content; there is exactly one such tag, or as many as before if there were several; other tags are unchanged |
| HeadTags.UpdateLinkTagSpec | client/src/components/layout/SEO.tsx:95-105 | the same for the canonical link |
| HeadTags.UpdateStructuredDataSpec | client/src/components/layout/SEO.tsx:107-120 | the new script is last; dynamic scripts number at most what they were, or one; with at most one before, the new script is the only one; meta tags and links are unchanged |
| Seo.Steps | client/src/components/layout/SEO.tsx:28-81 | thirteen updates, each writing a fixed target, in source order |
| Seo.ApplyNoop | client/src/components/layout/SEO.tsx:83-120 | an update whose effect is already visible changes nothing |
| Seo.ApplyEstablishes | client/src/components/layout/SEO.tsx:83-120 | every update makes its effect visible |
| Seo.ApplyPreserves | client/src/components/layout/SEO.tsx:83-120 | an update never undoes an earlier update to a different target |
| Seo.RunEstablishes | client/src/components/layout/SEO.tsx:28-81 | after the run every enabled update is visible, and no run adds a second dynamic script |
| Seo.RunNoop | client/src/components/layout/SEO.tsx:28-81 | a run of updates that are all visible changes nothing |
| Seo.ApplySeoFanOut | client/src/components/layout/SEO.tsx:30-75 | truthy props reach the head: the title, description and keywords; og:title, og:description, twitter:title and twitter:description; the canonical URL in the link, og:url and twitter:url; the image in og:image and twitter:image |
| Seo.TitleGuard | client/src/components/layout/SEO.tsx:30-32 | a falsy title leaves the document title alone |
| Seo.TextGuards | client/src/components/layout/SEO.tsx:35-42 | a falsy description or keywords prop leaves its tag alone |
| Seo.CanonicalGuard | client/src/components/layout/SEO.tsx:45-75 | a falsy canonical URL leaves the canonical link, og:url and twitter:url alone |
| Seo.ScriptGuard | client/src/components/layout/SEO.tsx:78-80 | without structured data the dynamic scripts are left as they were |
| Seo.ImageGuard | client/src/components/layout/SEO.tsx:56-72 | a falsy image leaves og:image and twitter:image alone |
| Seo.ApplySeoOneScript | client/src/components/layout/SEO.tsx:78-80 | at most one dynamic script stays at most one; with data, the new script is the only one |
| Seo.ApplySeoIdempotent | client/src/components/layout/SEO.tsx:28-120 | running the effect twice with the same props gives the head that one run gives |
| BlogPostPage.SeoConfig | client/src/pages/BlogPost.tsx:190-198 | title: meta title if non-empty, else the post title with " \| Blackbox Logic Blog"; description: meta description or the excerpt; canonical always set; og:image iff a featured image |
| BlogPostPage.KeywordsFallback | client/src/pages/BlogPost.tsx:193 | SEO keywords are used when they join to something non-empty; an absent list, [] or [""] falls back to the tags |
| BlogPostPage.CanonicalInjective | client/src/pages/BlogPost.tsx:194 | the canonical URL gives the slug back, so distinct slugs have distinct URLs |
| BlogPostPage.BlogPostHead | client/src/pages/BlogPost.tsx:190-205 | after the SEO component runs: the page title, the canonical URL in all three places, and the social image in both image tags when the post has a featured image with a non-empty URL; otherwise (no image, or an empty URL) both tags are left as they were |
| BlogPostPage.RenderArticle | client/src/pages/BlogPost.tsx:233-302 | the badge is the first category's title, shown iff there is one; the tags section iff at least one tag; the author position iff non-empty |
| BlogPostPage.RenderBlogPost | client/src/pages/BlogPost.tsx:151-205 | loading first, then not found for an error or a missing post, then the article |
| BlogPostPage.RenderImageBlock | client/src/pages/BlogPost.tsx:42-58 | the caption shows iff there is alt text and repeats it; otherwise alt is "Blog image" |
| BlogPostPage.CodeClassLanguage | client/src/pages/BlogPost.tsx:59-72 | the class is "language-" followed by the language, "text" when none; the filename header shows iff there is a file name |
| PortfolioProjectPage.SeoConfig | client/src/pages/PortfolioProject.tsx:86-94 | every text prop present; description and og:description are the project description; og:image iff a preview image |
| PortfolioProjectPage.SeoConfigParts | client/src/pages/PortfolioProject.tsx:87-91 | the title is the og title plus " \| Blackbox Logic Portfolio"; keywords are the joined technologies, then the type and ", portfolio, case study"; the canonical URL gives the slug back |
| PortfolioProjectPage.PortfolioProjectHead | client/src/pages/PortfolioProject.tsx:86-100 | after the SEO component runs: title, keywords, canonical URL in three places, and the social image in both image tags when the project has a preview image with a non-empty URL; otherwise (no image, or an empty URL) both tags are left as they were |
| PortfolioProjectPage.GalleryFigures | client/src/pages/PortfolioProject.tsx:226-234 | one figure per image, in order; an image's own alt text is kept |
| PortfolioProjectPage.GalleryDefaultAlts | client/src/pages/PortfolioProject.tsx:230 | images without alt text get pairwise different default alts naming their 1-based position |
| PortfolioProjectPage.CaseStudySection | client/src/pages/PortfolioProject.tsx:187-239 | the section shows iff the case study exists with some non-empty text; each card iff its own text; the gallery (nested) iff there is at least one image |
| PortfolioProjectPage.GalleryNeedsText | client/src/pages/PortfolioProject.tsx:187 | images alone do not make the case study appear |
| PortfolioProjectPage.TestimonialSection | client/src/pages/PortfolioProject.tsx:242-267 | shows iff the quote is non-empty; the attribution iff the name or the position is non-empty; each line iff its own value |
| PortfolioProjectPage.RenderProject | client/src/pages/PortfolioProject.tsx:96-184 | the preview image shows iff there is one with a non-empty URL, with alt "<title> preview"; the badge is the project type |
| PortfolioProjectPage.RenderPortfolioProject | client/src/pages/PortfolioProject.tsx:47-83 | loading first, then not found for an error or a missing project, then the project |
| Carousel.Initial | client/src/components/sections/CaseStudiesSection.tsx:73 | the index starts at 0 |
| Carousel.Previous | client/src/components/sections/CaseStudiesSection.tsx:75-77 | one step back modulo the length, staying in range |
| Carousel.Next | client/src/components/sections/CaseStudiesSection.tsx:79-81 | one step on modulo the length, staying in range |
| Carousel.Select | client/src/components/sections/CaseStudiesSection.tsx:127 | a dot sets the index to its own position |
| Carousel.ExactlyOneDot | client/src/components/sections/CaseStudiesSection.tsx:120-125 | exactly one dot is highlighted: the one at the index |
| Carousel.PreviousNextInverse | client/src/components/sections/CaseStudiesSection.tsx:75-81 | the two arrows undo each other |
| Carousel.NextN | client/src/components/sections/CaseStudiesSection.tsx:79-81 | k clicks on next keep the index in range and advance it by k modulo the length |
| Carousel.NextFullCircle | client/src/components/sections/CaseStudiesSection.tsx:79-81 | as many next clicks as case studies return to the start |
| Carousel.CaseStudyWrap | client/src/components/sections/CaseStudiesSection.tsx:73-81 | on the page's three case studies, previous from the first shows the third, and three next clicks return to the first |
| Carousel.RunStaysValid | client/src/components/sections/CaseStudiesSection.tsx:75-127 | under any clicks the index stays inside the list |
| Carousel.RunLastDot | client/src/components/sections/CaseStudiesSection.tsx:127 | a final dot click decides the index |
| Text.TrimEmptyIff | client/src/components/sections/ContactSection.tsx:205 | a text trims to nothing iff it is all whitespace |
| Text.NatToStringRoundTrip | client/src/pages/PortfolioProject.tsx:230 | the decimal rendering of a position reads back as that number |

## Left out

- Query library behaviour (caching, stale time, de-duplication, the `enabled` flag): a page's query is the triple (loading, failed, data) taken as input.
- The CMS client (GROQ queries, `urlFor`): fetched lists are taken in the order given, and the image-URL builder is an uninterpreted parameter.
- The third-party mail relay that receives the contact form on the page, and the footer newsletter form: both are network I/O.
- The chat reply timer: the page appends each reply 1000 ms after its send and does not block sending meanwhile, so two sends within one second give user, user, reply, reply. The model appends each reply at once, as if every reply arrived before the next send.
- ContactSection.SendMessage: appends the reply together with the user message; it holds only for the instant reply above.
- ContactSection.ExchangesAt: fixed positions hold only for the instant reply; with overlapping timers the page does not alternate.
- ContactSection.ConversationTranscript: holds only for the instant reply; with overlapping timers the page groups user messages before their replies.
- ContactSection.ChatLogShape: strict alternation holds only for the instant reply.
- Clocks, locales and dates (`new Date()`, `Date.now()` message ids, `toLocaleDateString`): the time of a contact creation is a parameter; dates are opaque text.
- Text.Lower: folds only ASCII letters, where `toLowerCase` folds all of Unicode.
- Lengths are counted in characters, where JavaScript counts UTF-16 code units.
- ContactSection.ValidateForm: the e-mail syntax of the form library is the parameter `isEmail`.
- Routing (wouter), PortableText rendering beyond the image and code blocks, and the presentational components (header, footer, hero and other sections, cards).
- The unused mock arrays of the blog and portfolio pages, and the deploy script.
- Storage.CreateUser: the `unique()` constraint on `username` in the table schema is not enforced, because the in-memory store does not enforce it either. Two users can share a name, and Storage.GetUserByUsername then returns the first-created one.
- Storage.MemStorage: a `Map` keyed by id is a sequence in insertion order; since ids equal positions plus one in every reachable store, the two agree.
- Storage.CreateContactSubmission: ids are unbounded naturals; JavaScript numbers lose precision after 2^53 creations.
- Routes.PostContact: a failure other than a refused body is the input `fault`, since the in-memory store never throws.
- The colour of a category badge, and the category colour field.
- CmsSchema.RequiredRule: the studio's `required()` is modelled as "field filled in"; an empty string counts as filled in.
- CmsSchema.WebsiteUrlRule: checks only the scheme. The scheme is lower-cased and leading spaces and control characters are dropped, as the URL parser does. The parser's removal of tabs and newlines inside the text, and the rest of the URI syntax, are not modelled.
- The slug generation options (source field, maximum length 96) are not validation rules.
- CmsSchema.PortfolioProjectViolations: the project type's option list is treated as a rule (a value outside it is reported), while the studio only offers the list.
- Seo.SeoProps: the structured data, an object in the component, is its serialised JSON text.
- HeadTags.Head: `querySelector` searches the whole document; the model's lookups search the head, where every element the component creates is appended.
- Carousel: the length of the case-study list, the constant 3, is a parameter required to be positive.

=== FILE: blog_listing.dfy ===
/**
 The blog index: category facets, the category-and-search filter, the
 featured slot and the regular grid, and the "No articles found" message.

 A fetched post whose `categories` or `tags` field is missing is represented
 with an empty sequence: the page reaches both fields through `?.`, and an
 optional chain on a missing array is falsy exactly as `some` on `[]` is.
 */
module BlogListing {
  import opened Options
  import opened Text
  import opened Seqs
  import opened Listing
  import opened FetchState

  datatype Category = Category(title: string, slug: string)

  datatype Post = Post(
    id: string,
    title: string,
    slug: string,
    excerpt: string,
    categories: seq<Category>,
    tags: seq<string>,
    featured: bool)

  // ---------------------------------------------------------------------------
  // Facets
  // ---------------------------------------------------------------------------

  function Titles(cats: seq<Category>): (r: seq<string>)
    ensures |r| == |cats|
    ensures forall i :: 0 <= i < |cats| ==> r[i] == cats[i].title
  {
    seq(|cats|, i requires 0 <= i < |cats| => cats[i].title)
  }

  /** `posts.flatMap(post => post.categories.map(cat => cat.title))`. */
  function CategoryTitles(posts: seq<Post>): seq<string> {
    if |posts| == 0 then []
    else Titles(posts[0].categories) + CategoryTitles(posts[1..])
  }

  /** `t` is the title of some category of some post. */
  predicate HasCategoryTitled(posts: seq<Post>, t: string) {
    exists i, j :: 0 <= i < |posts| && 0 <= j < |posts[i].categories| && posts[i].categories[j].title == t
  }

  lemma {:induction false} CategoryTitlesMembership(posts: seq<Post>, t: string)
    ensures t in CategoryTitles(posts) <==> HasCategoryTitled(posts, t)
    decreases |posts|
  {
    if |posts| > 0 {
      CategoryTitlesMembership(posts[1..], t);
      var head := Titles(posts[0].categories);
      assert t in head <==> exists j :: 0 <= j < |posts[0].categories| && posts[0].categories[j].title == t;
      if HasCategoryTitled(posts[1..], t) {
        var i, j :| 0 <= i < |posts[1..]| && 0 <= j < |posts[1..][i].categories| && posts[1..][i].categories[j].title == t;
        assert posts[i + 1].categories[j].title == t;
      }
      if HasCategoryTitled(posts, t) {
        var i, j :| 0 <= i < |posts| && 0 <= j < |posts[i].categories| && posts[i].categories[j].title == t;
        if i > 0 {
          assert posts[1..][i - 1].categories[j].title == t;
        }
      }
    }
  }

  /** The category buttons: "All", then each distinct category title over all
      fetched posts, in first-seen order. They depend on nothing but the
      fetched posts: not on the selected category, not on the search term. */
  function CategoryFacets(posts: seq<Post>): (r: seq<string>)
    ensures |r| >= 1 && r[0] == All
    ensures NoDuplicates(r[1..])
    ensures forall t :: t in r[1..] <==> HasCategoryTitled(posts, t)
  {
    var r := Facets(CategoryTitles(posts));
    forall t ensures t in r[1..] <==> HasCategoryTitled(posts, t) {
      CategoryTitlesMembership(posts, t);
    }
    r
  }

  // ---------------------------------------------------------------------------
  // Filter
  // ---------------------------------------------------------------------------

  predicate MatchesCategory(p: Post, selected: string) {
    selected == All || exists j :: 0 <= j < |p.categories| && p.categories[j].title == selected
  }

  /** The lowered search term occurs in the lowered title, excerpt or some tag. */
  predicate MatchesSearch(p: Post, term: string) {
    var needle := Lower(term);
    || Includes(Lower(p.title), needle)
    || Includes(Lower(p.excerpt), needle)
    || exists k :: 0 <= k < |p.tags| && Includes(Lower(p.tags[k]), needle)
  }

  predicate Visible(p: Post, selected: string, term: string) {
    MatchesCategory(p, selected) && MatchesSearch(p, term)
  }

  function VisibleTest(selected: string, term: string): Post -> bool {
    p => Visible(p, selected, term)
  }

  function IsFeatured(p: Post): bool { p.featured }

  function NotFeatured(p: Post): bool { !p.featured }

  /** `filteredPosts`. */
  function FilteredPosts(posts: seq<Post>, selected: string, term: string): (r: seq<Post>)
    ensures forall i :: 0 <= i < |r| ==> Visible(r[i], selected, term)
    ensures |r| <= |posts|
  {
    Filter(posts, VisibleTest(selected, term))
  }

  /** A post is listed iff it was fetched, matches the category and matches
      the search; the listing keeps the fetched order and never adds or
      repeats a post. */
  lemma FilteredPostsSpec(posts: seq<Post>, selected: string, term: string, p: Post)
    ensures p in FilteredPosts(posts, selected, term) <==>
              p in posts && MatchesCategory(p, selected) && MatchesSearch(p, term)
    ensures multiset(FilteredPosts(posts, selected, term))[p] ==
              if Visible(p, selected, term) then multiset(posts)[p] else 0
    ensures IsSubsequence(FilteredPosts(posts, selected, term), posts)
  {
    FilterMembership(posts, VisibleTest(selected, term), p);
    FilterMultiplicity(posts, VisibleTest(selected, term), p);
    FilterIsSubsequence(posts, VisibleTest(selected, term));
  }

  /** Searching is case-insensitive: the term is lowered before matching. */
  lemma SearchIgnoresCase(posts: seq<Post>, selected: string, term: string)
    ensures FilteredPosts(posts, selected, Lower(term)) == FilteredPosts(posts, selected, term)
  {
    LowerIdempotent(term);
    FilterExtensional(posts, VisibleTest(selected, Lower(term)), VisibleTest(selected, term));
  }

  /** In the initial state (category "All", empty search) every fetched post is listed. */
  lemma InitialFilterKeepsAll(posts: seq<Post>)
    ensures FilteredPosts(posts, All, "") == posts
  {
    forall i | 0 <= i < |posts| ensures VisibleTest(All, "")(posts[i]) {
      IncludesEmpty(Lower(posts[i].title));
    }
    FilterKeepsAll(posts, VisibleTest(All, ""));
  }

  /** Filtering an already filtered list changes nothing. */
  lemma FilterTwiceIsOnce(posts: seq<Post>, selected: string, term: string)
    ensures FilteredPosts(FilteredPosts(posts, selected, term), selected, term) ==
            FilteredPosts(posts, selected, term)
  {
    FilterIdempotent(posts, VisibleTest(selected, term));
  }

  /** With an empty search, each non-"All" category button lists at least one post. */
  lemma SelectedFacetNonEmpty(posts: seq<Post>, selected: string)
    requires selected in CategoryFacets(posts)[1..]
    ensures |FilteredPosts(posts, selected, "")| > 0
  {
    var i, j :| 0 <= i < |posts| && 0 <= j < |posts[i].categories| && posts[i].categories[j].title == selected;
    IncludesEmpty(Lower(posts[i].title));
    FilterMembership(posts, VisibleTest(selected, ""), posts[i]);
  }

  // ---------------------------------------------------------------------------
  // Featured slot and regular grid
  // ---------------------------------------------------------------------------

  /** `featuredPost`: the first featured post of the filtered list, if any. */
  function FeaturedPost(filtered: seq<Post>): (r: Option<Post>)
    ensures r.None? <==> forall i :: 0 <= i < |filtered| ==> !filtered[i].featured
    ensures r.Some? ==> exists i :: 0 <= i < |filtered| && filtered[i] == r.value && r.value.featured &&
                          forall j :: 0 <= j < i ==> !filtered[j].featured
  {
    var k := FirstIndex(filtered, IsFeatured);
    match k
    case None => None
    case Some(i) => Some(filtered[i])
  }

  /** `regularPosts`: the filtered posts that are not featured, in order. */
  function RegularPosts(filtered: seq<Post>): (r: seq<Post>)
    ensures forall i :: 0 <= i < |r| ==> !r[i].featured
  {
    Filter(filtered, NotFeatured)
  }

  /** The regular grid is exactly the non-featured filtered posts, in fetched order. */
  lemma RegularPostsSpec(posts: seq<Post>, selected: string, term: string, p: Post)
    ensures p in RegularPosts(FilteredPosts(posts, selected, term)) <==>
              p in posts && Visible(p, selected, term) && !p.featured
    ensures IsSubsequence(RegularPosts(FilteredPosts(posts, selected, term)), posts)
  {
    var filtered := FilteredPosts(posts, selected, term);
    FilterMembership(filtered, NotFeatured, p);
    FilterMembership(posts, VisibleTest(selected, term), p);
    var both := (q: Post) => Visible(q, selected, term) && !q.featured;
    FilterFilter(posts, VisibleTest(selected, term), NotFeatured, both);
    FilterIsSubsequence(posts, both);
  }

  // ---------------------------------------------------------------------------
  // The page
  // ---------------------------------------------------------------------------

  datatype BlogPage =
    | BlogLoading
    | BlogError
    | BlogIndex(
        categories: seq<string>,
        featured: Option<Post>,     // the featured card, when it renders
        regular: seq<Post>,         // the grid
        noArticlesFound: bool)      // the empty-state message

  /** What the blog index renders for a query result, a selected category and a search term. */
  function RenderBlog(q: Query<seq<Post>>, selected: string, term: string): (r: BlogPage)
    ensures q.isLoading ==> r.BlogLoading?
    ensures r.BlogError? <==> !q.isLoading && q.failed
    ensures r.BlogIndex? <==> !q.isLoading && !q.failed
    ensures r.BlogIndex? ==> r.categories == CategoryFacets(ListingItems(q))
    ensures r.BlogIndex? ==> r.regular == RegularPosts(FilteredPosts(ListingItems(q), selected, term))
    ensures r.BlogIndex? && selected == All ==> r.featured == FeaturedPost(FilteredPosts(ListingItems(q), selected, term))
    ensures r.BlogIndex? && selected != All ==> r.featured.None?
    ensures r.BlogIndex? ==> (r.noArticlesFound <==> forall p :: p in ListingItems(q) ==> !Visible(p, selected, term))
  {
    match ListingPhaseOf(q)
    case ListLoading => BlogLoading
    case ListFailed => BlogError
    case ListReady =>
      var posts := ListingItems(q);
      var filtered := FilteredPosts(posts, selected, term);
      forall p ensures p in filtered <==> p in posts && Visible(p, selected, term) {
        FilteredPostsSpec(posts, selected, term, p);
      }
      BlogIndex(
        CategoryFacets(posts),
        if selected == All then FeaturedPost(filtered) else None,
        RegularPosts(filtered),
        |filtered| == 0)
  }

  /** The posts a rendered index actually shows: the featured card, then the grid. */
  function Shown(page: BlogPage): seq<Post>
    requires page.BlogIndex?
  {
    (match page.featured case Some(p) => [p] case None => []) + page.regular
  }

  /** A listed post is shown iff it is not featured, or it is the first
      featured post and the category is "All". Every other featured match
      (under a specific category, or after the first) is never shown. */
  lemma ShownIff(posts: seq<Post>, selected: string, term: string, p: Post)
    ensures RenderBlog(Query(false, false, Some(posts)), selected, term).BlogIndex?
    ensures p in Shown(RenderBlog(Query(false, false, Some(posts)), selected, term)) <==>
              p in FilteredPosts(posts, selected, term) &&
              (!p.featured || (selected == All && FeaturedPost(FilteredPosts(posts, selected, term)) == Some(p)))
  {
    var filtered := FilteredPosts(posts, selected, term);
    FilterMembership(filtered, NotFeatured, p);
    var fp := FeaturedPost(filtered);
    if fp.Some? {
      var i :| 0 <= i < |filtered| && filtered[i] == fp.value;
    }
  }

  /** A featured match that differs from the first featured match is never shown. */
  lemma SecondFeaturedHidden(posts: seq<Post>, selected: string, term: string, i: nat, j: nat)
    requires i < j < |FilteredPosts(posts, selected, term)|
    requires FilteredPosts(posts, selected, term)[i].featured
    requires forall m :: 0 <= m < i ==> !FilteredPosts(posts, selected, term)[m].featured
    requires FilteredPosts(posts, selected, term)[j].featured
    requires FilteredPosts(posts, selected, term)[i] != FilteredPosts(posts, selected, term)[j]
    ensures FilteredPosts(posts, selected, term)[j] !in Shown(RenderBlog(Query(false, false, Some(posts)), selected, term))
  {
    var filtered := FilteredPosts(posts, selected, term);
    var p := filtered[j];
    ShownIff(posts, selected, term, p);
    var fp := FeaturedPost(filtered);
    assert fp.Some?;
    var k :| 0 <= k < |filtered| && filtered[k] == fp.value && fp.value.featured &&
             forall m :: 0 <= m < k ==> !filtered[m].featured;
    assert !(k < i) && !(i < k);
    assert fp.value == filtered[i];
  }

  /** A page can be blank without the empty-state message: when every match
      is featured and the category is not "All", the featured card is
      suppressed, the grid is empty, and "No articles found" does not show
      because the filtered list is not empty. */
  lemma BlankPageWithoutMessage()
    ensures var post := Post("1", "Intro", "intro", "Hello", [Category("AI", "ai")], [], true);
            var page := RenderBlog(Query(false, false, Some([post])), "AI", "");
            page.BlogIndex? && Shown(page) == [] && !page.noArticlesFound
  {
    var post := Post("1", "Intro", "intro", "Hello", [Category("AI", "ai")], [], true);
    IncludesEmpty(Lower(post.title));
    assert post.categories[0].title == "AI";
    assert Visible(post, "AI", "");
    FilterMembership([post], VisibleTest("AI", ""), post);
  }
}

=== FILE: blog_post_page.dfy ===
/**
 The blog post page: the SEO props it derives from the fetched post, the
 order in which it tests the query, the parts of the article it shows or
 hides, and the defaults of its two custom PortableText blocks (images and
 code).
 */
module BlogPostPage {
  import opened Options
  import opened Text
  import opened FetchState
  import opened ImageUrl
  import opened HeadTags
  import opened Seo

  datatype PostSeo = PostSeo(metaTitle: Option<string>, metaDescription: Option<string>, keywords: Option<seq<string>>)

  datatype Author = Author(name: string, image: Option<string>, position: Option<string>)

  datatype BlogPostData = BlogPostData(
    title: string,
    slug: string,
    excerpt: string,
    featuredImage: Option<string>,
    publishedAt: string,
    author: Author,
    categories: seq<string>,        // category titles, in the post's order
    tags: Option<seq<string>>,
    seo: Option<PostSeo>)

  const TitleSuffix := " | Blackbox Logic Blog"
  const CanonicalBase := "https://blkboxlogic.com/blog/"
  const SocialImageSize := Size(1200, Some(630))
  const FeaturedImageSize := Size(1200, None)
  const AuthorImageSize := Size(80, Some(80))
  const BodyImageSize := Size(800, Some(500))

  // ---------------------------------------------------------------------------
  // SEO props
  // ---------------------------------------------------------------------------

  function MetaTitle(post: BlogPostData): Option<string> {
    if post.seo.Some? then post.seo.value.metaTitle else None
  }

  function MetaDescription(post: BlogPostData): Option<string> {
    if post.seo.Some? then post.seo.value.metaDescription else None
  }

  /** `post.seo?.keywords?.join(', ')`. */
  function SeoKeywords(post: BlogPostData): Option<string> {
    if post.seo.Some? && post.seo.value.keywords.Some? then Some(Join(post.seo.value.keywords.value, ", ")) else None
  }

  /** `post.tags?.join(', ')`. */
  function TagKeywords(post: BlogPostData): Option<string> {
    if post.tags.Some? then Some(Join(post.tags.value, ", ")) else None
  }

  /** The props the page hands to the SEO component. */
  function SeoConfig(post: BlogPostData, urlFor: UrlFor): (r: SeoProps)
    ensures Truthy(r.title) && Truthy(r.canonical)
    ensures r.ogImage.Some? <==> post.featuredImage.Some?
    ensures r.twitterTitle.None? && r.twitterDescription.None? && r.structuredData.None?
    ensures r.title.value == if Truthy(MetaTitle(post)) then MetaTitle(post).value else post.title + TitleSuffix
    ensures r.description == if Truthy(MetaDescription(post)) then MetaDescription(post) else Some(post.excerpt)
  {
    SeoProps(
      title := Or(MetaTitle(post), Some(post.title + TitleSuffix)),
      description := Or(MetaDescription(post), Some(post.excerpt)),
      keywords := Or(SeoKeywords(post), TagKeywords(post)),
      canonical := Some(PageUrl(CanonicalBase, post.slug)),
      ogTitle := Some(post.title),
      ogDescription := Some(post.excerpt),
      ogImage := if post.featuredImage.Some? then Some(urlFor(post.featuredImage.value, SocialImageSize)) else None,
      twitterTitle := None,
      twitterDescription := None,
      structuredData := None)
  }

  /** Keywords come from the SEO keyword list when it joins to something
      non-empty; an absent list, an empty one or a single empty keyword
      falls back to the tags. */
  lemma KeywordsFallback(post: BlogPostData, urlFor: UrlFor)
    ensures var kws := if post.seo.Some? then post.seo.value.keywords else None;
            var r := SeoConfig(post, urlFor).keywords;
            && (kws.Some? && (|kws.value| > 1 || (|kws.value| == 1 && kws.value[0] != "")) ==>
                  r == Some(Join(kws.value, ", ")))
            && (kws.None? || kws.value == [] || kws.value == [""] ==> r == TagKeywords(post))
  {
    if post.seo.Some? && post.seo.value.keywords.Some? {
      JoinEmptyIff(post.seo.value.keywords.value, ", ");
    }
  }

  /** The canonical URL determines the slug: distinct posts never share one. */
  lemma CanonicalInjective(post: BlogPostData, other: BlogPostData, urlFor: UrlFor)
    requires post.slug != other.slug
    ensures SeoConfig(post, urlFor).canonical != SeoConfig(other, urlFor).canonical
  {
    assert StripPrefix(PageUrl(CanonicalBase, post.slug), CanonicalBase) == Some(post.slug);
  }

  /** What the head holds once the SEO component has run with the page's
      props: the page title, the canonical URL in all three places, and the
      social image in both image tags exactly when the post has a featured
      image (and its URL is non-empty); without one, both image tags are
      left as they were. */
  lemma BlogPostHead(h: Head, post: BlogPostData, urlFor: UrlFor)
    ensures var r := ApplySeo(h, SeoConfig(post, urlFor));
            var url := PageUrl(CanonicalBase, post.slug);
            && r.title == SeoConfig(post, urlFor).title.value
            && LinkHref(r, CanonicalRel) == Some(url)
            && MetaContent(r, OgUrl) == Some(url)
            && MetaContent(r, TwitterUrl) == Some(url)
            && (post.featuredImage.Some? && urlFor(post.featuredImage.value, SocialImageSize) != "" ==>
                  MetaContent(r, OgImage) == Some(urlFor(post.featuredImage.value, SocialImageSize)) &&
                  MetaContent(r, TwitterImage) == Some(urlFor(post.featuredImage.value, SocialImageSize)))
            && (!(post.featuredImage.Some? && urlFor(post.featuredImage.value, SocialImageSize) != "") ==>
                  MetaContent(r, OgImage) == MetaContent(h, OgImage) &&
                  MetaContent(r, TwitterImage) == MetaContent(h, TwitterImage))
  {
    var p := SeoConfig(post, urlFor);
    ApplySeoFanOut(h, p);
    if !(post.featuredImage.Some? && urlFor(post.featuredImage.value, SocialImageSize) != "") {
      ImageGuard(h, p);
    }
  }

  // ---------------------------------------------------------------------------
  // The page
  // ---------------------------------------------------------------------------

  /** What the article shows once the post is there. */
  datatype Article = Article(
    seo: SeoProps,
    featuredImage: Option<string>,   // the URL of the hero image, when shown
    badge: Option<string>,           // the first category's title
    authorImage: Option<string>,     // the author's photo; the placeholder icon otherwise
    authorPosition: Option<string>,
    tags: seq<string>)               // the tags section; empty when it does not render

  /** `x ? urlFor(x)...url() : null`, then shown only when the URL is truthy. */
  function ShownImage(asset: Option<string>, urlFor: UrlFor, size: Size): (r: Option<string>)
    ensures r.Some? <==> asset.Some? && urlFor(asset.value, size) != ""
    ensures r.Some? ==> r.value == urlFor(asset.value, size)
  {
    if asset.Some? && urlFor(asset.value, size) != "" then Some(urlFor(asset.value, size)) else None
  }

  function RenderArticle(post: BlogPostData, urlFor: UrlFor): (r: Article)
    ensures r.badge.Some? <==> |post.categories| > 0
    ensures r.badge.Some? ==> r.badge.value == post.categories[0]
    ensures |r.tags| > 0 <==> post.tags.Some? && |post.tags.value| > 0
    ensures |r.tags| > 0 ==> r.tags == post.tags.value
    ensures r.authorPosition.Some? <==> Truthy(post.author.position)
  {
    Article(
      SeoConfig(post, urlFor),
      ShownImage(post.featuredImage, urlFor, FeaturedImageSize),
      if |post.categories| > 0 then Some(post.categories[0]) else None,
      ShownImage(post.author.image, urlFor, AuthorImageSize),
      if Truthy(post.author.position) then post.author.position else None,
      if post.tags.Some? && |post.tags.value| > 0 then post.tags.value else [])
  }

  /** The page: loading first, then "not found" for an error or a missing
      post, then the article. */
  function RenderBlogPost(q: Query<BlogPostData>, urlFor: UrlFor): (r: DetailView<Article>)
    ensures q.isLoading ==> r.DetailLoading?
    ensures r.NotFound? <==> !q.isLoading && (q.failed || q.data.None?)
    ensures r.Found? ==> q.data.Some? && r.item == RenderArticle(q.data.value, urlFor)
  {
    match DetailViewOf(q)
    case DetailLoading => DetailLoading
    case NotFound => NotFound
    case Found(post) => Found(RenderArticle(post, urlFor))
  }

  // ---------------------------------------------------------------------------
  // PortableText blocks
  // ---------------------------------------------------------------------------

  datatype ImageBlock = ImageBlock(asset: string, alt: Option<string>)

  datatype Figure = Figure(src: string, alt: string, caption: Option<string>)

  const DefaultAlt := "Blog image"

  /** An image's caption appears exactly when it has alternative text, and
      then repeats it; without one the alt attribute is "Blog image". */
  function RenderImageBlock(b: ImageBlock, urlFor: UrlFor): (r: Figure)
    ensures r.src == urlFor(b.asset, BodyImageSize)
    ensures r.caption.Some? <==> Truthy(b.alt)
    ensures r.caption.Some? ==> r.caption.value == r.alt == b.alt.value
    ensures r.caption.None? ==> r.alt == DefaultAlt
  {
    Figure(
      urlFor(b.asset, BodyImageSize),
      Or(b.alt, Some(DefaultAlt)).value,
      if Truthy(b.alt) then b.alt else None)
  }

  datatype CodeBlock = CodeBlock(code: string, language: Option<string>, filename: Option<string>)

  datatype CodeFigure = CodeFigure(header: Option<string>, className: string, text: string)

  const LanguagePrefix := "language-"
  const DefaultLanguage := "text"

  function RenderCodeBlock(b: CodeBlock): (r: CodeFigure)
    ensures r.text == b.code
  {
    CodeFigure(
      if Truthy(b.filename) then b.filename else None,
      LanguagePrefix + Or(b.language, Some(DefaultLanguage)).value,
      b.code)
  }

  /** The class names the language, "text" when there is none; the header
      shows the file name exactly when there is one. */
  lemma CodeClassLanguage(b: CodeBlock)
    ensures var f := RenderCodeBlock(b);
            && StripPrefix(f.className, LanguagePrefix) == Some(if Truthy(b.language) then b.language.value else DefaultLanguage)
            && (f.header.Some? <==> Truthy(b.filename))
            && (f.header.Some? ==> f.header == b.filename)
  {
    StripPrefixConcat(LanguagePrefix, Or(b.language, Some(DefaultLanguage)).value);
  }
}

=== FILE: carousel.dfy ===
/**
 The success-stories carousel: an index into the list of case studies,
 moved by the previous and next arrows (which wrap around) and set directly
 by the dots under the visual. The list is a constant of three entries; the
 model takes its length as a parameter and requires it to be positive, as
 the arrows' wrap-around needs.
 */
module Carousel {
  import opened Seqs

  /** The length of the page's case-study list. */
  const CaseStudyCount: nat := 3

  datatype Carousel = Carousel(count: nat, active: nat)

  predicate Valid(c: Carousel) {
    c.active < c.count
  }

  /** `useState(0)`. */
  function Initial(count: nat): (r: Carousel)
    requires count > 0
    ensures Valid(r) && r.active == 0 && r.count == count
  {
    Carousel(count, 0)
  }

  /** `handlePrevious`: the first entry steps back to the last. */
  function Previous(c: Carousel): (r: Carousel)
    requires c.count > 0
    ensures r.count == c.count
    ensures Valid(c) ==> Valid(r) && r.active == (c.active + c.count - 1) % c.count
  {
    WrapBack(c.count, c.active);
    Carousel(c.count, if c.active == 0 then c.count - 1 else c.active - 1)
  }

  /** `handleNext`: the last entry steps on to the first. */
  function Next(c: Carousel): (r: Carousel)
    requires c.count > 0
    ensures r.count == c.count
    ensures Valid(c) ==> Valid(r) && r.active == (c.active + 1) % c.count
  {
    WrapForward(c.count, c.active);
    Carousel(c.count, if c.active == c.count - 1 then 0 else c.active + 1)
  }

  /** Stepping back from index 0 lands on the last index, as `- 1` modulo the length does. */
  lemma WrapBack(count: nat, active: nat)
    requires count > 0
    ensures active < count ==>
              (active + count - 1) % count == if active == 0 then count - 1 else active - 1
  {
    if active < count {
      if active == 0 {
        ModUnique(count - 1, count, 0, count - 1);
      } else {
        ModUnique(active + count - 1, count, 1, active - 1);
      }
    }
  }

  /** Stepping on from the last index lands on index 0, as `+ 1` modulo the length does. */
  lemma WrapForward(count: nat, active: nat)
    requires count > 0
    ensures active < count ==>
              (active + 1) % count == if active == count - 1 then 0 else active + 1
  {
    if active < count {
      if active == count - 1 {
        ModUnique(count, count, 1, 0);
      } else {
        ModUnique(active + 1, count, 0, active + 1);
      }
    }
  }

  /** A dot click: the dots offer exactly the indices of the list. */
  function Select(c: Carousel, index: nat): (r: Carousel)
    requires index < c.count
    ensures Valid(r) && r.count == c.count && r.active == index
  {
    Carousel(c.count, index)
  }

  /** Whether each dot is highlighted. */
  function Dots(c: Carousel): (r: seq<bool>)
    ensures |r| == c.count
    ensures forall i :: 0 <= i < |r| ==> (r[i] <==> i == c.active)
  {
    seq(c.count, i => i == c.active)
  }

  /** In a valid carousel exactly one dot is highlighted: the active one. */
  lemma ExactlyOneDot(c: Carousel)
    requires Valid(c)
    ensures var d := Dots(c); (set i | 0 <= i < |d| && d[i]) == {c.active}
    ensures |Filter(Dots(c), (b: bool) => b)| == 1
  {
    var d := Dots(c);
    var ds := d[..c.active] + [d[c.active]] + d[c.active + 1..];
    assert d == ds;
    FilterConcat(d[..c.active] + [d[c.active]], d[c.active + 1..], (b: bool) => b);
    FilterConcat(d[..c.active], [d[c.active]], (b: bool) => b);
    FilterDropsAll(d[..c.active], (b: bool) => b);
    FilterDropsAll(d[c.active + 1..], (b: bool) => b);
    assert [d[c.active]][1..] == [];
  }

  /** The two arrows undo each other. */
  lemma PreviousNextInverse(c: Carousel)
    requires Valid(c)
    ensures Previous(Next(c)) == c
    ensures Next(Previous(c)) == c
  {
  }

  /** `k` clicks on the next arrow: they advance the index by `k`, modulo
      the length. */
  function NextN(c: Carousel, k: nat): (r: Carousel)
    requires c.count > 0
    ensures r.count == c.count
    ensures Valid(c) ==> Valid(r) && r.active == (c.active + k) % c.count
  {
    if k == 0 then
      ModSmall(c.active, c.count);
      c
    else
      ModSucc(c.active + k - 1, c.count);
      Next(NextN(c, k - 1))
  }

  lemma ModSmall(x: nat, n: nat)
    requires n > 0
    ensures x < n ==> x % n == x
  {
    if x < n {
      ModUnique(x, n, 0, x);
    }
  }

  lemma MulAtLeast(d: int, n: int)
    requires d >= 1 && n > 0
    ensures d * n >= n
  {
    assert d * n == (d - 1) * n + n;
  }

  /** A quotient and a remainder in range are the ones `/` and `%` give. */
  lemma ModUnique(x: int, n: int, q: int, r: int)
    requires n > 0 && 0 <= r < n && x == q * n + r
    ensures x % n == r
  {
    var q2, r2 := x / n, x % n;
    assert (q - q2) * n == r2 - r;
    if q2 < q {
      MulAtLeast(q - q2, n);
    } else if q2 > q {
      MulAtLeast(q2 - q, n);
    }
  }

  lemma ModSucc(x: nat, n: nat)
    requires n > 0
    ensures (x % n + 1) % n == (x + 1) % n
  {
    var q, r := x / n, x % n;
    if r + 1 < n {
      ModUnique(r + 1, n, 0, r + 1);
      ModUnique(x + 1, n, q, r + 1);
    } else {
      ModUnique(r + 1, n, 1, 0);
      assert x + 1 == (q + 1) * n;
      ModUnique(x + 1, n, q + 1, 0);
    }
  }

  /** Clicking next once per case study comes back to where it started. */
  lemma NextFullCircle(c: Carousel)
    requires Valid(c)
    ensures NextN(c, c.count) == c
  {
    var r := NextN(c, c.count);
    ModUnique(c.active + c.count, c.count, 1, c.active);
    assert r.active == c.active && r.count == c.count;
  }

  /** On the page's three case studies, the previous arrow from the first
      study shows the third, and three clicks on next come back to the first. */
  lemma CaseStudyWrap()
    ensures var c := Initial(CaseStudyCount);
            && Previous(c).active == CaseStudyCount - 1
            && Next(Previous(c)) == c
            && NextN(c, CaseStudyCount) == c
  {
    var c := Initial(CaseStudyCount);
    PreviousNextInverse(c);
    NextFullCircle(c);
  }

  datatype Click = PreviousClick | NextClick | DotClick(index: nat)

  /** The dots only offer indices of the list. */
  predicate Offered(clicks: seq<Click>, count: nat) {
    forall i :: 0 <= i < |clicks| && clicks[i].DotClick? ==> clicks[i].index < count
  }

  function Handle(c: Carousel, click: Click): (r: Carousel)
    requires c.count > 0
    requires click.DotClick? ==> click.index < c.count
    ensures r.count == c.count
  {
    match click
    case PreviousClick => Previous(c)
    case NextClick => Next(c)
    case DotClick(i) => Select(c, i)
  }

  function Run(c: Carousel, clicks: seq<Click>): (r: Carousel)
    requires c.count > 0 && Offered(clicks, c.count)
    ensures r.count == c.count
    decreases |clicks|
  {
    if |clicks| == 0 then c
    else Run(Handle(c, clicks[0]), clicks[1..])
  }

  /** Whatever the clicks, the index stays inside the list, so the current
      case study always exists and exactly one dot is highlighted. */
  lemma {:induction false} RunStaysValid(c: Carousel, clicks: seq<Click>)
    requires Valid(c) && Offered(clicks, c.count)
    ensures Valid(Run(c, clicks))
    decreases |clicks|
  {
    if |clicks| > 0 {
      var next := Handle(c, clicks[0]);
      assert Offered(clicks[1..], c.count) by {
        forall i | 0 <= i < |clicks[1..]| && clicks[1..][i].DotClick? ensures clicks[1..][i].index < c.count {
          assert clicks[1..][i] == clicks[i + 1];
        }
      }
      RunStaysValid(next, clicks[1..]);
    }
  }

  /** The last dot click decides the index when no arrow click follows it. */
  lemma {:induction false} RunLastDot(c: Carousel, clicks: seq<Click>, index: nat)
    requires c.count > 0 && index < c.count && Offered(clicks, c.count)
    ensures Offered(clicks + [DotClick(index)], c.count)
    ensures Run(c, clicks + [DotClick(index)]).active == index
    decreases |clicks|
  {
    var all := clicks + [DotClick(index)];
    forall i | 0 <= i < |all| && all[i].DotClick? ensures all[i].index < c.count {
      if i < |clicks| { assert all[i] == clicks[i]; }
    }
    if |clicks| > 0 {
      assert all[1..] == clicks[1..] + [DotClick(index)];
      assert Offered(clicks[1..], c.count) by {
        forall i | 0 <= i < |clicks[1..]| && clicks[1..][i].DotClick? ensures clicks[1..][i].index < c.count {
          assert clicks[1..][i] == clicks[i + 1];
        }
      }
      RunLastDot(Handle(c, clicks[0]), clicks[1..], index);
    }
  }
}

=== FILE: cms_schema.dfy ===
/**
 The validity rules of the four CMS document types (blog post, portfolio
 project, author, category) as validators: each returns the list of rules a
 document breaks, in field order, and a document is publishable iff that
 list is empty. Also the subtitles the studio's document previews show.

 A field the editor left empty is `None`. Lengths are counted in characters.
 */
module CmsSchema {
  import opened Options
  import opened Text
  import opened Seqs
  import Listing
  import PortfolioListing

  datatype Rule = Required | MaxLength(limit: nat) | MinItems(count: nat) | UriScheme | NotInList

  /** One broken rule: which field, which rule. */
  datatype Violation = Violation(field: string, rule: Rule)

  /** An image with its alternative text. */
  datatype Image = Image(asset: string, alt: Option<string>)

  datatype Seo = Seo(metaTitle: Option<string>, metaDescription: Option<string>, keywords: Option<seq<string>>)

  datatype BlogPostDoc = BlogPostDoc(
    title: Option<string>,
    slug: Option<string>,
    author: Option<string>,          // the referenced author document
    featuredImage: Option<Image>,
    excerpt: Option<string>,
    categories: Option<seq<string>>, // the referenced category documents
    tags: Option<seq<string>>,
    publishedAt: Option<string>,
    featured: Option<bool>,
    seo: Option<Seo>)

  datatype CaseStudy = CaseStudy(
    challenge: Option<string>,
    solution: Option<string>,
    results: Option<string>,
    additionalImages: Option<seq<Image>>)

  datatype Testimonial = Testimonial(quote: Option<string>, clientName: Option<string>, clientPosition: Option<string>)

  datatype PortfolioProjectDoc = PortfolioProjectDoc(
    title: Option<string>,
    slug: Option<string>,
    client: Option<string>,
    websiteUrl: Option<string>,
    previewImage: Option<Image>,
    description: Option<string>,
    technologies: Option<seq<string>>,
    projectType: Option<string>,
    completedAt: Option<string>,
    featured: Option<bool>,
    caseStudy: Option<CaseStudy>,
    testimonial: Option<Testimonial>)

  datatype AuthorDoc = AuthorDoc(
    name: Option<string>, slug: Option<string>, image: Option<Image>,
    position: Option<string>, email: Option<string>)

  datatype CategoryDoc = CategoryDoc(title: Option<string>, slug: Option<string>, description: Option<string>)

  const TitleMax: nat := 100
  const ExcerptMax: nat := 200
  const MetaTitleMax: nat := 60
  const MetaDescriptionMax: nat := 160
  const DescriptionMax: nat := 300

  /** The values the project-type field offers. */
  const ProjectTypeValues: seq<string> := ["website", "ecommerce", "webapp", "ai", "software", "data"]

  // ---------------------------------------------------------------------------
  // Single rules
  // ---------------------------------------------------------------------------

  function Check(ok: bool, field: string, rule: Rule): (r: seq<Violation>)
    ensures r == [] <==> ok
    ensures r != [] ==> r == [Violation(field, rule)]
  {
    if ok then [] else [Violation(field, rule)]
  }

  /** `Rule.required()`: the field is filled in. */
  function RequiredRule<T>(value: Option<T>, field: string): (r: seq<Violation>)
    ensures r == [] <==> value.Some?
  {
    Check(value.Some?, field, Required)
  }

  /** `Rule.max(n)` on a text: an empty field passes. */
  function MaxRule(value: Option<string>, limit: nat, field: string): (r: seq<Violation>)
    ensures r == [] <==> value.None? || |value.value| <= limit
  {
    Check(value.None? || |value.value| <= limit, field, MaxLength(limit))
  }

  /** `Rule.required().max(n)`: only one of the two is reported. */
  function RequiredMaxRule(value: Option<string>, limit: nat, field: string): (r: seq<Violation>)
    ensures r == [] <==> value.Some? && |value.value| <= limit
    ensures |r| <= 1
  {
    if value.None? then [Violation(field, Required)] else MaxRule(value, limit, field)
  }

  /** `Rule.required().min(n)` on an array. */
  function RequiredMinRule<T>(value: Option<seq<T>>, count: nat, field: string): (r: seq<Violation>)
    ensures r == [] <==> value.Some? && |value.value| >= count
    ensures |r| <= 1
  {
    if value.None? then [Violation(field, Required)] else Check(|value.value| >= count, field, MinItems(count))
  }

  /** The scheme of a URI: the text before its first colon, if it has one. */
  function Scheme(uri: string): (r: Option<string>)
    ensures r.Some? ==> |r.value| < |uri| && uri[|r.value|] == ':' && r.value == uri[..|r.value|] &&
                        forall i :: 0 <= i < |r.value| ==> uri[i] != ':'
    ensures r.None? <==> forall i :: 0 <= i < |uri| ==> uri[i] != ':'
  {
    match FirstIndex(uri, (c: char) => c == ':')
    case None => None
    case Some(i) => Some(uri[..i])
  }

  /** The URL parser first drops leading C0 control characters and spaces. */
  function StripLeadingControls(s: string): (r: string)
    ensures |r| <= |s| && r == s[|s| - |r|..]
    ensures forall i :: 0 <= i < |s| - |r| ==> s[i] <= ' '
    ensures |r| > 0 ==> r[0] > ' '
    decreases |s|
  {
    if |s| > 0 && s[0] <= ' ' then StripLeadingControls(s[1..]) else s
  }

  /** Whether the parsed URL's scheme is one of the two allowed ones. The
      parser lower-cases the scheme before the studio compares it. */
  predicate AllowedScheme(uri: string) {
    match Scheme(StripLeadingControls(uri))
    case None => false
    case Some(scheme) => Lower(scheme) == "http" || Lower(scheme) == "https"
  }

  /** `Rule.required().uri({scheme: ['http', 'https']})`. */
  function WebsiteUrlRule(value: Option<string>): (r: seq<Violation>)
    ensures r == [] <==> value.Some? && AllowedScheme(value.value)
    ensures r != [] ==> r == [Violation("websiteUrl", if value.None? then Required else UriScheme)]
  {
    if value.None? then [Violation("websiteUrl", Required)]
    else Check(AllowedScheme(value.value), "websiteUrl", UriScheme)
  }

  /** The scheme of `scheme:rest` is `scheme` when it holds no colon. */
  lemma SchemeOf(scheme: string, rest: string)
    requires forall i :: 0 <= i < |scheme| ==> scheme[i] != ':'
    ensures Scheme(scheme + ":" + rest) == Some(scheme)
  {
    var uri := scheme + ":" + rest;
    assert uri[|scheme|] == ':';
    assert forall i :: 0 <= i < |scheme| ==> uri[i] == scheme[i];
    assert uri[..|scheme|] == scheme;
  }

  /** A URL whose scheme is "http" or "https" in any letter case passes. */
  lemma SchemeAccepted(scheme: string, rest: string)
    requires |scheme| > 0 && scheme[0] > ' '
    requires forall i :: 0 <= i < |scheme| ==> scheme[i] != ':'
    requires Lower(scheme) == "http" || Lower(scheme) == "https"
    ensures WebsiteUrlRule(Some(scheme + ":" + rest)) == []
  {
    var uri := scheme + ":" + rest;
    assert uri[0] == scheme[0];
    assert StripLeadingControls(uri) == uri;
    SchemeOf(scheme, rest);
  }

  /** A URL with any other scheme is refused for its scheme. */
  lemma SchemeRefused(scheme: string, rest: string)
    requires |scheme| > 0 && scheme[0] > ' '
    requires forall i :: 0 <= i < |scheme| ==> scheme[i] != ':'
    requires Lower(scheme) != "http" && Lower(scheme) != "https"
    ensures WebsiteUrlRule(Some(scheme + ":" + rest)) == [Violation("websiteUrl", UriScheme)]
  {
    var uri := scheme + ":" + rest;
    assert uri[0] == scheme[0];
    assert StripLeadingControls(uri) == uri;
    SchemeOf(scheme, rest);
  }

  /** The studio accepts an upper-case scheme. */
  lemma UpperCaseSchemeAccepted()
    ensures WebsiteUrlRule(Some("HTTPS://blkboxlogic.com")) == []
  {
    assert "HTTPS" + ":" + "//blkboxlogic.com" == "HTTPS://blkboxlogic.com";
    assert Lower("HTTPS") == "https";
    SchemeAccepted("HTTPS", "//blkboxlogic.com");
  }

  /** An image whose alternative text is required. */
  function ImageAltRule(image: Option<Image>, field: string): (r: seq<Violation>)
    ensures r == [] <==> image.None? || image.value.alt.Some?
  {
    Check(image.None? || image.value.alt.Some?, field + ".alt", Required)
  }

  // ---------------------------------------------------------------------------
  // Documents
  // ---------------------------------------------------------------------------

  function SeoViolations(seo: Option<Seo>): (r: seq<Violation>)
    ensures r == [] <==> seo.None? || (MaxRule(seo.value.metaTitle, MetaTitleMax, "") == [] &&
                                       MaxRule(seo.value.metaDescription, MetaDescriptionMax, "") == [])
  {
    match seo
    case None => []
    case Some(s) =>
      MaxRule(s.metaTitle, MetaTitleMax, "seo.metaTitle")
      + MaxRule(s.metaDescription, MetaDescriptionMax, "seo.metaDescription")
  }

  /** Every rule a blog post breaks. */
  function BlogPostViolations(d: BlogPostDoc): (r: seq<Violation>)
    ensures r == [] <==>
              && d.title.Some? && |d.title.value| <= TitleMax
              && d.slug.Some?
              && d.author.Some?
              && (d.featuredImage.Some? ==> d.featuredImage.value.alt.Some?)
              && d.excerpt.Some? && |d.excerpt.value| <= ExcerptMax
              && d.categories.Some? && |d.categories.value| >= 1
              && d.publishedAt.Some?
              && (d.seo.Some? ==> (d.seo.value.metaTitle.Some? ==> |d.seo.value.metaTitle.value| <= MetaTitleMax) &&
                                  (d.seo.value.metaDescription.Some? ==> |d.seo.value.metaDescription.value| <= MetaDescriptionMax))
  {
    RequiredMaxRule(d.title, TitleMax, "title")
    + RequiredRule(d.slug, "slug")
    + RequiredRule(d.author, "author")
    + ImageAltRule(d.featuredImage, "featuredImage")
    + RequiredMaxRule(d.excerpt, ExcerptMax, "excerpt")
    + RequiredMinRule(d.categories, 1, "categories")
    + RequiredRule(d.publishedAt, "publishedAt")
    + SeoViolations(d.seo)
  }

  /** Every rule a portfolio project breaks. */
  function PortfolioProjectViolations(d: PortfolioProjectDoc): (r: seq<Violation>)
    ensures r == [] <==>
              && d.title.Some? && |d.title.value| <= TitleMax
              && d.slug.Some?
              && d.client.Some?
              && d.websiteUrl.Some? && AllowedScheme(d.websiteUrl.value)
              && d.previewImage.Some? && d.previewImage.value.alt.Some?
              && d.description.Some? && |d.description.value| <= DescriptionMax
              && d.technologies.Some? && |d.technologies.value| >= 1
              && d.projectType.Some? && d.projectType.value in ProjectTypeValues
              && d.completedAt.Some?
  {
    RequiredMaxRule(d.title, TitleMax, "title")
    + RequiredRule(d.slug, "slug")
    + RequiredRule(d.client, "client")
    + WebsiteUrlRule(d.websiteUrl)
    + RequiredRule(d.previewImage, "previewImage")
    + ImageAltRule(d.previewImage, "previewImage")
    + RequiredMaxRule(d.description, DescriptionMax, "description")
    + RequiredMinRule(d.technologies, 1, "technologies")
    + (if d.projectType.None? then [Violation("projectType", Required)]
       else Check(d.projectType.value in ProjectTypeValues, "projectType", NotInList))
    + RequiredRule(d.completedAt, "completedAt")
  }

  /** An author needs only a name. */
  function AuthorViolations(d: AuthorDoc): (r: seq<Violation>)
    ensures r == [] <==> d.name.Some?
  {
    RequiredRule(d.name, "name")
  }

  /** A category needs only a title. */
  function CategoryViolations(d: CategoryDoc): (r: seq<Violation>)
    ensures r == [] <==> d.title.Some?
  {
    RequiredRule(d.title, "title")
  }

  /** Each broken rule is reported once: a missing required text is not also
      reported as too long. */
  lemma BlogViolationsOncePerField(d: BlogPostDoc)
    ensures d.title.None? ==> Violation("title", Required) in BlogPostViolations(d) &&
                              Violation("title", MaxLength(TitleMax)) !in BlogPostViolations(d)
    ensures d.excerpt.Some? && |d.excerpt.value| > ExcerptMax ==>
              Violation("excerpt", MaxLength(ExcerptMax)) in BlogPostViolations(d) &&
              Violation("excerpt", Required) !in BlogPostViolations(d)
  {
    var r := BlogPostViolations(d);
    if d.title.None? {
      assert r[0] == Violation("title", Required);
    }
    if d.excerpt.Some? && |d.excerpt.value| > ExcerptMax {
      var head := RequiredMaxRule(d.title, TitleMax, "title") + RequiredRule(d.slug, "slug")
                  + RequiredRule(d.author, "author") + ImageAltRule(d.featuredImage, "featuredImage");
      var excerpt := RequiredMaxRule(d.excerpt, ExcerptMax, "excerpt");
      var tail := RequiredMinRule(d.categories, 1, "categories") + RequiredRule(d.publishedAt, "publishedAt")
                  + SeoViolations(d.seo);
      assert r == head + excerpt + tail;
      assert excerpt == [Violation("excerpt", MaxLength(ExcerptMax))];
      OtherFieldsOnly(d, head, tail);
    }
  }

  /** The rules around the excerpt's never report a violation on the excerpt. */
  lemma OtherFieldsOnly(d: BlogPostDoc, head: seq<Violation>, tail: seq<Violation>)
    requires head == RequiredMaxRule(d.title, TitleMax, "title") + RequiredRule(d.slug, "slug")
                     + RequiredRule(d.author, "author") + ImageAltRule(d.featuredImage, "featuredImage")
    requires tail == RequiredMinRule(d.categories, 1, "categories") + RequiredRule(d.publishedAt, "publishedAt")
                     + SeoViolations(d.seo)
    ensures forall v :: v in head + tail ==> v.field != "excerpt"
  {
    assert "featuredImage" + ".alt" == "featuredImage.alt";
  }

  // ---------------------------------------------------------------------------
  // Previews
  // ---------------------------------------------------------------------------

  /** `author && \`by ${author}\``: a missing or empty author name is passed
      through as it is. */
  function BlogSubtitle(author: Option<string>): (r: Option<string>)
    ensures Truthy(r) <==> Truthy(author)
    ensures !Truthy(author) ==> r == author
  {
    if Truthy(author) then Some("by " + author.value) else author
  }

  /** The author name can be read back from a truthy subtitle. */
  lemma BlogSubtitleRoundTrip(name: string)
    requires name != ""
    ensures BlogSubtitle(Some(name)).value[3..] == name
    ensures BlogSubtitle(Some(name)).value[..3] == "by "
  {
  }

  /** `\`${client} - ${type}\``: a missing value is rendered as "undefined". */
  function PortfolioSubtitle(client: Option<string>, projectType: Option<string>): (r: string)
    ensures |r| == |Render(client)| + 3 + |Render(projectType)|
    ensures StripPrefix(r, Render(client)) == Some(" - " + Render(projectType))
    ensures r[|Render(client)|..|Render(client)| + 3] == " - "
    ensures r[|Render(client)| + 3..] == Render(projectType)
    ensures client.None? ==> r[..9] == "undefined"
  {
    var r := Render(client) + (" - " + Render(projectType));
    StripPrefixConcat(Render(client), " - " + Render(projectType));
    assert r[|Render(client)|..] == " - " + Render(projectType);
    r
  }

  /** A valid project's preview names its client and its type, never "undefined". */
  lemma ValidPortfolioSubtitle(d: PortfolioProjectDoc)
    requires PortfolioProjectViolations(d) == []
    ensures PortfolioSubtitle(d.client, d.projectType) == d.client.value + " - " + d.projectType.value
    ensures PortfolioSubtitle(d.client, d.projectType)[|d.client.value| + 3..] in ProjectTypeValues
  {
    var r := PortfolioSubtitle(d.client, d.projectType);
    assert r[|d.client.value| + 3..] == d.projectType.value;
  }

  /** When every project's type comes from the offered list, the portfolio
      page shows at most seven type buttons: "All" and the six types. */
  lemma TypeFacetsBounded(projects: seq<PortfolioListing.Project>)
    requires forall i :: 0 <= i < |projects| ==> projects[i].projectType in ProjectTypeValues
    ensures |PortfolioListing.TypeFacets(projects)| <= 1 + |ProjectTypeValues|
  {
    var facets := PortfolioListing.TypeFacets(projects);
    var universe := set t | t in ProjectTypeValues;
    assert forall t :: t in facets[1..] ==> t in universe;
    NoDuplicatesBounded(facets[1..], universe);
    SeqSetCardinality(ProjectTypeValues);
  }
}

=== FILE: contact_section.dfy ===
/**
 The contact section: the client-side form rules, the canned-reply
 assistant (an ordered keyword table, first match wins) and the chat log.

 The e-mail syntax check of the form library is a parameter `isEmail`; the
 relay of a valid form to the third-party mail endpoint is not modelled.
 The assistant's reply, which the page appends after a one-second timer, is
 appended at once.
 */
module ContactSection {
  import opened Options
  import opened Text
  import opened Seqs

  // ---------------------------------------------------------------------------
  // The form
  // ---------------------------------------------------------------------------

  const NameMinLength: nat := 2
  const MessageMinLength: nat := 10

  datatype FormValues = FormValues(name: string, email: string, business: Option<string>, message: string)

  datatype FieldError = NameTooShort | InvalidEmail | MessageTooShort

  /** Every field rule that fails, in field order; the business field has no rule. */
  function ValidateForm(v: FormValues, isEmail: string -> bool): (errors: seq<FieldError>)
    ensures NameTooShort in errors <==> |v.name| < NameMinLength
    ensures InvalidEmail in errors <==> !isEmail(v.email)
    ensures MessageTooShort in errors <==> |v.message| < MessageMinLength
    ensures NoDuplicates(errors)
  {
    (if |v.name| < NameMinLength then [NameTooShort] else [])
    + (if !isEmail(v.email) then [InvalidEmail] else [])
    + (if |v.message| < MessageMinLength then [MessageTooShort] else [])
  }

  predicate FormValid(v: FormValues, isEmail: string -> bool) {
    ValidateForm(v, isEmail) == []
  }

  /** The form is accepted iff the name has at least 2 characters, the e-mail
      is well formed and the message has at least 10 characters, whatever the
      business field holds. */
  lemma FormValidIff(v: FormValues, isEmail: string -> bool, business: Option<string>)
    ensures FormValid(v, isEmail) <==> |v.name| >= 2 && isEmail(v.email) && |v.message| >= 10
    ensures FormValid(v.(business := business), isEmail) == FormValid(v, isEmail)
  {
    if !FormValid(v, isEmail) {
      assert ValidateForm(v, isEmail)[0] in ValidateForm(v, isEmail);
    }
  }

  // ---------------------------------------------------------------------------
  // The assistant
  // ---------------------------------------------------------------------------

  const BotResponses: seq<string> := [
    "Thank you for your message! How can I help you with your technology needs today?",
    "Blackbox Logic specializes in custom software development, AI solutions, and IT consulting for small businesses in the Treasure Coast area.",
    "Our team can help with website development, custom software, AI chatbots, and IT infrastructure. What specific services are you interested in?",
    "We typically respond to inquiries within 24 hours, but I'm here to answer basic questions immediately.",
    "Would you like to schedule a consultation with one of our technology experts?",
    "Our pricing varies based on project scope and requirements. We'd be happy to provide a custom quote after understanding your needs better.",
    "We've helped many local businesses improve their operations through technology. You can check out our case studies on our website.",
    "I'll pass your information to our team, and someone will contact you shortly to discuss your project in more detail."
  ]

  /** A reply rule: if the lowered message contains any keyword, answer with
      `BotResponses[reply]`. */
  datatype ReplyRule = ReplyRule(keywords: seq<string>, reply: nat)

  /** The rules in the order they are tried. */
  const ReplyRules: seq<ReplyRule> := [
    ReplyRule(["pricing", "cost", "quote"], 5),
    ReplyRule(["contact", "talk to someone", "representative"], 7),
    ReplyRule(["services", "offer", "provide"], 2),
    ReplyRule(["time", "how long", "when"], 3),
    ReplyRule(["examples", "portfolio", "case studies"], 6),
    ReplyRule(["consultation", "meeting", "appointment"], 4),
    ReplyRule(["hello", "hi", "hey"], 0)
  ]

  /** The answer when no rule matches. */
  const DefaultReply: nat := 1

  /** Substring matching, not word matching. */
  predicate RuleMatches(rule: ReplyRule, lower: string) {
    exists k :: 0 <= k < |rule.keywords| && Includes(lower, rule.keywords[k])
  }

  /** The position of the first rule at or after `from` that matches, if any. */
  function FirstMatch(rules: seq<ReplyRule>, lower: string, from: nat): (r: Option<nat>)
    requires from <= |rules|
    ensures r.Some? ==> from <= r.value < |rules|
    decreases |rules| - from
  {
    if from == |rules| then None
    else if RuleMatches(rules[from], lower) then Some(from)
    else FirstMatch(rules, lower, from + 1)
  }

  /** `FirstMatch` finds a rule iff one matches, and the one it finds is the
      earliest that does. */
  lemma {:induction false} FirstMatchSpec(rules: seq<ReplyRule>, lower: string, from: nat)
    requires from <= |rules|
    ensures var r := FirstMatch(rules, lower, from);
            && (r.None? <==> forall i :: from <= i < |rules| ==> !RuleMatches(rules[i], lower))
            && (r.Some? ==> RuleMatches(rules[r.value], lower) &&
                            forall j :: from <= j < r.value ==> !RuleMatches(rules[j], lower))
    decreases |rules| - from
  {
    if from < |rules| && !RuleMatches(rules[from], lower) {
      FirstMatchSpec(rules, lower, from + 1);
    }
  }

  /** The index into `BotResponses` of the answer to a message. */
  function ReplyIndex(message: string): (r: nat)
    ensures r < |BotResponses|
  {
    match FirstMatch(ReplyRules, Lower(message), 0)
    case Some(i) => ReplyRules[i].reply
    case None => DefaultReply
  }

  /** `getAIResponse`: always one of the canned replies. */
  function GetAIResponse(message: string): (r: string)
    ensures r in BotResponses
  {
    BotResponses[ReplyIndex(message)]
  }

  /** The first rule that matches the lowered message decides the reply;
      with no match the reply is `BotResponses[1]`. */
  lemma FirstMatchWins(message: string, i: nat)
    requires i < |ReplyRules|
    requires RuleMatches(ReplyRules[i], Lower(message))
    requires forall j :: 0 <= j < i ==> !RuleMatches(ReplyRules[j], Lower(message))
    ensures GetAIResponse(message) == BotResponses[ReplyRules[i].reply]
  {
    FirstMatchSpec(ReplyRules, Lower(message), 0);
    var chosen := FirstMatch(ReplyRules, Lower(message), 0);
    assert chosen == Some(i);
  }

  lemma NoMatchDefault(message: string)
    requires forall i :: 0 <= i < |ReplyRules| ==> !RuleMatches(ReplyRules[i], Lower(message))
    ensures GetAIResponse(message) == BotResponses[1]
  {
    FirstMatchSpec(ReplyRules, Lower(message), 0);
  }

  /** Matching ignores case: the message is lowered first. */
  lemma ReplyIgnoresCase(message: string)
    ensures GetAIResponse(Lower(message)) == GetAIResponse(message)
  {
    LowerIdempotent(message);
  }

  /** The literal if/else chain of the page, over an already lowered message. */
  function ReplyChain(lower: string): nat {
    if Includes(lower, "pricing") || Includes(lower, "cost") || Includes(lower, "quote") then 5
    else if Includes(lower, "contact") || Includes(lower, "talk to someone") || Includes(lower, "representative") then 7
    else if Includes(lower, "services") || Includes(lower, "offer") || Includes(lower, "provide") then 2
    else if Includes(lower, "time") || Includes(lower, "how long") || Includes(lower, "when") then 3
    else if Includes(lower, "examples") || Includes(lower, "portfolio") || Includes(lower, "case studies") then 6
    else if Includes(lower, "consultation") || Includes(lower, "meeting") || Includes(lower, "appointment") then 4
    else if Includes(lower, "hello") || Includes(lower, "hi") || Includes(lower, "hey") then 0
    else 1
  }

  lemma RuleMatchesThree(rule: ReplyRule, lower: string)
    requires |rule.keywords| == 3
    ensures RuleMatches(rule, lower) <==>
              Includes(lower, rule.keywords[0]) || Includes(lower, rule.keywords[1]) || Includes(lower, rule.keywords[2])
  {
  }

  /** The rule table answers every message exactly as the if/else chain does. */
  lemma TableAgreesWithChain(message: string)
    ensures ReplyIndex(message) == ReplyChain(Lower(message))
  {
    var lower := Lower(message);
    RuleMatchesThree(ReplyRules[0], lower);
    RuleMatchesThree(ReplyRules[1], lower);
    RuleMatchesThree(ReplyRules[2], lower);
    RuleMatchesThree(ReplyRules[3], lower);
    RuleMatchesThree(ReplyRules[4], lower);
    RuleMatchesThree(ReplyRules[5], lower);
    RuleMatchesThree(ReplyRules[6], lower);
    assert FirstMatch(ReplyRules, lower, 7) == None;
    assert FirstMatch(ReplyRules, lower, 6) == if RuleMatches(ReplyRules[6], lower) then Some(6) else None;
    assert FirstMatch(ReplyRules, lower, 5) == if RuleMatches(ReplyRules[5], lower) then Some(5) else FirstMatch(ReplyRules, lower, 6);
    assert FirstMatch(ReplyRules, lower, 4) == if RuleMatches(ReplyRules[4], lower) then Some(4) else FirstMatch(ReplyRules, lower, 5);
    assert FirstMatch(ReplyRules, lower, 3) == if RuleMatches(ReplyRules[3], lower) then Some(3) else FirstMatch(ReplyRules, lower, 4);
    assert FirstMatch(ReplyRules, lower, 2) == if RuleMatches(ReplyRules[2], lower) then Some(2) else FirstMatch(ReplyRules, lower, 3);
    assert FirstMatch(ReplyRules, lower, 1) == if RuleMatches(ReplyRules[1], lower) then Some(1) else FirstMatch(ReplyRules, lower, 2);
    assert FirstMatch(ReplyRules, lower, 0) == if RuleMatches(ReplyRules[0], lower) then Some(0) else FirstMatch(ReplyRules, lower, 1);
  }

  /** Matching is by substring: "this" contains "hi" and gets the greeting;
      upper-case keywords match after lowering. */
  lemma SubstringNotWord()
    ensures GetAIResponse("this") == BotResponses[0]
  {
    var hay := "this";
    TableAgreesWithChain(hay);
    assert Lower(hay) == hay;
    IncludesTooLong(hay, "pricing");
    IncludesSameLength(hay, "cost");
    IncludesTooLong(hay, "quote");
    IncludesTooLong(hay, "contact");
    IncludesTooLong(hay, "talk to someone");
    IncludesTooLong(hay, "representative");
    IncludesTooLong(hay, "services");
    IncludesTooLong(hay, "offer");
    IncludesTooLong(hay, "provide");
    IncludesSameLength(hay, "time");
    IncludesTooLong(hay, "how long");
    IncludesSameLength(hay, "when");
    IncludesTooLong(hay, "examples");
    IncludesTooLong(hay, "portfolio");
    IncludesTooLong(hay, "case studies");
    IncludesTooLong(hay, "consultation");
    IncludesTooLong(hay, "meeting");
    IncludesTooLong(hay, "appointment");
    IncludesTooLong(hay, "hello");
    assert OccursAt(hay, "hi", 1);
    assert ReplyChain(hay) == 0;
  }

  /** Upper-case keywords match once the message is lowered. */
  lemma UpperCaseKeyword()
    ensures GetAIResponse("COST?") == BotResponses[5]
  {
    var cost := "COST?";
    TableAgreesWithChain(cost);
    assert Lower(cost) == "cost?";
    IncludesTooLong("cost?", "pricing");
    assert OccursAt("cost?", "cost", 0);
    assert ReplyChain("cost?") == 5;
  }

  // ---------------------------------------------------------------------------
  // The chat log
  // ---------------------------------------------------------------------------

  datatype Role = User | Assistant

  datatype ChatMessage = ChatMessage(role: Role, content: string)

  const Welcome: ChatMessage := ChatMessage(Assistant, "Hi there! How can I help you with your technology needs today?")

  /** The chat log and the text in the input box. */
  datatype Chat = Chat(messages: seq<ChatMessage>, input: string)

  function InitialChat(): Chat {
    Chat([Welcome], "")
  }

  /** `!s.trim()`: the text is empty or all whitespace (`BlankIsTrimEmpty`). */
  predicate IsBlank(s: string) {
    forall i :: 0 <= i < |s| ==> IsWhitespace(s[i])
  }

  lemma BlankIsTrimEmpty(s: string)
    ensures IsBlank(s) <==> Trim(s) == ""
  {
    TrimEmptyIff(s);
  }

  /** `handleSendMessage`: blank input is ignored; otherwise the input is
      appended as the user's message, followed by the one reply computed from
      that same input, and the box is cleared. */
  function SendMessage(c: Chat): (r: Chat)
    ensures IsBlank(c.input) ==> r == c
    ensures !IsBlank(c.input) ==> |r.messages| == |c.messages| + 2 && r.input == ""
    ensures r.messages[..|c.messages|] == c.messages
  {
    if IsBlank(c.input) then c
    else Chat(c.messages + [ChatMessage(User, c.input), ChatMessage(Assistant, GetAIResponse(c.input))], "")
  }

  /** Typing replaces the input box. */
  function TypeInput(c: Chat, text: string): Chat {
    c.(input := text)
  }

  /** The messages one sent text adds: the user's text, then the reply to it. */
  function Exchange(text: string): (r: seq<ChatMessage>)
    ensures |r| == 2 && r[0].role == User && r[1].role == Assistant
  {
    [ChatMessage(User, text), ChatMessage(Assistant, GetAIResponse(text))]
  }

  /** The exchanges of several sent texts, in order. */
  function Exchanges(sent: seq<string>): (r: seq<ChatMessage>)
    ensures |r| == 2 * |sent|
  {
    if |sent| == 0 then [] else Exchange(sent[0]) + Exchanges(sent[1..])
  }

  lemma {:induction false} ExchangesAppend(a: seq<string>, b: seq<string>)
    ensures Exchanges(a + b) == Exchanges(a) + Exchanges(b)
    decreases |a|
  {
    if |a| == 0 {
      assert a + b == b;
    } else {
      assert (a + b)[0] == a[0];
      assert (a + b)[1..] == a[1..] + b;
      ExchangesAppend(a[1..], b);
      calc {
        Exchanges(a + b);
        Exchange(a[0]) + Exchanges(a[1..] + b);
        Exchange(a[0]) + (Exchanges(a[1..]) + Exchanges(b));
        (Exchange(a[0]) + Exchanges(a[1..])) + Exchanges(b);
      }
    }
  }

  /** In the exchanges of `sent`, position `2k` holds the k-th text as the
      user's message and position `2k + 1` the reply to that text. */
  lemma {:induction false} ExchangesAt(sent: seq<string>, k: nat)
    requires k < |sent|
    ensures Exchanges(sent)[2 * k] == ChatMessage(User, sent[k])
    ensures Exchanges(sent)[2 * k + 1] == ChatMessage(Assistant, GetAIResponse(sent[k]))
    decreases k
  {
    var first := Exchange(sent[0]);
    var rest := Exchanges(sent[1..]);
    ExchangesCons(sent);
    if k == 0 {
      IndexBefore(first, rest, 0);
      IndexBefore(first, rest, 1);
    } else {
      ExchangesAt(sent[1..], k - 1);
      IndexAfter(first, rest, 2 * k);
      IndexAfter(first, rest, 2 * k + 1);
      assert sent[1..][k - 1] == sent[k];
    }
  }

  lemma ExchangesCons(sent: seq<string>)
    requires |sent| > 0
    ensures Exchanges(sent) == Exchange(sent[0]) + Exchanges(sent[1..])
  {
  }

  lemma IndexBefore(a: seq<ChatMessage>, b: seq<ChatMessage>, i: nat)
    requires i < |a|
    ensures (a + b)[i] == a[i]
  {
  }

  lemma IndexAfter(a: seq<ChatMessage>, b: seq<ChatMessage>, i: nat)
    requires |a| <= i < |a| + |b|
    ensures (a + b)[i] == b[i - |a|]
  {
  }

  /** Whether a typed text is sent when the button is pressed. */
  function Sendable(text: string): bool {
    !IsBlank(text)
  }

  /** Typing each text and pressing send, in turn. */
  function Converse(c: Chat, texts: seq<string>): Chat
    decreases |texts|
  {
    if |texts| == 0 then c else Converse(SendMessage(TypeInput(c, texts[0])), texts[1..])
  }

  /** Sending a text appends exactly its exchange if it is not blank, and
      nothing otherwise. */
  lemma SendOne(c: Chat, text: string)
    ensures SendMessage(TypeInput(c, text)).messages == c.messages + Exchanges(Filter([text], Sendable))
  {
    assert [text][1..] == [];
  }

  lemma ConverseCons(c: Chat, texts: seq<string>)
    requires |texts| > 0
    ensures Converse(c, texts).messages == Converse(SendMessage(TypeInput(c, texts[0])), texts[1..]).messages
  {
  }

  /** A conversation appends, in order, one exchange per non-blank text and
      nothing for the blank ones. */
  lemma {:induction false} ConversationTranscript(c: Chat, texts: seq<string>)
    ensures Converse(c, texts).messages == c.messages + Exchanges(Filter(texts, Sendable))
    decreases |texts|
  {
    if |texts| > 0 {
      var next := SendMessage(TypeInput(c, texts[0]));
      var head := Filter([texts[0]], Sendable);
      var tail := Filter(texts[1..], Sendable);
      SendOne(c, texts[0]);
      ConversationTranscript(next, texts[1..]);
      FilterCons(texts, Sendable);
      ExchangesAppend(head, tail);
      ConverseCons(c, texts);
      Combine(c.messages, next.messages, Converse(c, texts).messages,
              Exchanges(head), Exchanges(tail), Exchanges(Filter(texts, Sendable)));
    }
  }

  lemma Combine(m0: seq<ChatMessage>, m1: seq<ChatMessage>, m2: seq<ChatMessage>,
                e1: seq<ChatMessage>, e2: seq<ChatMessage>, e: seq<ChatMessage>)
    requires m1 == m0 + e1 && m2 == m1 + e2 && e == e1 + e2
    ensures m2 == m0 + e
  {
  }

  /** From the initial chat, the log is the welcome message followed by
      pairs: at every odd position a non-blank user message, right after it
      the reply to exactly that message. */
  lemma ChatLogShape(texts: seq<string>, k: nat)
    requires k < |Filter(texts, Sendable)|
    ensures var log := Converse(InitialChat(), texts).messages;
            && |log| == 1 + 2 * |Filter(texts, Sendable)|
            && log[0] == Welcome
            && log[2 * k + 1].role == User
            && !IsBlank(log[2 * k + 1].content)
            && log[2 * k + 2] == ChatMessage(Assistant, GetAIResponse(log[2 * k + 1].content))
  {
    var sent := Filter(texts, Sendable);
    var ex := Exchanges(sent);
    var log := Converse(InitialChat(), texts).messages;
    ConversationTranscript(InitialChat(), texts);
    ExchangesAt(sent, k);
    LogIndex(log, Welcome, ex, k);
    assert Sendable(sent[k]);
  }

  lemma LogIndex(log: seq<ChatMessage>, first: ChatMessage, ex: seq<ChatMessage>, k: nat)
    requires log == [first] + ex && 2 * k + 1 < |ex|
    ensures |log| == 1 + |ex| && log[0] == first
    ensures log[2 * k + 1] == ex[2 * k] && log[2 * k + 2] == ex[2 * k + 1]
  {
  }

  /** A text that trims to nothing leaves the log as it was; any other text
      adds exactly one exchange. */
  lemma WhitespaceIgnored(c: Chat, text: string)
    ensures Trim(text) == "" ==> SendMessage(TypeInput(c, text)).messages == c.messages
    ensures Trim(text) != "" ==> SendMessage(TypeInput(c, text)).messages == c.messages + Exchange(text)
  {
    BlankIsTrimEmpty(text);
  }
}

=== FILE: fetch_state.dfy ===
/**
 The three facts a page reads from its content query (whether it is still
 loading, whether it failed, and the data, if any) and the order in which the
 pages test them. Caching, de-duplication and refetching belong to the query
 library and are not modelled: the facts are inputs.
 */
module FetchState {
  import opened Options

  datatype Query<T> = Query(isLoading: bool, failed: bool, data: Option<T>)

  /** What a listing page shows: a spinner, an error message, or the list. */
  datatype ListingPhase = ListLoading | ListFailed | ListReady

  /** A listing page tests loading first, then the error. */
  function ListingPhaseOf<T>(q: Query<T>): (r: ListingPhase)
    ensures q.isLoading ==> r == ListLoading
    ensures r == ListFailed <==> !q.isLoading && q.failed
    ensures r == ListReady <==> !q.isLoading && !q.failed
  {
    if q.isLoading then ListLoading
    else if q.failed then ListFailed
    else ListReady
  }

  /** The items a listing page works on: the fetched list, or `[]` while there is none. */
  function ListingItems<T>(q: Query<seq<T>>): (r: seq<T>)
    ensures q.data.None? ==> r == []
  {
    q.data.GetOr([])
  }

  /** What a detail page shows: a spinner, "not found", or the document. */
  datatype DetailView<T> = DetailLoading | NotFound | Found(item: T)

  /** A detail page tests loading first; an error and a missing document both
      give the not-found view. */
  function DetailViewOf<T>(q: Query<T>): (r: DetailView<T>)
    ensures q.isLoading ==> r.DetailLoading?
    ensures r.NotFound? <==> !q.isLoading && (q.failed || q.data.None?)
    ensures r.Found? <==> !q.isLoading && !q.failed && q.data.Some?
    ensures r.Found? ==> q.data == Some(r.item)
  {
    if q.isLoading then DetailLoading
    else if q.failed || q.data.None? then NotFound
    else Found(q.data.value)
  }
}

=== FILE: head_tags.dfy ===
/**
 The document head as the SEO component manages it: a title and a sequence
 of elements. A lookup finds the first element that matches a selector, as
 `querySelector` does. The component upserts meta tags (keyed by an
 attribute and its value, such as `name="description"` or
 `property="og:url"`) and the canonical link, and replaces the one dynamic
 structured-data script; every update is guarded by the truthiness of its
 prop. Static elements the component never selects are `OtherElement`s.
 */
module HeadTags {
  import opened Options
  import opened Text
  import opened Seqs

  datatype MetaKey = MetaKey(attribute: string, name: string)

  datatype Element =
    | Meta(key: MetaKey, content: string)
    | Link(rel: string, href: string)
    | LdJson(json: string, dynamic: bool)   // `script[type="application/ld+json"]`, `data-dynamic="true"` when dynamic
    | OtherElement(tag: string)

  datatype Head = Head(title: string, elements: seq<Element>)

  // ---------------------------------------------------------------------------
  // Selectors and what they see
  // ---------------------------------------------------------------------------

  /** `meta[attribute="name"]`. */
  function IsMeta(key: MetaKey): Element -> bool {
    (e: Element) => e.Meta? && e.key == key
  }

  /** `link[rel="rel"]`. */
  function IsLink(rel: string): Element -> bool {
    (e: Element) => e.Link? && e.rel == rel
  }

  /** `script[type="application/ld+json"][data-dynamic="true"]`. */
  function IsDynamicScript(): Element -> bool {
    (e: Element) => e.LdJson? && e.dynamic
  }

  /** Two selectors no element matches both of. */
  ghost predicate Disjoint(f: Element -> bool, g: Element -> bool) {
    forall e: Element :: !(f(e) && g(e))
  }

  /** The content of the meta tag a lookup of `key` finds. */
  function MetaContent(h: Head, key: MetaKey): (r: Option<string>)
    ensures r.None? <==> forall i :: 0 <= i < |h.elements| ==> !IsMeta(key)(h.elements[i])
  {
    match Find(h.elements, IsMeta(key))
    case Some(e) => Some(e.content)
    case None => None
  }

  /** The href of the link a lookup of `rel` finds. */
  function LinkHref(h: Head, rel: string): (r: Option<string>)
    ensures r.None? <==> forall i :: 0 <= i < |h.elements| ==> !IsLink(rel)(h.elements[i])
  {
    match Find(h.elements, IsLink(rel))
    case Some(e) => Some(e.href)
    case None => None
  }

  /** How many meta tags carry `key`. */
  function MetaCount(h: Head, key: MetaKey): nat {
    |Filter(h.elements, IsMeta(key))|
  }

  function DynamicScripts(h: Head): seq<Element> {
    Filter(h.elements, IsDynamicScript())
  }

  predicate AtMostOneDynamicScript(h: Head) {
    |DynamicScripts(h)| <= 1
  }

  // ---------------------------------------------------------------------------
  // Element-level edits
  // ---------------------------------------------------------------------------

  /** Replace the first element matching `f` by `x`, or append `x` when none does. */
  function Upsert(es: seq<Element>, f: Element -> bool, x: Element): (r: seq<Element>)
    ensures |r| == |es| || |r| == |es| + 1
  {
    match FirstIndex(es, f)
    case Some(i) => es[i := x]
    case None => es + [x]
  }

  /** Remove the first element matching `f`, if any. */
  function RemoveFirst(es: seq<Element>, f: Element -> bool): (r: seq<Element>)
    ensures |r| == |es| || |r| + 1 == |es|
  {
    match FirstIndex(es, f)
    case Some(i) => es[..i] + es[i + 1..]
    case None => es
  }

  lemma FindSingleton(x: Element, f: Element -> bool)
    ensures Find([x], f) == if f(x) then Some(x) else None
  {
    assert [x][1..] == [];
  }

  lemma FilterSingleton(x: Element, f: Element -> bool)
    ensures Filter([x], f) == if f(x) then [x] else []
  {
    assert [x][1..] == [];
  }

  lemma FindNone(s: seq<Element>, f: Element -> bool)
    requires forall j :: 0 <= j < |s| ==> !f(s[j])
    ensures Find(s, f) == None
  {
  }

  /** After an upsert, the lookup finds the new element; lookups that cannot
      match it see what they saw before; the matching elements are as many
      as before, or one when there was none. */
  lemma UpsertSpec(es: seq<Element>, f: Element -> bool, x: Element, g: Element -> bool)
    requires f(x)
    ensures Find(Upsert(es, f, x), f) == Some(x)
    ensures |Filter(Upsert(es, f, x), f)| == if |Filter(es, f)| == 0 then 1 else |Filter(es, f)|
    ensures Disjoint(f, g) ==> Find(Upsert(es, f, x), g) == Find(es, g)
    ensures Disjoint(f, g) ==> Filter(Upsert(es, f, x), g) == Filter(es, g)
  {
    var r := Upsert(es, f, x);
    FindSingleton(x, f);
    FindSingleton(x, g);
    FilterSingleton(x, f);
    FilterSingleton(x, g);
    match FirstIndex(es, f)
    case Some(i) =>
      var before, after := es[..i], es[i + 1..];
      assert es == before + [es[i]] + after;
      assert r == before + [x] + after;
      FindSingleton(es[i], f);
      FindSingleton(es[i], g);
      FilterSingleton(es[i], f);
      FilterSingleton(es[i], g);
      FindNone(before, f);
      FindConcat(before + [x], after, f);
      FindConcat(before, [x], f);
      FindConcat(before + [x], after, g);
      FindConcat(before, [x], g);
      FindConcat(before + [es[i]], after, g);
      FindConcat(before, [es[i]], g);
      FilterConcat(before + [x], after, f);
      FilterConcat(before, [x], f);
      FilterConcat(before + [es[i]], after, f);
      FilterConcat(before, [es[i]], f);
      FilterConcat(before + [x], after, g);
      FilterConcat(before, [x], g);
      FilterConcat(before + [es[i]], after, g);
      FilterConcat(before, [es[i]], g);
    case None =>
      FindNone(es, f);
      FindConcat(es, [x], f);
      FindConcat(es, [x], g);
      FilterConcat(es, [x], f);
      FilterConcat(es, [x], g);
      FilterDropsAll(es, f);
  }

  /** Removing the first match of `f` leaves one match fewer, if there was one. */
  lemma RemoveFirstCount(es: seq<Element>, f: Element -> bool)
    ensures |Filter(RemoveFirst(es, f), f)| == if |Filter(es, f)| == 0 then 0 else |Filter(es, f)| - 1
  {
    match FirstIndex(es, f)
    case Some(i) =>
      var before, after := es[..i], es[i + 1..];
      assert es == before + [es[i]] + after;
      FilterSingleton(es[i], f);
      FilterDropsAll(before, f);
      FilterConcat(before, after, f);
      FilterConcat(before + [es[i]], after, f);
      FilterConcat(before, [es[i]], f);
    case None =>
      FilterDropsAll(es, f);
  }

  /** Removing the first match of `f` hides nothing from a disjoint lookup. */
  lemma RemoveFirstDisjoint(es: seq<Element>, f: Element -> bool, g: Element -> bool)
    requires Disjoint(f, g)
    ensures Find(RemoveFirst(es, f), g) == Find(es, g)
    ensures Filter(RemoveFirst(es, f), g) == Filter(es, g)
  {
    match FirstIndex(es, f)
    case Some(i) =>
      assert !g(es[i]);
      RemoveNonMatching(es, i, g);
    case None =>
  }

  /** Dropping an element a lookup cannot match changes neither the lookup
      nor the list of its matches. */
  lemma RemoveNonMatching(es: seq<Element>, i: nat, g: Element -> bool)
    requires i < |es| && !g(es[i])
    ensures Find(es[..i] + es[i + 1..], g) == Find(es, g)
    ensures Filter(es[..i] + es[i + 1..], g) == Filter(es, g)
  {
    var before, after := es[..i], es[i + 1..];
    var mid := before + [es[i]];
    assert es == mid + after;
    FindSingleton(es[i], g);
    FilterSingleton(es[i], g);
    FindConcat(before, [es[i]], g);
    assert Find(mid, g) == Find(before, g);
    FindConcat(mid, after, g);
    FindConcat(before, after, g);
    FilterConcat(before, [es[i]], g);
    assert Filter(mid, g) == Filter(before, g);
    FilterConcat(mid, after, g);
    FilterConcat(before, after, g);
  }

  // ---------------------------------------------------------------------------
  // The component's three helpers
  // ---------------------------------------------------------------------------

  /** `updateMetaTag(attribute, name, content)`. */
  function UpdateMetaTag(h: Head, key: MetaKey, content: string): Head {
    h.(elements := Upsert(h.elements, IsMeta(key), Meta(key, content)))
  }

  /** `updateLinkTag(rel, href)`. */
  function UpdateLinkTag(h: Head, rel: string, href: string): Head {
    h.(elements := Upsert(h.elements, IsLink(rel), Link(rel, href)))
  }

  /** `updateStructuredData(data)`, with `json` the serialised data. */
  function UpdateStructuredData(h: Head, json: string): Head {
    h.(elements := RemoveFirst(h.elements, IsDynamicScript()) + [LdJson(json, true)])
  }

  /** A meta upsert: the key now reads `content`, no duplicate is created,
      and every other lookup is unaffected. */
  lemma UpdateMetaTagSpec(h: Head, key: MetaKey, content: string, other: MetaKey, rel: string)
    ensures MetaContent(UpdateMetaTag(h, key, content), key) == Some(content)
    ensures MetaCount(UpdateMetaTag(h, key, content), key) == if MetaCount(h, key) == 0 then 1 else MetaCount(h, key)
    ensures other != key ==> MetaContent(UpdateMetaTag(h, key, content), other) == MetaContent(h, other)
    ensures LinkHref(UpdateMetaTag(h, key, content), rel) == LinkHref(h, rel)
    ensures DynamicScripts(UpdateMetaTag(h, key, content)) == DynamicScripts(h)
    ensures UpdateMetaTag(h, key, content).title == h.title
  {
    var x := Meta(key, content);
    UpsertSpec(h.elements, IsMeta(key), x, IsMeta(other));
    UpsertSpec(h.elements, IsMeta(key), x, IsLink(rel));
    UpsertSpec(h.elements, IsMeta(key), x, IsDynamicScript());
  }

  /** A link upsert: the rel now reads `href`, no duplicate is created, and
      every other lookup is unaffected. */
  lemma UpdateLinkTagSpec(h: Head, rel: string, href: string, key: MetaKey, otherRel: string)
    ensures LinkHref(UpdateLinkTag(h, rel, href), rel) == Some(href)
    ensures |Filter(UpdateLinkTag(h, rel, href).elements, IsLink(rel))| ==
              if |Filter(h.elements, IsLink(rel))| == 0 then 1 else |Filter(h.elements, IsLink(rel))|
    ensures otherRel != rel ==> LinkHref(UpdateLinkTag(h, rel, href), otherRel) == LinkHref(h, otherRel)
    ensures MetaContent(UpdateLinkTag(h, rel, href), key) == MetaContent(h, key)
    ensures DynamicScripts(UpdateLinkTag(h, rel, href)) == DynamicScripts(h)
  {
    var x := Link(rel, href);
    UpsertSpec(h.elements, IsLink(rel), x, IsLink(otherRel));
    UpsertSpec(h.elements, IsLink(rel), x, IsMeta(key));
    UpsertSpec(h.elements, IsLink(rel), x, IsDynamicScript());
  }

  /** The structured-data script: the old dynamic script goes before the new
      one is appended, so the number of dynamic scripts never grows past
      what it was or one; meta tags and links are untouched. */
  lemma UpdateStructuredDataSpec(h: Head, json: string, key: MetaKey, rel: string)
    ensures var r := UpdateStructuredData(h, json);
            && r.elements[|r.elements| - 1] == LdJson(json, true)
            && |DynamicScripts(r)| <= (if |DynamicScripts(h)| == 0 then 1 else |DynamicScripts(h)|)
            && (AtMostOneDynamicScript(h) ==> DynamicScripts(r) == [LdJson(json, true)])
            && MetaContent(r, key) == MetaContent(h, key)
            && LinkHref(r, rel) == LinkHref(h, rel)
  {
    var f := IsDynamicScript();
    var removed := RemoveFirst(h.elements, f);
    var x := LdJson(json, true);
    RemoveFirstCount(h.elements, f);
    RemoveFirstDisjoint(h.elements, f, IsMeta(key));
    RemoveFirstDisjoint(h.elements, f, IsLink(rel));
    FilterConcat(removed, [x], f);
    FilterSingleton(x, f);
    FindConcat(removed, [x], IsMeta(key));
    FindSingleton(x, IsMeta(key));
    FindConcat(removed, [x], IsLink(rel));
    FindSingleton(x, IsLink(rel));
  }
}

=== FILE: image_url.dfy ===
/**
 Image URLs come from the CMS's image-URL builder, which is not modelled: a
 page passes it an image reference and the size it asks for, and gets a URL
 back. The builder is a parameter of every function that needs one.
 */
module ImageUrl {
  import opened Options

  /** The width, and the height when one is asked for. */
  datatype Size = Size(width: nat, height: Option<nat>)

  /** `urlFor(asset).width(w)[.height(h)].url()`. */
  type UrlFor = (string, Size) -> string
}

=== FILE: listing.dfy ===
/**
 What the blog index and the portfolio showcase share: the facet buttons
 ("All" followed by the distinct facet values of every fetched item, in
 first-seen order) and the number of labels a listing card shows.
 */
module Listing {
  import opened Seqs

  /** The synthetic facet that matches every item; also the initial selection. */
  const All: string := "All"

  /** A listing card shows at most this many tags or technologies. */
  const ChipLimit: nat := 3

  /** `["All", ...Array.from(new Set(values))]`. */
  function Facets(values: seq<string>): (r: seq<string>)
    ensures |r| >= 1 && r[0] == All
    ensures NoDuplicates(r[1..])
    ensures forall i :: 1 <= i < |r| ==> r[i] in values
    ensures forall i :: 0 <= i < |values| ==> values[i] in r[1..]
  {
    [All] + Distinct(values)
  }

  /** More items only add facets at the end: the buttons already shown keep
      their order. */
  lemma FacetsFirstSeen(values: seq<string>, more: seq<string>)
    ensures |Facets(values)| <= |Facets(values + more)|
    ensures Facets(values) == Facets(values + more)[..|Facets(values)|]
  {
    DistinctPrefix(values, more);
  }

  /** `labels.slice(0, 3)` on a card. */
  function CardChips(labels: seq<string>): (r: seq<string>)
    ensures |r| == if |labels| < ChipLimit then |labels| else ChipLimit
    ensures r == labels[..|r|]
    ensures |labels| <= ChipLimit ==> r == labels
  {
    Take(labels, ChipLimit)
  }
}

=== FILE: options.dfy ===
/**
 An optional value: the model's stand-in for a JavaScript value that may be
 `undefined` (or `null`, where the two behave the same).
 */
module Options {

  datatype Option<+T> = None | Some(value: T) {

    /** The wrapped value, or `default` when there is none (JavaScript `??`). */
    function GetOr(default: T): T {
      match this
      case Some(v) => v
      case None => default
    }
  }

  /** The outcome of an operation that can be refused with a reason. */
  datatype Result<+T, +E> = Success(value: T) | Failure(error: E)
}

=== FILE: portfolio_listing.dfy ===
/**
 The portfolio showcase: project-type facets, the type filter (there is no
 text search), the featured section, the grid and the "No projects found"
 message. Unlike the blog index, every filtered project is shown exactly
 once, whichever type is selected.
 */
module PortfolioListing {
  import opened Options
  import opened Seqs
  import opened Listing
  import opened FetchState

  datatype Project = Project(
    id: string,
    title: string,
    slug: string,
    client: string,
    websiteUrl: string,
    description: string,
    technologies: seq<string>,
    projectType: string,
    featured: bool)

  function ProjectTypes(projects: seq<Project>): (r: seq<string>)
    ensures |r| == |projects|
    ensures forall i :: 0 <= i < |projects| ==> r[i] == projects[i].projectType
  {
    seq(|projects|, i requires 0 <= i < |projects| => projects[i].projectType)
  }

  /** The type buttons: "All", then each distinct `projectType` over all
      fetched projects, in first-seen order. */
  function TypeFacets(projects: seq<Project>): (r: seq<string>)
    ensures |r| >= 1 && r[0] == All
    ensures NoDuplicates(r[1..])
    ensures forall t :: t in r[1..] <==> exists i :: 0 <= i < |projects| && projects[i].projectType == t
  {
    Facets(ProjectTypes(projects))
  }

  predicate TypeMatches(p: Project, selected: string) {
    selected == All || p.projectType == selected
  }

  function TypeTest(selected: string): Project -> bool {
    p => TypeMatches(p, selected)
  }

  function IsFeatured(p: Project): bool { p.featured }

  /** The grid's own test: `!p.featured || selectedType !== "All"`. */
  function GridTest(selected: string): Project -> bool {
    (p: Project) => !p.featured || selected != All
  }

  /** `filteredProjects`. */
  function FilteredProjects(projects: seq<Project>, selected: string): (r: seq<Project>)
    ensures forall i :: 0 <= i < |r| ==> TypeMatches(r[i], selected)
  {
    Filter(projects, TypeTest(selected))
  }

  /** A project is listed iff it was fetched and the selection is "All" or
      exactly its type; order is kept and nothing is repeated. */
  lemma FilteredProjectsSpec(projects: seq<Project>, selected: string, p: Project)
    ensures p in FilteredProjects(projects, selected) <==>
              p in projects && (selected == All || p.projectType == selected)
    ensures multiset(FilteredProjects(projects, selected))[p] ==
              if TypeMatches(p, selected) then multiset(projects)[p] else 0
    ensures IsSubsequence(FilteredProjects(projects, selected), projects)
  {
    FilterMembership(projects, TypeTest(selected), p);
    FilterMultiplicity(projects, TypeTest(selected), p);
    FilterIsSubsequence(projects, TypeTest(selected));
  }

  /** Under "All" every fetched project is listed. */
  lemma AllKeepsEverything(projects: seq<Project>)
    ensures FilteredProjects(projects, All) == projects
  {
    FilterKeepsAll(projects, TypeTest(All));
  }

  /** Every non-"All" button taken from the derived list selects at least one project. */
  lemma SelectedTypeNonEmpty(projects: seq<Project>, selected: string)
    requires selected in TypeFacets(projects)[1..]
    ensures |FilteredProjects(projects, selected)| > 0
  {
    var i :| 0 <= i < |projects| && projects[i].projectType == selected;
    FilterMembership(projects, TypeTest(selected), projects[i]);
  }

  /** `featuredProjects`: the featured members of the filtered list, in order,
      each as often as it is listed. */
  function FeaturedProjects(filtered: seq<Project>): (r: seq<Project>)
    ensures forall i :: 0 <= i < |r| ==> r[i].featured
    ensures forall p :: p in r <==> p in filtered && p.featured
    ensures forall p :: multiset(r)[p] == if p.featured then multiset(filtered)[p] else 0
    ensures IsSubsequence(r, filtered)
  {
    FilterIsSubsequence(filtered, IsFeatured);
    forall p ensures (p in Filter(filtered, IsFeatured) <==> p in filtered && p.featured)
                  && multiset(Filter(filtered, IsFeatured))[p] == if p.featured then multiset(filtered)[p] else 0
    {
      FilterMembership(filtered, IsFeatured, p);
      FilterMultiplicity(filtered, IsFeatured, p);
    }
    Filter(filtered, IsFeatured)
  }

  /** The projects of the grid under the current selection: under "All" the
      non-featured ones, under a specific type every filtered project. */
  function GridProjects(filtered: seq<Project>, selected: string): (r: seq<Project>)
    ensures forall p :: p in r <==> p in filtered && (!p.featured || selected != All)
    ensures IsSubsequence(r, filtered)
  {
    FilterIsSubsequence(filtered, GridTest(selected));
    forall p ensures p in Filter(filtered, GridTest(selected)) <==> p in filtered && (!p.featured || selected != All) {
      FilterMembership(filtered, GridTest(selected), p);
    }
    Filter(filtered, GridTest(selected))
  }

  datatype PortfolioView =
    | PortfolioLoading
    | PortfolioError
    | Showcase(
        types: seq<string>,
        featured: seq<Project>,    // the featured section; empty when it does not render
        grid: seq<Project>,
        noProjectsFound: bool)

  /** What the showcase renders for a query result and a selected type. */
  function RenderPortfolio(q: Query<seq<Project>>, selected: string): (r: PortfolioView)
    ensures q.isLoading ==> r.PortfolioLoading?
    ensures r.PortfolioError? <==> !q.isLoading && q.failed
    ensures r.Showcase? <==> !q.isLoading && !q.failed
    ensures r.Showcase? ==> r.types == TypeFacets(ListingItems(q))
    ensures r.Showcase? && selected == All ==> r.featured == FeaturedProjects(FilteredProjects(ListingItems(q), selected))
    ensures r.Showcase? && selected != All ==> r.featured == []
    ensures r.Showcase? ==> r.grid == GridProjects(FilteredProjects(ListingItems(q), selected), selected)
    ensures r.Showcase? ==> (r.noProjectsFound <==> forall p :: p in ListingItems(q) ==> !TypeMatches(p, selected))
  {
    match ListingPhaseOf(q)
    case ListLoading => PortfolioLoading
    case ListFailed => PortfolioError
    case ListReady =>
      var projects := ListingItems(q);
      var filtered := FilteredProjects(projects, selected);
      var featured := FeaturedProjects(filtered);
      forall p ensures p in filtered <==> p in projects && TypeMatches(p, selected) {
        FilteredProjectsSpec(projects, selected, p);
      }
      Showcase(
        TypeFacets(projects),
        if |featured| > 0 && selected == All then featured else [],
        GridProjects(filtered, selected),
        |filtered| == 0)
  }

  /** Whatever the selection, the featured section and the grid together show
      every filtered project exactly once: under "All" they partition the
      list, under a specific type the grid shows everything, featured
      projects included. */
  lemma ShownExactlyOnce(projects: seq<Project>, selected: string)
    ensures var v := RenderPortfolio(Query(false, false, Some(projects)), selected);
            v.Showcase? && multiset(v.featured + v.grid) == multiset(FilteredProjects(projects, selected))
    ensures selected != All ==>
              RenderPortfolio(Query(false, false, Some(projects)), selected).grid == FilteredProjects(projects, selected)
    ensures var v := RenderPortfolio(Query(false, false, Some(projects)), selected);
            selected == All ==>
              && (forall p :: p in v.featured <==> p in FilteredProjects(projects, selected) && p.featured)
              && (forall p :: p in v.grid <==> p in FilteredProjects(projects, selected) && !p.featured)
  {
    var filtered := FilteredProjects(projects, selected);
    var v := RenderPortfolio(Query(false, false, Some(projects)), selected);
    if selected == All {
      FilterPartition(filtered, IsFeatured, GridTest(All));
      if |FeaturedProjects(filtered)| == 0 {
        assert multiset(Filter(filtered, IsFeatured)) == multiset{};
      }
    } else {
      FilterKeepsAll(filtered, GridTest(selected));
    }
  }
}

=== FILE: portfolio_project_page.dfy ===
/**
 The portfolio project page: the SEO props it derives from the fetched
 project, the order in which it tests the query, and the conditions under
 which the case study (with its three cards and nested gallery) and the
 testimonial (with its attribution) appear.
 */
module PortfolioProjectPage {
  import opened Options
  import opened Text
  import opened FetchState
  import opened ImageUrl
  import opened HeadTags
  import opened Seo

  datatype GalleryImage = GalleryImage(asset: string, alt: Option<string>)

  datatype CaseStudyData = CaseStudyData(
    challenge: Option<string>,
    solution: Option<string>,
    results: Option<string>,
    additionalImages: Option<seq<GalleryImage>>)

  datatype TestimonialData = TestimonialData(quote: Option<string>, clientName: Option<string>, clientPosition: Option<string>)

  datatype PortfolioProjectData = PortfolioProjectData(
    title: string,
    slug: string,
    client: string,
    websiteUrl: string,
    previewImage: Option<string>,
    description: string,
    technologies: seq<string>,
    projectType: string,
    completedAt: string,
    caseStudy: Option<CaseStudyData>,
    testimonial: Option<TestimonialData>)

  const TitleSuffix := " | Blackbox Logic Portfolio"
  const KeywordsSuffix := ", portfolio, case study"
  const CanonicalBase := "https://blkboxlogic.com/portfolio/"
  const SocialImageSize := Size(1200, Some(630))
  const PreviewImageSize := Size(1200, Some(800))
  const GalleryImageSize := Size(500, Some(375))

  // ---------------------------------------------------------------------------
  // SEO props
  // ---------------------------------------------------------------------------

  /** `<title> - <client>`, the Open Graph title. */
  function Heading(project: PortfolioProjectData): string {
    project.title + " - " + project.client
  }

  function Keywords(project: PortfolioProjectData): string {
    Join(project.technologies, ", ") + ", " + project.projectType + KeywordsSuffix
  }

  /** The props the page hands to the SEO component. Every text prop is
      present; only the social image depends on the project having a
      preview image. */
  function SeoConfig(project: PortfolioProjectData, urlFor: UrlFor): (r: SeoProps)
    ensures Truthy(r.title) && Truthy(r.keywords) && Truthy(r.canonical) && Truthy(r.ogTitle)
    ensures r.description == r.ogDescription == Some(project.description)
    ensures r.ogImage.Some? <==> project.previewImage.Some?
    ensures r.twitterTitle.None? && r.twitterDescription.None? && r.structuredData.None?
  {
    SeoProps(
      title := Some(Heading(project) + TitleSuffix),
      description := Some(project.description),
      keywords := Some(Keywords(project)),
      canonical := Some(PageUrl(CanonicalBase, project.slug)),
      ogTitle := Some(Heading(project)),
      ogDescription := Some(project.description),
      ogImage := if project.previewImage.Some? then Some(urlFor(project.previewImage.value, SocialImageSize)) else None,
      twitterTitle := None,
      twitterDescription := None,
      structuredData := None)
  }

  /** The page title is the Open Graph title plus the portfolio suffix; the
      keywords are the technologies, then the project type, then the fixed
      tail, so the technologies and the type can be read back from them. */
  lemma SeoConfigParts(project: PortfolioProjectData, urlFor: UrlFor)
    ensures var r := SeoConfig(project, urlFor);
            && StripPrefix(r.title.value, r.ogTitle.value) == Some(TitleSuffix)
            && StripPrefix(r.keywords.value, Join(project.technologies, ", ")) == Some(", " + project.projectType + KeywordsSuffix)
            && StripPrefix(r.canonical.value, CanonicalBase) == Some(project.slug)
  {
    StripPrefixConcat(Heading(project), TitleSuffix);
    assert Keywords(project) == Join(project.technologies, ", ") + (", " + project.projectType + KeywordsSuffix);
    StripPrefixConcat(Join(project.technologies, ", "), ", " + project.projectType + KeywordsSuffix);
  }

  /** What the head holds once the SEO component has run with the page's
      props: the title, the keywords, the canonical URL in all three places,
      and the social image in both image tags when the project has a preview
      image with a non-empty URL; without one, both are left as they were. */
  lemma PortfolioProjectHead(h: Head, project: PortfolioProjectData, urlFor: UrlFor)
    ensures var r := ApplySeo(h, SeoConfig(project, urlFor));
            var url := PageUrl(CanonicalBase, project.slug);
            && r.title == Heading(project) + TitleSuffix
            && MetaContent(r, Seo.Keywords) == Some(Keywords(project))
            && LinkHref(r, CanonicalRel) == Some(url)
            && MetaContent(r, OgUrl) == Some(url)
            && MetaContent(r, TwitterUrl) == Some(url)
            && (project.previewImage.Some? && urlFor(project.previewImage.value, SocialImageSize) != "" ==>
                  MetaContent(r, OgImage) == Some(urlFor(project.previewImage.value, SocialImageSize)) &&
                  MetaContent(r, TwitterImage) == Some(urlFor(project.previewImage.value, SocialImageSize)))
            && (!(project.previewImage.Some? && urlFor(project.previewImage.value, SocialImageSize) != "") ==>
                  MetaContent(r, OgImage) == MetaContent(h, OgImage) &&
                  MetaContent(r, TwitterImage) == MetaContent(h, TwitterImage))
  {
    var p := SeoConfig(project, urlFor);
    ApplySeoFanOut(h, p);
    if !(project.previewImage.Some? && urlFor(project.previewImage.value, SocialImageSize) != "") {
      ImageGuard(h, p);
    }
  }

  // ---------------------------------------------------------------------------
  // Case study, gallery and testimonial
  // ---------------------------------------------------------------------------

  datatype Figure = Figure(src: string, alt: string)

  /** The alt text a gallery image gets without one of its own: the project
      title and its 1-based position. */
  function GalleryDefaultAlt(title: string, index: nat): string {
    title + " gallery image " + NatToString(index + 1)
  }

  function GalleryFigures(title: string, images: seq<GalleryImage>, urlFor: UrlFor): (r: seq<Figure>)
    ensures |r| == |images|
    ensures forall i :: 0 <= i < |r| ==> r[i].src == urlFor(images[i].asset, GalleryImageSize)
    ensures forall i :: 0 <= i < |r| ==> Truthy(images[i].alt) ==> r[i].alt == images[i].alt.value
  {
    seq(|images|, i requires 0 <= i < |images| =>
      Figure(urlFor(images[i].asset, GalleryImageSize), Or(images[i].alt, Some(GalleryDefaultAlt(title, i))).value))
  }

  /** Images without alt text of their own get pairwise different alt texts,
      each naming its position. */
  lemma GalleryDefaultAlts(title: string, images: seq<GalleryImage>, urlFor: UrlFor, i: nat, j: nat)
    requires i < |images| && j < |images| && i != j
    requires !Truthy(images[i].alt) && !Truthy(images[j].alt)
    ensures var r := GalleryFigures(title, images, urlFor);
            && StripPrefix(r[i].alt, title + " gallery image ") == Some(NatToString(i + 1))
            && r[i].alt != r[j].alt
  {
    var prefix := title + " gallery image ";
    StripPrefixConcat(prefix, NatToString(i + 1));
    StripPrefixConcat(prefix, NatToString(j + 1));
    NatToStringRoundTrip(i + 1);
    NatToStringRoundTrip(j + 1);
  }

  datatype CaseStudyView = CaseStudyView(
    challenge: Option<string>,   // each card, when it renders
    solution: Option<string>,
    results: Option<string>,
    gallery: seq<Figure>)        // empty when the gallery does not render

  /** The case study renders when it exists and has some text; each card
      renders when its own text is non-empty; the gallery lives inside the
      section and renders when it has at least one image. */
  function CaseStudySection(project: PortfolioProjectData, urlFor: UrlFor): (r: Option<CaseStudyView>)
    ensures r.Some? <==> project.caseStudy.Some? &&
                         (Truthy(project.caseStudy.value.challenge) ||
                          Truthy(project.caseStudy.value.solution) ||
                          Truthy(project.caseStudy.value.results))
    ensures r.Some? ==> (r.value.challenge.Some? <==> Truthy(project.caseStudy.value.challenge))
    ensures r.Some? ==> (r.value.solution.Some? <==> Truthy(project.caseStudy.value.solution))
    ensures r.Some? ==> (r.value.results.Some? <==> Truthy(project.caseStudy.value.results))
    ensures r.Some? ==> (r.value.challenge.Some? || r.value.solution.Some? || r.value.results.Some?)
    ensures r.Some? ==> (|r.value.gallery| > 0 <==>
                           project.caseStudy.value.additionalImages.Some? && |project.caseStudy.value.additionalImages.value| > 0)
    ensures r.Some? && |r.value.gallery| > 0 ==> |r.value.gallery| == |project.caseStudy.value.additionalImages.value|
  {
    match project.caseStudy
    case None => None
    case Some(cs) =>
      if Truthy(cs.challenge) || Truthy(cs.solution) || Truthy(cs.results) then
        Some(CaseStudyView(
          if Truthy(cs.challenge) then cs.challenge else None,
          if Truthy(cs.solution) then cs.solution else None,
          if Truthy(cs.results) then cs.results else None,
          if cs.additionalImages.Some? && |cs.additionalImages.value| > 0
          then GalleryFigures(project.title, cs.additionalImages.value, urlFor)
          else []))
      else None
  }

  /** Gallery images alone do not make a case study appear. */
  lemma GalleryNeedsText(project: PortfolioProjectData, urlFor: UrlFor)
    requires project.caseStudy.Some?
    requires !Truthy(project.caseStudy.value.challenge)
    requires !Truthy(project.caseStudy.value.solution)
    requires !Truthy(project.caseStudy.value.results)
    ensures CaseStudySection(project, urlFor).None?
  {
  }

  datatype TestimonialView = TestimonialView(
    quote: string,
    clientName: Option<string>,
    clientPosition: Option<string>,
    attribution: bool)            // the block holding name and position

  function TestimonialSection(project: PortfolioProjectData): (r: Option<TestimonialView>)
    ensures r.Some? <==> project.testimonial.Some? && Truthy(project.testimonial.value.quote)
    ensures r.Some? ==> r.value.quote == project.testimonial.value.quote.value
    ensures r.Some? ==> (r.value.attribution <==> r.value.clientName.Some? || r.value.clientPosition.Some?)
    ensures r.Some? ==> (r.value.clientName.Some? <==> Truthy(project.testimonial.value.clientName))
    ensures r.Some? ==> (r.value.clientPosition.Some? <==> Truthy(project.testimonial.value.clientPosition))
  {
    match project.testimonial
    case None => None
    case Some(t) =>
      if Truthy(t.quote) then
        Some(TestimonialView(
          t.quote.value,
          if Truthy(t.clientName) then t.clientName else None,
          if Truthy(t.clientPosition) then t.clientPosition else None,
          Truthy(t.clientName) || Truthy(t.clientPosition)))
      else None
  }

  // ---------------------------------------------------------------------------
  // The page
  // ---------------------------------------------------------------------------

  datatype ProjectPage = ProjectPage(
    seo: SeoProps,
    preview: Option<Figure>,
    badge: string,
    technologies: seq<string>,
    websiteUrl: string,
    caseStudy: Option<CaseStudyView>,
    testimonial: Option<TestimonialView>)

  function RenderProject(project: PortfolioProjectData, urlFor: UrlFor): (r: ProjectPage)
    ensures r.preview.Some? <==> project.previewImage.Some? && urlFor(project.previewImage.value, PreviewImageSize) != ""
    ensures r.preview.Some? ==> r.preview.value.alt == project.title + " preview"
    ensures r.badge == project.projectType && r.technologies == project.technologies
  {
    ProjectPage(
      SeoConfig(project, urlFor),
      if project.previewImage.Some? && urlFor(project.previewImage.value, PreviewImageSize) != ""
      then Some(Figure(urlFor(project.previewImage.value, PreviewImageSize), project.title + " preview"))
      else None,
      project.projectType,
      project.technologies,
      project.websiteUrl,
      CaseStudySection(project, urlFor),
      TestimonialSection(project))
  }

  /** The page: loading first, then "not found" for an error or a missing
      project, then the project. */
  function RenderPortfolioProject(q: Query<PortfolioProjectData>, urlFor: UrlFor): (r: DetailView<ProjectPage>)
    ensures q.isLoading ==> r.DetailLoading?
    ensures r.NotFound? <==> !q.isLoading && (q.failed || q.data.None?)
    ensures r.Found? ==> q.data.Some? && r.item == RenderProject(q.data.value, urlFor)
  {
    match DetailViewOf(q)
    case DetailLoading => DetailLoading
    case NotFound => NotFound
    case Found(project) => Found(RenderProject(project, urlFor))
  }
}

=== FILE: routes.dfy ===
/**
 The two handlers of `/api/contact`, each a function from the request and
 the store to a response and the next store. The POST handler parses the
 body with the contact insert schema before it stores anything. Any failure
 other than a refused body gives status 500; the in-memory store never
 fails, so such a failure is an input, `fault`, standing for a store that
 throws (the store is then left as it was).
 */
module Routes {
  import opened Options
  import opened Schema
  import opened Storage
  import ContactSection

  const SubmittedMessage := "Contact form submitted successfully"
  const ValidationMessage := "Validation error"
  const PostFailureMessage := "An error occurred while processing your request"
  const GetFailureMessage := "An error occurred while fetching contact submissions"

  datatype ResponseBody =
    | Created(message: string, submission: ContactFormSubmission)
    | Invalid(message: string, errors: seq<Issue>)
    | Failed(message: string)
    | Listed(submissions: seq<ContactFormSubmission>)

  datatype Response = Response(status: nat, body: ResponseBody)

  /** `POST /api/contact`. */
  function PostContact(s: MemStorage, body: Body, now: nat, fault: bool): (r: (Response, MemStorage))
    ensures r.0.status in {201, 400, 500}
    ensures r.0.status == 400 <==> ParseInsertContactForm(body).Failure?
    ensures r.0.status == 201 <==> ParseInsertContactForm(body).Success? && !fault
    ensures r.0.status != 201 ==> r.1 == s
  {
    match ParseInsertContactForm(body)
    case Failure(issues) => (Response(400, Invalid(ValidationMessage, issues)), s)
    case Success(form) =>
      if fault then (Response(500, Failed(PostFailureMessage)), s)
      else
        var (next, record) := CreateContactSubmission(s, form, now);
        (Response(201, Created(SubmittedMessage, record)), next)
  }

  /** `GET /api/contact`. */
  function GetContacts(s: MemStorage, fault: bool): (r: Response)
    ensures r.status == 200 || r.status == 500
    ensures r.status == 200 <==> !fault
    ensures !fault ==> r.body == Listed(s.contacts)
  {
    if fault then Response(500, Failed(GetFailureMessage))
    else Response(200, Listed(GetContactSubmissions(s)))
  }

  /** A body the schema accepts adds exactly one submission, and the 201
      response carries that stored record. */
  lemma ValidPostAddsOne(s: MemStorage, body: Body, now: nat)
    requires Valid(s)
    requires ParseInsertContactForm(body).Success?
    ensures var (resp, next) := PostContact(s, body, now, false);
            && resp.status == 201
            && resp.body.Created?
            && next.contacts == s.contacts + [resp.body.submission]
            && resp.body.submission.id == |s.contacts| + 1
            && next.users == s.users
            && Valid(next)
  {
    var form := ParseInsertContactForm(body).value;
    CreateKeepsValid(s, InsertUser("", ""), form, now);
  }

  /** A refused body gets 400 with every issue, and the store is untouched. */
  lemma InvalidPostLeavesStore(s: MemStorage, body: Body, now: nat, fault: bool)
    requires ParseInsertContactForm(body).Failure?
    ensures PostContact(s, body, now, fault) ==
              (Response(400, Invalid(ValidationMessage, ParseInsertContactForm(body).error)), s)
  {
  }

  /** A submission posted and then listed is the last listed record. */
  lemma PostThenGet(s: MemStorage, body: Body, now: nat)
    requires ParseInsertContactForm(body).Success?
    ensures var (resp, next) := PostContact(s, body, now, false);
            var listed := GetContacts(next, false).body.submissions;
            |listed| == |s.contacts| + 1 && listed[|s.contacts|] == resp.body.submission &&
            listed[..|s.contacts|] == s.contacts
  {
    var (resp, next) := PostContact(s, body, now, false);
    assert next.contacts[..|s.contacts|] == s.contacts;
  }

  /** The server has no length rule: a one-letter name and a two-letter
      message that the page's form refuses are stored all the same. */
  lemma NoServerLengthMinimums(isEmail: string -> bool)
    ensures var body := Object(map["name" := JString("A"), "email" := JString("x"), "message" := JString("hi")]);
            && PostContact(Initial(), body, 0, false).0.status == 201
            && !ContactSection.FormValid(ContactSection.FormValues("A", "x", None, "hi"), isEmail)
  {
    var v := ContactSection.FormValues("A", "x", None, "hi");
    assert ContactSection.NameTooShort in ContactSection.ValidateForm(v, isEmail);
  }

  /** The JSON body carrying the contact form's fields (absent business left out). */
  function FormBody(v: ContactSection.FormValues): (b: Body)
    ensures ParseInsertContactForm(b).Success?
  {
    var form := InsertContactForm(v.name, v.email, match v.business case Some(x) => Value(x) case None => Undefined, v.message);
    ContactRoundTrip(form);
    EncodeContactForm(form)
  }

  /** Every body built from contact-form values is accepted, whether or not
      the page's own validation would pass them, and the stored record
      carries exactly those values. */
  lemma ClientValidIsServerValid(s: MemStorage, v: ContactSection.FormValues, now: nat)
    ensures var (resp, next) := PostContact(s, FormBody(v), now, false);
            && resp.status == 201
            && resp.body.submission.name == v.name
            && resp.body.submission.email == v.email
            && resp.body.submission.business == v.business
            && resp.body.submission.message == v.message
  {
    var form := InsertContactForm(v.name, v.email, match v.business case Some(x) => Value(x) case None => Undefined, v.message);
    ContactRoundTrip(form);
  }
}

=== FILE: schema.dfy ===
/**
 The shared record shapes of the server: the users table and the contact
 form submissions table, and the insert schemas derived from them. An insert
 schema picks some columns; a `notNull` text column becomes a required
 string, a nullable one an optional string that may also be `null`. Parsing
 a request body checks exactly that and nothing else: there is no length or
 e-mail rule on the server. Keys the schema does not pick are dropped.
 */
module Schema {
  import opened Options

  /** A JSON value of a request body, as far as the insert schemas tell values apart. */
  datatype Json = JString(s: string) | JNull | JOther

  /** A parsed request body: an object with its fields, or anything else. */
  datatype Body = Object(fields: map<string, Json>) | NotAnObject

  /** A field of an insert payload that may be absent, `null` or a string. */
  datatype Nullable = Undefined | Null | Value(v: string)

  /** The columns of the users table. */
  datatype User = User(id: nat, username: string, password: string)

  /** The users insert payload: only `username` and `password` are picked;
      the id is assigned by the store. */
  datatype InsertUser = InsertUser(username: string, password: string)

  /** The contact table's columns. `business` is the only nullable column;
      `submittedAt` is the time of insertion, an opaque clock reading. */
  datatype ContactFormSubmission = ContactFormSubmission(
    id: nat,
    name: string,
    email: string,
    business: Option<string>,
    message: string,
    submittedAt: nat)

  /** The contact insert payload: `name`, `email`, `business` and `message`;
      `id` and `submittedAt` are not part of it. */
  datatype InsertContactForm = InsertContactForm(name: string, email: string, business: Nullable, message: string)

  /** Why a field was refused. */
  datatype IssueKind = Required | ExpectedString
  datatype Issue = NotAnObjectIssue | FieldIssue(field: string, kind: IssueKind)

  // ---------------------------------------------------------------------------
  // Field parsers
  // ---------------------------------------------------------------------------

  /** A `notNull` text column: the field must be present and a string. */
  function RequiredString(fields: map<string, Json>, key: string): (r: Result<string, Issue>)
    ensures r.Success? <==> key in fields && fields[key].JString?
    ensures r.Success? ==> r.value == fields[key].s
    ensures r.Failure? ==> r.error == FieldIssue(key, if key in fields then ExpectedString else Required)
  {
    if key !in fields then Failure(FieldIssue(key, Required))
    else match fields[key]
      case JString(s) => Success(s)
      case _ => Failure(FieldIssue(key, ExpectedString))
  }

  /** A nullable text column: absent, `null` or a string. */
  function NullableString(fields: map<string, Json>, key: string): (r: Result<Nullable, Issue>)
    ensures r.Failure? <==> key in fields && fields[key].JOther?
    ensures r.Success? && key !in fields ==> r.value == Undefined
    ensures r.Success? && key in fields && fields[key].JNull? ==> r.value == Null
    ensures r.Success? && key in fields && fields[key].JString? ==> r.value == Value(fields[key].s)
    ensures r.Failure? ==> r.error == FieldIssue(key, ExpectedString)
  {
    if key !in fields then Success(Undefined)
    else match fields[key]
      case JString(s) => Success(Value(s))
      case JNull => Success(Null)
      case JOther => Failure(FieldIssue(key, ExpectedString))
  }

  // ---------------------------------------------------------------------------
  // The insert schemas
  // ---------------------------------------------------------------------------

  /** `insertContactFormSchema.parse`: every issue is reported, in field order. */
  function ParseInsertContactForm(body: Body): (r: Result<InsertContactForm, seq<Issue>>)
    ensures r.Failure? ==> |r.error| > 0
  {
    match body
    case NotAnObject => Failure([NotAnObjectIssue])
    case Object(fields) =>
      var name := RequiredString(fields, "name");
      var email := RequiredString(fields, "email");
      var business := NullableString(fields, "business");
      var message := RequiredString(fields, "message");
      if name.Success? && email.Success? && business.Success? && message.Success? then
        Success(InsertContactForm(name.value, email.value, business.value, message.value))
      else
        var issues := (if name.Failure? then [name.error] else [])
          + (if email.Failure? then [email.error] else [])
          + (if business.Failure? then [business.error] else [])
          + (if message.Failure? then [message.error] else []);
        Failure(issues)
  }

  /** `insertUserSchema.parse`. */
  function ParseInsertUser(body: Body): (r: Result<InsertUser, seq<Issue>>)
    ensures r.Failure? ==> |r.error| > 0
  {
    match body
    case NotAnObject => Failure([NotAnObjectIssue])
    case Object(fields) =>
      var username := RequiredString(fields, "username");
      var password := RequiredString(fields, "password");
      if username.Success? && password.Success? then Success(InsertUser(username.value, password.value))
      else Failure((if username.Failure? then [username.error] else [])
                   + (if password.Failure? then [password.error] else []))
  }

  /** The JSON object a client sends for a contact payload. */
  function EncodeContactForm(form: InsertContactForm): (b: Body)
    ensures b.Object? && "name" in b.fields && "email" in b.fields && "message" in b.fields
    ensures "business" in b.fields <==> !form.business.Undefined?
  {
    var base := map["name" := JString(form.name), "email" := JString(form.email), "message" := JString(form.message)];
    match form.business
    case Undefined => Object(base)
    case Null => Object(base["business" := JNull])
    case Value(v) => Object(base["business" := JString(v)])
  }

  /** The picked fields are exactly the four payload fields: a body parses
      iff it is an object whose name, email and message are strings and whose
      business is absent, `null` or a string; other keys make no difference. */
  lemma ParseContactIff(body: Body)
    ensures ParseInsertContactForm(body).Success? <==>
              && body.Object?
              && "name" in body.fields && body.fields["name"].JString?
              && "email" in body.fields && body.fields["email"].JString?
              && "message" in body.fields && body.fields["message"].JString?
              && ("business" in body.fields ==> !body.fields["business"].JOther?)
  {
  }

  /** Each refused field is reported, and only refused fields are. */
  lemma ParseContactIssues(fields: map<string, Json>, key: string)
    requires key in ["name", "email", "message"]
    requires ParseInsertContactForm(Object(fields)).Failure?
    ensures FieldIssue(key, Required) in ParseInsertContactForm(Object(fields)).error <==> key !in fields
    ensures FieldIssue(key, ExpectedString) in ParseInsertContactForm(Object(fields)).error <==>
              key in fields && !fields[key].JString?
  {
  }

  /** Keys outside the pick are ignored. */
  lemma ExtraKeysIgnored(fields: map<string, Json>, key: string, value: Json)
    requires key !in ["name", "email", "business", "message"]
    ensures ParseInsertContactForm(Object(fields[key := value])) == ParseInsertContactForm(Object(fields))
  {
    var extended := fields[key := value];
    assert forall k :: k in ["name", "email", "business", "message"] ==>
      (k in extended <==> k in fields) && (k in fields ==> extended[k] == fields[k]);
  }

  /** Parsing what a client encodes gives the payload back. */
  lemma ContactRoundTrip(form: InsertContactForm)
    ensures ParseInsertContactForm(EncodeContactForm(form)) == Success(form)
  {
  }

  /** The users payload parses iff username and password are strings. */
  lemma ParseUserIff(body: Body)
    ensures ParseInsertUser(body).Success? <==>
              && body.Object?
              && "username" in body.fields && body.fields["username"].JString?
              && "password" in body.fields && body.fields["password"].JString?
    ensures ParseInsertUser(body).Success? ==>
              ParseInsertUser(body).value == InsertUser(body.fields["username"].s, body.fields["password"].s)
  {
  }
}

=== FILE: seo.dfy ===
/**
 The SEO component: on every change of its props it runs thirteen guarded
 updates of the head, in a fixed order. A text prop is used only when it is
 truthy (present and non-empty); the structured data, an object, is used
 whenever present, and is given here already serialised.
 */
module Seo {
  import opened Options
  import opened Text
  import opened Seqs
  import opened HeadTags

  datatype SeoProps = SeoProps(
    title: Option<string>,
    description: Option<string>,
    keywords: Option<string>,
    canonical: Option<string>,
    ogTitle: Option<string>,
    ogDescription: Option<string>,
    ogImage: Option<string>,
    twitterTitle: Option<string>,
    twitterDescription: Option<string>,
    structuredData: Option<string>)

  const Description := MetaKey("name", "description")
  const Keywords := MetaKey("name", "keywords")
  const OgTitle := MetaKey("property", "og:title")
  const OgDescription := MetaKey("property", "og:description")
  const OgImage := MetaKey("property", "og:image")
  const OgUrl := MetaKey("property", "og:url")
  const TwitterTitle := MetaKey("property", "twitter:title")
  const TwitterDescription := MetaKey("property", "twitter:description")
  const TwitterImage := MetaKey("property", "twitter:image")
  const TwitterUrl := MetaKey("property", "twitter:url")
  const CanonicalRel := "canonical"

  /** One change to the head. */
  datatype Update =
    | SetTitle(text: string)
    | SetMeta(key: MetaKey, content: string)
    | SetLink(rel: string, href: string)
    | SetStructuredData(json: string)

  /** What an update writes to. */
  datatype Target = TitleTarget | MetaTarget(key: MetaKey) | LinkTarget(rel: string) | ScriptTarget

  function TargetOf(u: Update): Target {
    match u
    case SetTitle(_) => TitleTarget
    case SetMeta(k, _) => MetaTarget(k)
    case SetLink(r, _) => LinkTarget(r)
    case SetStructuredData(_) => ScriptTarget
  }

  function Apply(h: Head, u: Update): Head {
    match u
    case SetTitle(t) => h.(title := t)
    case SetMeta(k, c) => UpdateMetaTag(h, k, c)
    case SetLink(r, href) => UpdateLinkTag(h, r, href)
    case SetStructuredData(j) => UpdateStructuredData(h, j)
  }

  /** An update and the condition under which the component runs it. */
  datatype Step = Step(enabled: bool, update: Update)

  function ApplyStep(h: Head, s: Step): Head {
    if s.enabled then Apply(h, s.update) else h
  }

  function RunSteps(h: Head, steps: seq<Step>): Head
    decreases |steps|
  {
    if |steps| == 0 then h else ApplyStep(RunSteps(h, steps[..|steps| - 1]), steps[|steps| - 1])
  }

  /** What the thirteen updates write to, in order. */
  const StepTargets: seq<Target> := [
    TitleTarget, MetaTarget(Description), MetaTarget(Keywords), LinkTarget(CanonicalRel),
    MetaTarget(OgTitle), MetaTarget(OgDescription), MetaTarget(OgImage), MetaTarget(OgUrl),
    MetaTarget(TwitterTitle), MetaTarget(TwitterDescription), MetaTarget(TwitterImage), MetaTarget(TwitterUrl),
    ScriptTarget]

  /** The effect's updates, in the order the component runs them. */
  function Steps(p: SeoProps): (r: seq<Step>)
    ensures |r| == |StepTargets|
    ensures forall i :: 0 <= i < |r| ==> TargetOf(r[i].update) == StepTargets[i]
  {
    [
      Step(Truthy(p.title), SetTitle(p.title.GetOr(""))),
      Step(Truthy(p.description), SetMeta(Description, p.description.GetOr(""))),
      Step(Truthy(p.keywords), SetMeta(Keywords, p.keywords.GetOr(""))),
      Step(Truthy(p.canonical), SetLink(CanonicalRel, p.canonical.GetOr(""))),
      Step(Truthy(p.ogTitle), SetMeta(OgTitle, p.ogTitle.GetOr(""))),
      Step(Truthy(p.ogDescription), SetMeta(OgDescription, p.ogDescription.GetOr(""))),
      Step(Truthy(p.ogImage), SetMeta(OgImage, p.ogImage.GetOr(""))),
      Step(Truthy(p.canonical), SetMeta(OgUrl, p.canonical.GetOr(""))),
      Step(Truthy(p.twitterTitle), SetMeta(TwitterTitle, p.twitterTitle.GetOr(""))),
      Step(Truthy(p.twitterDescription), SetMeta(TwitterDescription, p.twitterDescription.GetOr(""))),
      Step(Truthy(p.ogImage), SetMeta(TwitterImage, p.ogImage.GetOr(""))),
      Step(Truthy(p.canonical), SetMeta(TwitterUrl, p.canonical.GetOr(""))),
      Step(p.structuredData.Some?, SetStructuredData(p.structuredData.GetOr("")))
    ]
  }

  /** A page's canonical URL: its section's base URL followed by its slug.
      The slug can always be read back off the URL. */
  function PageUrl(base: string, slug: string): (r: string)
    ensures StripPrefix(r, base) == Some(slug)
  {
    StripPrefixConcat(base, slug);
    base + slug
  }

  /** The head after the component's effect has run for `p`. */
  function ApplySeo(h: Head, p: SeoProps): Head {
    RunSteps(h, Steps(p))
  }

  // ---------------------------------------------------------------------------
  // When an update has nothing left to do
  // ---------------------------------------------------------------------------

  /** The head already shows what `u` would write. */
  predicate Holds(h: Head, u: Update) {
    match u
    case SetTitle(t) => h.title == t
    case SetMeta(k, c) => MetaContent(h, k) == Some(c)
    case SetLink(r, href) => LinkHref(h, r) == Some(href)
    case SetStructuredData(j) =>
      && |h.elements| > 0 && h.elements[|h.elements| - 1] == LdJson(j, true)
      && DynamicScripts(h) == [LdJson(j, true)]
  }

  predicate StepHolds(h: Head, s: Step) {
    s.enabled ==> Holds(h, s.update)
  }

  lemma MetaNoop(h: Head, k: MetaKey, c: string)
    requires MetaContent(h, k) == Some(c)
    ensures UpdateMetaTag(h, k, c) == h
  {
    var es := h.elements;
    var i := FirstIndex(es, IsMeta(k)).value;
    assert es[i] == Meta(k, c);
    assert es[i := Meta(k, c)] == es;
  }

  lemma LinkNoop(h: Head, r: string, href: string)
    requires LinkHref(h, r) == Some(href)
    ensures UpdateLinkTag(h, r, href) == h
  {
    var es := h.elements;
    var i := FirstIndex(es, IsLink(r)).value;
    assert es[i] == Link(r, href);
    assert es[i := Link(r, href)] == es;
  }

  lemma ScriptNoop(h: Head, j: string)
    requires Holds(h, SetStructuredData(j))
    ensures UpdateStructuredData(h, j) == h
  {
    var es := h.elements;
    var f := IsDynamicScript();
    var n := |es|;
    var init := es[..n - 1];
    assert es == init + [es[n - 1]];
    FilterConcat(init, [es[n - 1]], f);
    FilterSingleton(es[n - 1], f);
    assert Filter(init, f) == [];
    forall k | 0 <= k < n - 1 ensures !f(es[k]) {
      assert es[k] == init[k];
      FilterMembership(init, f, es[k]);
    }
    assert FirstIndex(es, f) == Some(n - 1);
    assert RemoveFirst(es, f) == init;
  }

  /** An update whose effect is already visible changes nothing. */
  lemma ApplyNoop(h: Head, u: Update)
    requires Holds(h, u)
    ensures Apply(h, u) == h
  {
    match u
    case SetTitle(_) =>
    case SetMeta(k, c) => MetaNoop(h, k, c);
    case SetLink(r, href) => LinkNoop(h, r, href);
    case SetStructuredData(j) => ScriptNoop(h, j);
  }

  /** Running an update makes it hold (the structured data needs at most one
      dynamic script beforehand). */
  lemma ApplyEstablishes(h: Head, u: Update)
    requires u.SetStructuredData? ==> AtMostOneDynamicScript(h)
    ensures Holds(Apply(h, u), u)
  {
    match u
    case SetTitle(_) =>
    case SetMeta(k, c) => UpdateMetaTagSpec(h, k, c, k, "");
    case SetLink(r, href) => UpdateLinkTagSpec(h, r, href, MetaKey("", ""), r);
    case SetStructuredData(j) => UpdateStructuredDataSpec(h, j, MetaKey("", ""), "");
  }

  /** A later update to a different target does not undo an earlier one. */
  lemma ApplyPreserves(h: Head, u: Update, v: Update)
    requires !u.SetStructuredData?
    requires TargetOf(u) != TargetOf(v)
    requires Holds(h, u)
    ensures Holds(Apply(h, v), u)
  {
    var k := if u.SetMeta? then u.key else MetaKey("", "");
    var r := if u.SetLink? then u.rel else "";
    match v
    case SetTitle(_) =>
    case SetMeta(vk, c) => UpdateMetaTagSpec(h, vk, c, k, r);
    case SetLink(vr, href) => UpdateLinkTagSpec(h, vr, href, k, r);
    case SetStructuredData(j) => UpdateStructuredDataSpec(h, j, k, r);
  }

  /** No update adds a second dynamic script. */
  lemma ApplyKeepsAtMostOne(h: Head, v: Update)
    requires AtMostOneDynamicScript(h)
    ensures AtMostOneDynamicScript(Apply(h, v))
  {
    match v
    case SetTitle(_) =>
    case SetMeta(k, c) => UpdateMetaTagSpec(h, k, c, k, "");
    case SetLink(r, href) => UpdateLinkTagSpec(h, r, href, MetaKey("", ""), r);
    case SetStructuredData(j) => UpdateStructuredDataSpec(h, j, MetaKey("", ""), "");
  }

  // ---------------------------------------------------------------------------
  // Runs of steps
  // ---------------------------------------------------------------------------

  /** Distinct targets, and only the last step may write the structured data. */
  predicate WellOrdered(steps: seq<Step>) {
    && (forall i, j :: 0 <= i < j < |steps| ==> TargetOf(steps[i].update) != TargetOf(steps[j].update))
    && (forall i :: 0 <= i < |steps| - 1 ==> !steps[i].update.SetStructuredData?)
  }

  /** After a well-ordered run every step that writes a tag or the title
      holds, and so does the structured-data step when there was at most one
      dynamic script to begin with; no run adds a second dynamic script. */
  lemma {:induction false} RunEstablishes(h: Head, steps: seq<Step>)
    requires WellOrdered(steps)
    ensures forall i :: 0 <= i < |steps| && !steps[i].update.SetStructuredData? ==> StepHolds(RunSteps(h, steps), steps[i])
    ensures AtMostOneDynamicScript(h) ==> AtMostOneDynamicScript(RunSteps(h, steps))
    ensures AtMostOneDynamicScript(h) ==> forall i :: 0 <= i < |steps| ==> StepHolds(RunSteps(h, steps), steps[i])
    decreases |steps|
  {
    if |steps| > 0 {
      var prefix := steps[..|steps| - 1];
      var last := steps[|steps| - 1];
      var mid := RunSteps(h, prefix);
      assert WellOrdered(prefix);
      RunEstablishes(h, prefix);
      if AtMostOneDynamicScript(mid) && last.enabled {
        ApplyKeepsAtMostOne(mid, last.update);
      }
      if last.enabled && (!last.update.SetStructuredData? || AtMostOneDynamicScript(mid)) {
        ApplyEstablishes(mid, last.update);
      }
      forall i | 0 <= i < |prefix| && prefix[i].enabled && !prefix[i].update.SetStructuredData?
        ensures Holds(RunSteps(h, steps), prefix[i].update)
      {
        assert prefix[i] == steps[i];
        if last.enabled {
          ApplyPreserves(mid, prefix[i].update, last.update);
        }
      }
      forall i | 0 <= i < |prefix| ensures !prefix[i].update.SetStructuredData? {
        assert prefix[i] == steps[i];
      }
    }
  }

  /** A run of steps that all hold changes nothing. */
  lemma {:induction false} RunNoop(h: Head, steps: seq<Step>)
    requires forall i :: 0 <= i < |steps| ==> StepHolds(h, steps[i])
    ensures RunSteps(h, steps) == h
    decreases |steps|
  {
    if |steps| > 0 {
      var prefix := steps[..|steps| - 1];
      assert forall i :: 0 <= i < |prefix| ==> prefix[i] == steps[i];
      RunNoop(h, prefix);
      if steps[|steps| - 1].enabled {
        ApplyNoop(h, steps[|steps| - 1].update);
      }
    }
  }

  /** A run none of whose enabled steps writes `key` leaves its lookup alone. */
  lemma {:induction false} RunKeepsMeta(h: Head, steps: seq<Step>, key: MetaKey)
    requires forall i :: 0 <= i < |steps| && steps[i].enabled ==> TargetOf(steps[i].update) != MetaTarget(key)
    ensures MetaContent(RunSteps(h, steps), key) == MetaContent(h, key)
    decreases |steps|
  {
    if |steps| > 0 {
      var prefix := steps[..|steps| - 1];
      var last := steps[|steps| - 1];
      assert forall i :: 0 <= i < |prefix| ==> prefix[i] == steps[i];
      RunKeepsMeta(h, prefix, key);
      StepKeepsMeta(RunSteps(h, prefix), last, key);
    }
  }

  /** One step that does not write `key` leaves its lookup alone. */
  lemma StepKeepsMeta(h: Head, step: Step, key: MetaKey)
    requires step.enabled ==> TargetOf(step.update) != MetaTarget(key)
    ensures MetaContent(ApplyStep(h, step), key) == MetaContent(h, key)
  {
    if step.enabled {
      match step.update
      case SetTitle(_) =>
      case SetMeta(k, c) => UpdateMetaTagSpec(h, k, c, key, "");
      case SetLink(r, href) => UpdateLinkTagSpec(h, r, href, key, r);
      case SetStructuredData(j) => UpdateStructuredDataSpec(h, j, key, "");
    }
  }

  /** A run none of whose enabled steps writes the link `rel` leaves its lookup alone. */
  lemma {:induction false} RunKeepsLink(h: Head, steps: seq<Step>, rel: string)
    requires forall i :: 0 <= i < |steps| && steps[i].enabled ==> TargetOf(steps[i].update) != LinkTarget(rel)
    ensures LinkHref(RunSteps(h, steps), rel) == LinkHref(h, rel)
    decreases |steps|
  {
    if |steps| > 0 {
      var prefix := steps[..|steps| - 1];
      var last := steps[|steps| - 1];
      assert forall i :: 0 <= i < |prefix| ==> prefix[i] == steps[i];
      RunKeepsLink(h, prefix, rel);
      StepKeepsLink(RunSteps(h, prefix), last, rel);
    }
  }

  /** One step that does not write the link `rel` leaves its lookup alone. */
  lemma StepKeepsLink(h: Head, step: Step, rel: string)
    requires step.enabled ==> TargetOf(step.update) != LinkTarget(rel)
    ensures LinkHref(ApplyStep(h, step), rel) == LinkHref(h, rel)
  {
    if step.enabled {
      match step.update
      case SetTitle(_) =>
      case SetMeta(k, c) => UpdateMetaTagSpec(h, k, c, k, rel);
      case SetLink(r, href) => UpdateLinkTagSpec(h, r, href, Description, rel);
      case SetStructuredData(j) => UpdateStructuredDataSpec(h, j, Description, rel);
    }
  }

  /** A run without an enabled structured-data step leaves the dynamic scripts alone. */
  lemma {:induction false} RunKeepsScripts(h: Head, steps: seq<Step>)
    requires forall i :: 0 <= i < |steps| && steps[i].enabled ==> TargetOf(steps[i].update) != ScriptTarget
    ensures DynamicScripts(RunSteps(h, steps)) == DynamicScripts(h)
    decreases |steps|
  {
    if |steps| > 0 {
      var prefix := steps[..|steps| - 1];
      var last := steps[|steps| - 1];
      assert forall i :: 0 <= i < |prefix| ==> prefix[i] == steps[i];
      RunKeepsScripts(h, prefix);
      StepKeepsScripts(RunSteps(h, prefix), last);
    }
  }

  /** One step other than the structured data leaves the dynamic scripts alone. */
  lemma StepKeepsScripts(h: Head, step: Step)
    requires step.enabled ==> TargetOf(step.update) != ScriptTarget
    ensures DynamicScripts(ApplyStep(h, step)) == DynamicScripts(h)
  {
    if step.enabled {
      match step.update
      case SetTitle(_) =>
      case SetMeta(k, c) => UpdateMetaTagSpec(h, k, c, k, CanonicalRel);
      case SetLink(r, href) => UpdateLinkTagSpec(h, r, href, Description, r);
      case SetStructuredData(j) =>
    }
  }

  /** A run none of whose enabled steps sets the title leaves it alone. */
  lemma {:induction false} RunKeepsTitle(h: Head, steps: seq<Step>)
    requires forall i :: 0 <= i < |steps| && steps[i].enabled ==> TargetOf(steps[i].update) != TitleTarget
    ensures RunSteps(h, steps).title == h.title
    decreases |steps|
  {
    if |steps| > 0 {
      var prefix := steps[..|steps| - 1];
      assert forall i :: 0 <= i < |prefix| ==> prefix[i] == steps[i];
      RunKeepsTitle(h, prefix);
    }
  }

  // ---------------------------------------------------------------------------
  // The component's promises
  // ---------------------------------------------------------------------------

  lemma StepsWellOrdered(p: SeoProps)
    ensures WellOrdered(Steps(p))
  {
    var s := Steps(p);
    assert NoDuplicates(StepTargets);
  }

  /** Every truthy prop ends up in the head: the title in the document
      title; the description, keywords and the open-graph and twitter texts
      in their tags; the canonical URL in the canonical link, `og:url` and
      `twitter:url`; the image in `og:image` and `twitter:image`. */
  lemma ApplySeoFanOut(h: Head, p: SeoProps)
    ensures var r := ApplySeo(h, p);
            && (Truthy(p.title) ==> r.title == p.title.value)
            && (Truthy(p.description) ==> MetaContent(r, Description) == p.description)
            && (Truthy(p.keywords) ==> MetaContent(r, Keywords) == p.keywords)
            && (Truthy(p.canonical) ==> LinkHref(r, CanonicalRel) == p.canonical &&
                                        MetaContent(r, OgUrl) == p.canonical &&
                                        MetaContent(r, TwitterUrl) == p.canonical)
            && (Truthy(p.ogImage) ==> MetaContent(r, OgImage) == p.ogImage &&
                                      MetaContent(r, TwitterImage) == p.ogImage)
            && (Truthy(p.ogTitle) ==> MetaContent(r, OgTitle) == p.ogTitle)
            && (Truthy(p.ogDescription) ==> MetaContent(r, OgDescription) == p.ogDescription)
            && (Truthy(p.twitterTitle) ==> MetaContent(r, TwitterTitle) == p.twitterTitle)
            && (Truthy(p.twitterDescription) ==> MetaContent(r, TwitterDescription) == p.twitterDescription)
  {
    var s := Steps(p);
    StepsWellOrdered(p);
    RunEstablishes(h, s);
    assert StepHolds(ApplySeo(h, p), s[0]);
    assert StepHolds(ApplySeo(h, p), s[1]);
    assert StepHolds(ApplySeo(h, p), s[2]);
    assert StepHolds(ApplySeo(h, p), s[3]);
    assert StepHolds(ApplySeo(h, p), s[4]);
    assert StepHolds(ApplySeo(h, p), s[5]);
    assert StepHolds(ApplySeo(h, p), s[6]);
    assert StepHolds(ApplySeo(h, p), s[7]);
    assert StepHolds(ApplySeo(h, p), s[8]);
    assert StepHolds(ApplySeo(h, p), s[9]);
    assert StepHolds(ApplySeo(h, p), s[10]);
    assert StepHolds(ApplySeo(h, p), s[11]);
  }

  /** Steps whose guard is off do not count as writers. */
  lemma GuardedOff(p: SeoProps, key: MetaKey, off: set<nat>)
    requires forall i :: 0 <= i < |StepTargets| && StepTargets[i] == MetaTarget(key) ==> i in off
    requires forall i :: i in off && 0 <= i < |StepTargets| ==> !Steps(p)[i].enabled
    ensures forall i :: 0 <= i < |Steps(p)| && Steps(p)[i].enabled ==> TargetOf(Steps(p)[i].update) != MetaTarget(key)
  {
  }

  /** Without a truthy title the document title stays as it was. */
  lemma TitleGuard(h: Head, p: SeoProps)
    requires !Truthy(p.title)
    ensures ApplySeo(h, p).title == h.title
  {
    var s := Steps(p);
    forall i | 0 <= i < |s| && s[i].enabled ensures TargetOf(s[i].update) != TitleTarget {
      assert i != 0;
    }
    RunKeepsTitle(h, s);
  }

  /** A tag is left as it was when every step that writes it is switched off. */
  lemma MetaGuard(h: Head, p: SeoProps, key: MetaKey, off: set<nat>)
    requires forall i :: 0 <= i < |StepTargets| && StepTargets[i] == MetaTarget(key) ==> i in off
    requires forall i :: i in off && 0 <= i < |StepTargets| ==> !Steps(p)[i].enabled
    ensures MetaContent(ApplySeo(h, p), key) == MetaContent(h, key)
  {
    GuardedOff(p, key, off);
    RunKeepsMeta(h, Steps(p), key);
  }

  /** Without a truthy description or keywords their tags stay as they were. */
  lemma TextGuards(h: Head, p: SeoProps)
    ensures !Truthy(p.description) ==> MetaContent(ApplySeo(h, p), Description) == MetaContent(h, Description)
    ensures !Truthy(p.keywords) ==> MetaContent(ApplySeo(h, p), Keywords) == MetaContent(h, Keywords)
  {
    if !Truthy(p.description) { MetaGuard(h, p, Description, {1}); }
    if !Truthy(p.keywords) { MetaGuard(h, p, Keywords, {2}); }
  }

  /** Without a truthy canonical URL neither the canonical link nor `og:url`
      nor `twitter:url` changes. */
  lemma CanonicalGuard(h: Head, p: SeoProps)
    requires !Truthy(p.canonical)
    ensures LinkHref(ApplySeo(h, p), CanonicalRel) == LinkHref(h, CanonicalRel)
    ensures MetaContent(ApplySeo(h, p), OgUrl) == MetaContent(h, OgUrl)
    ensures MetaContent(ApplySeo(h, p), TwitterUrl) == MetaContent(h, TwitterUrl)
  {
    CanonicalLinkGuard(h, p);
    MetaGuard(h, p, OgUrl, {7});
    MetaGuard(h, p, TwitterUrl, {11});
  }

  lemma CanonicalLinkGuard(h: Head, p: SeoProps)
    requires !Truthy(p.canonical)
    ensures LinkHref(ApplySeo(h, p), CanonicalRel) == LinkHref(h, CanonicalRel)
  {
    var s := Steps(p);
    forall i | 0 <= i < |s| && s[i].enabled ensures TargetOf(s[i].update) != LinkTarget(CanonicalRel) {
      assert i != 3;
    }
    RunKeepsLink(h, s, CanonicalRel);
  }

  /** Without structured data the dynamic scripts stay as they were. */
  lemma ScriptGuard(h: Head, p: SeoProps)
    requires p.structuredData.None?
    ensures DynamicScripts(ApplySeo(h, p)) == DynamicScripts(h)
  {
    var s := Steps(p);
    forall i | 0 <= i < |s| && s[i].enabled ensures TargetOf(s[i].update) != ScriptTarget {
      assert i != 12;
    }
    RunKeepsScripts(h, s);
  }

  /** Without a truthy image neither `og:image` nor `twitter:image` changes. */
  lemma ImageGuard(h: Head, p: SeoProps)
    requires !Truthy(p.ogImage)
    ensures MetaContent(ApplySeo(h, p), OgImage) == MetaContent(h, OgImage)
    ensures MetaContent(ApplySeo(h, p), TwitterImage) == MetaContent(h, TwitterImage)
  {
    MetaGuard(h, p, OgImage, {6});
    MetaGuard(h, p, TwitterImage, {10});
  }

  /** Starting from at most one dynamic script, the component never leaves
      more than one, and exactly the new one when it was given data. */
  lemma ApplySeoOneScript(h: Head, p: SeoProps)
    requires AtMostOneDynamicScript(h)
    ensures AtMostOneDynamicScript(ApplySeo(h, p))
    ensures p.structuredData.Some? ==> DynamicScripts(ApplySeo(h, p)) == [LdJson(p.structuredData.value, true)]
  {
    var s := Steps(p);
    StepsWellOrdered(p);
    RunEstablishes(h, s);
    assert StepHolds(ApplySeo(h, p), s[12]);
  }

  /** Running the effect twice with the same props gives the head it gave
      once, provided the head held at most one dynamic script. */
  lemma ApplySeoIdempotent(h: Head, p: SeoProps)
    requires AtMostOneDynamicScript(h)
    ensures ApplySeo(ApplySeo(h, p), p) == ApplySeo(h, p)
  {
    StepsWellOrdered(p);
    RunEstablishes(h, Steps(p));
    RunNoop(ApplySeo(h, p), Steps(p));
  }
}

=== FILE: seqs.dfy ===
/**
 The array operations the listing pages are built from, over immutable
 sequences: `filter`, `find`, de-duplication through a `Set` (which keeps
 first-insertion order), and `slice(0, n)`.
 */
module Seqs {
  import opened Options

  // ---------------------------------------------------------------------------
  // Subsequences and duplicates
  // ---------------------------------------------------------------------------

  /** `a` can be obtained from `b` by deleting elements, keeping the order. */
  predicate IsSubsequence<T(==)>(a: seq<T>, b: seq<T>)
    decreases |b|
  {
    if |a| == 0 then true
    else if |b| == 0 then false
    else (a[0] == b[0] && IsSubsequence(a[1..], b[1..])) || IsSubsequence(a, b[1..])
  }

  /** No value occurs twice. */
  predicate NoDuplicates<T(==)>(s: seq<T>) {
    forall i, j :: 0 <= i < j < |s| ==> s[i] != s[j]
  }

  /** A sequence without duplicates has as many distinct values as elements. */
  lemma {:induction false} NoDuplicatesCardinality<T>(s: seq<T>)
    requires NoDuplicates(s)
    ensures |set x | x in s| == |s|
    decreases |s|
  {
    if |s| > 0 {
      var t := s[..|s| - 1];
      assert NoDuplicates(t);
      NoDuplicatesCardinality(t);
      assert s[|s| - 1] !in t;
      assert (set x | x in s) == (set x | x in t) + {s[|s| - 1]} by {
        assert s == t + [s[|s| - 1]];
      }
    }
  }

  /** A sequence holds at most as many distinct values as elements. */
  lemma {:induction false} SeqSetCardinality<T>(s: seq<T>)
    ensures |set x | x in s| <= |s|
    decreases |s|
  {
    if |s| > 0 {
      var t := s[..|s| - 1];
      SeqSetCardinality(t);
      assert (set x | x in s) == (set x | x in t) + {s[|s| - 1]} by {
        assert s == t + [s[|s| - 1]];
      }
    }
  }

  /** A sequence without duplicates drawn from a finite set is no longer than the set. */
  lemma NoDuplicatesBounded<T>(s: seq<T>, universe: set<T>)
    requires NoDuplicates(s)
    requires forall x :: x in s ==> x in universe
    ensures |s| <= |universe|
  {
    NoDuplicatesCardinality(s);
    assert (set x | x in s) <= universe;
    SubsetCardinality((set x | x in s), universe);
  }

  lemma SubsetCardinality<T>(a: set<T>, b: set<T>)
    requires a <= b
    ensures |a| <= |b|
  {
    assert b == a + (b - a);
  }

  // ---------------------------------------------------------------------------
  // filter
  // ---------------------------------------------------------------------------

  /** `s.filter(f)`. */
  function Filter<T>(s: seq<T>, f: T -> bool): (r: seq<T>)
    ensures |r| <= |s|
    ensures forall i :: 0 <= i < |r| ==> f(r[i])
  {
    if |s| == 0 then []
    else (if f(s[0]) then [s[0]] else []) + Filter(s[1..], f)
  }

  /** Filtering a non-empty sequence is filtering its head, then its tail. */
  lemma FilterCons<T>(s: seq<T>, f: T -> bool)
    requires |s| > 0
    ensures Filter(s, f) == Filter([s[0]], f) + Filter(s[1..], f)
  {
    assert [s[0]][1..] == [];
  }

  /** Filtering distributes over concatenation. */
  lemma {:induction false} FilterConcat<T>(a: seq<T>, b: seq<T>, f: T -> bool)
    ensures Filter(a + b, f) == Filter(a, f) + Filter(b, f)
    decreases |a|
  {
    if |a| == 0 {
      assert a + b == b;
    } else {
      assert (a + b)[0] == a[0];
      assert (a + b)[1..] == a[1..] + b;
      FilterConcat(a[1..], b, f);
    }
  }

  /** A value is kept iff it was there and passes the test. */
  lemma {:induction false} FilterMembership<T>(s: seq<T>, f: T -> bool, x: T)
    ensures x in Filter(s, f) <==> x in s && f(x)
    decreases |s|
  {
    if |s| > 0 {
      FilterMembership(s[1..], f, x);
      assert s == [s[0]] + s[1..];
    }
  }

  /** Filtering keeps every passing value exactly as often as it occurs and
      drops every failing one: nothing is added or duplicated. */
  lemma {:induction false} FilterMultiplicity<T>(s: seq<T>, f: T -> bool, x: T)
    ensures multiset(Filter(s, f))[x] == if f(x) then multiset(s)[x] else 0
    decreases |s|
  {
    if |s| > 0 {
      FilterMultiplicity(s[1..], f, x);
      assert s == [s[0]] + s[1..];
      assert multiset(s) == multiset([s[0]]) + multiset(s[1..]);
    }
  }

  /** Filtering keeps the original order: the result is a subsequence. */
  lemma {:induction false} FilterIsSubsequence<T>(s: seq<T>, f: T -> bool)
    ensures IsSubsequence(Filter(s, f), s)
    decreases |s|
  {
    if |s| > 0 {
      FilterIsSubsequence(s[1..], f);
      var r := Filter(s, f);
      if f(s[0]) {
        assert r[0] == s[0] && r[1..] == Filter(s[1..], f);
      } else {
        assert r == Filter(s[1..], f);
        if |r| > 0 {
          assert IsSubsequence(r, s[1..]);
        }
      }
    }
  }

  /** A test that every element passes keeps the whole sequence. */
  lemma {:induction false} FilterKeepsAll<T>(s: seq<T>, f: T -> bool)
    requires forall i :: 0 <= i < |s| ==> f(s[i])
    ensures Filter(s, f) == s
    decreases |s|
  {
    if |s| > 0 {
      FilterKeepsAll(s[1..], f);
      assert s == [s[0]] + s[1..];
    }
  }

  /** A test that no element passes keeps nothing. */
  lemma {:induction false} FilterDropsAll<T>(s: seq<T>, f: T -> bool)
    requires forall i :: 0 <= i < |s| ==> !f(s[i])
    ensures Filter(s, f) == []
    decreases |s|
  {
    if |s| > 0 {
      FilterDropsAll(s[1..], f);
    }
  }

  /** Filtering twice with `f` then `g` is filtering once with both. */
  lemma {:induction false} FilterFilter<T>(s: seq<T>, f: T -> bool, g: T -> bool, fg: T -> bool)
    requires forall x :: fg(x) == (f(x) && g(x))
    ensures Filter(Filter(s, f), g) == Filter(s, fg)
    decreases |s|
  {
    if |s| > 0 {
      FilterFilter(s[1..], f, g, fg);
      var rest := Filter(s[1..], f);
      if f(s[0]) {
        assert Filter(s, f) == [s[0]] + rest;
        assert Filter(s, f)[1..] == rest;
      } else {
        assert Filter(s, f) == rest;
      }
    }
  }

  /** Filtering depends only on the values the test returns. */
  lemma {:induction false} FilterExtensional<T>(s: seq<T>, f: T -> bool, g: T -> bool)
    requires forall x :: f(x) == g(x)
    ensures Filter(s, f) == Filter(s, g)
    decreases |s|
  {
    if |s| > 0 {
      FilterExtensional(s[1..], f, g);
    }
  }

  /** Filtering is idempotent. */
  lemma FilterIdempotent<T>(s: seq<T>, f: T -> bool)
    ensures Filter(Filter(s, f), f) == Filter(s, f)
  {
    FilterKeepsAll(Filter(s, f), f);
  }

  /** Splitting by a test and its negation loses and duplicates nothing. */
  lemma {:induction false} FilterPartition<T>(s: seq<T>, f: T -> bool, notF: T -> bool)
    requires forall x :: notF(x) == !f(x)
    ensures multiset(Filter(s, f)) + multiset(Filter(s, notF)) == multiset(s)
    ensures |Filter(s, f)| + |Filter(s, notF)| == |s|
    decreases |s|
  {
    if |s| > 0 {
      FilterPartition(s[1..], f, notF);
      assert s == [s[0]] + s[1..];
      assert multiset(s) == multiset([s[0]]) + multiset(s[1..]);
    }
  }

  // ---------------------------------------------------------------------------
  // find
  // ---------------------------------------------------------------------------

  /** The position of the first element passing `f`, if any. */
  function FirstIndex<T>(s: seq<T>, f: T -> bool): (r: Option<nat>)
    ensures r.Some? ==> r.value < |s| && f(s[r.value])
    ensures r.Some? ==> forall j :: 0 <= j < r.value ==> !f(s[j])
    ensures r.None? <==> forall j :: 0 <= j < |s| ==> !f(s[j])
  {
    if |s| == 0 then None
    else if f(s[0]) then Some(0)
    else
      match FirstIndex(s[1..], f)
      case None => None
      case Some(i) => Some(i + 1)
  }

  /** `s.find(f)`: the first element passing `f`, if any. */
  function Find<T>(s: seq<T>, f: T -> bool): (r: Option<T>)
    ensures r.Some? <==> exists i :: 0 <= i < |s| && f(s[i])
    ensures r.Some? ==> r.value in s && f(r.value)
  {
    match FirstIndex(s, f)
    case None => None
    case Some(i) => Some(s[i])
  }

  // ---------------------------------------------------------------------------
  // De-duplication
  // ---------------------------------------------------------------------------

  /** The first match in `a + b` is the first match in `a`, if there is one,
      and otherwise the first match in `b`. */
  lemma FindConcat<T>(a: seq<T>, b: seq<T>, f: T -> bool)
    ensures Find(a + b, f) == if Find(a, f).Some? then Find(a, f) else Find(b, f)
  {
    var ab := a + b;
    var ia := FirstIndex(a, f);
    var iab := FirstIndex(ab, f);
    if ia.Some? {
      assert ab[ia.value] == a[ia.value];
      forall j | 0 <= j < ia.value ensures !f(ab[j]) {
        assert ab[j] == a[j];
      }
    } else {
      var ib := FirstIndex(b, f);
      forall j | 0 <= j < |a| ensures !f(ab[j]) {
        assert ab[j] == a[j];
      }
      if ib.Some? {
        assert ab[|a| + ib.value] == b[ib.value];
        forall j | |a| <= j < |a| + ib.value ensures !f(ab[j]) {
          assert ab[j] == b[j - |a|];
        }
      } else {
        forall j | 0 <= j < |ab| ensures !f(ab[j]) {
          if j < |a| {
            assert ab[j] == a[j];
          } else {
            assert ab[j] == b[j - |a|];
          }
        }
      }
    }
  }

  /** `Array.from(new Set(s))`: each distinct value once, in the order it was
      first inserted. Defined as the set is filled: an element already present
      is ignored, a new one goes to the end. */
  function Distinct<T(==)>(s: seq<T>): (r: seq<T>)
    ensures NoDuplicates(r)
    ensures forall i :: 0 <= i < |r| ==> r[i] in s
    ensures forall i :: 0 <= i < |s| ==> s[i] in r
    decreases |s|
  {
    if |s| == 0 then []
    else
      var p := Distinct(s[..|s| - 1]);
      var x := s[|s| - 1];
      assert s == s[..|s| - 1] + [x];
      if x in p then p else p + [x]
  }

  /** Later elements never move earlier ones: the distinct values of a prefix
      are a prefix of the distinct values of the whole (first-seen order). */
  lemma {:induction false} DistinctPrefix<T>(s: seq<T>, t: seq<T>)
    ensures |Distinct(s)| <= |Distinct(s + t)|
    ensures Distinct(s) == Distinct(s + t)[..|Distinct(s)|]
    decreases |t|
  {
    if |t| > 0 {
      var u := t[..|t| - 1];
      var x := t[|t| - 1];
      DistinctPrefix(s, u);
      assert s + t == (s + u) + [x];
      DistinctSnoc(s + u, x);
      PrefixOfGrown(Distinct(s), Distinct(s + u), x, Distinct(s + t));
    } else {
      assert s + t == s;
    }
  }

  /** One more element adds its value at the end, unless it was seen already. */
  lemma DistinctSnoc<T>(s: seq<T>, x: T)
    ensures Distinct(s + [x]) == if x in Distinct(s) then Distinct(s) else Distinct(s) + [x]
  {
    assert (s + [x])[..|s|] == s;
  }

  lemma PrefixOfGrown<T>(a: seq<T>, p: seq<T>, x: T, q: seq<T>)
    requires |a| <= |p| && a == p[..|a|]
    requires q == p || q == p + [x]
    ensures |a| <= |q| && a == q[..|a|]
  {
    if q != p {
      assert (p + [x])[..|a|] == p[..|a|];
    }
  }

  /** The distinct values keep the order of the input. */
  lemma {:induction false} DistinctIsSubsequence<T>(s: seq<T>)
    ensures IsSubsequence(Distinct(s), s)
    decreases |s|
  {
    if |s| > 0 {
      var p := s[..|s| - 1];
      var x := s[|s| - 1];
      DistinctIsSubsequence(p);
      assert s == p + [x];
      if x in Distinct(p) {
        SubsequenceAppend(Distinct(p), p, [x]);
      } else {
        SubsequenceExtend(Distinct(p), p, x);
      }
    }
  }

  /** Appending to the longer sequence keeps a subsequence. */
  lemma {:induction false} SubsequenceAppend<T>(a: seq<T>, b: seq<T>, c: seq<T>)
    requires IsSubsequence(a, b)
    ensures IsSubsequence(a, b + c)
    decreases |b|
  {
    if |a| > 0 && |b| > 0 {
      assert (b + c)[1..] == b[1..] + c;
      if a[0] == b[0] && IsSubsequence(a[1..], b[1..]) {
        SubsequenceAppend(a[1..], b[1..], c);
      } else {
        SubsequenceAppend(a, b[1..], c);
      }
    }
  }

  /** Appending the same element to both keeps a subsequence. */
  lemma {:induction false} SubsequenceExtend<T>(a: seq<T>, b: seq<T>, x: T)
    requires IsSubsequence(a, b)
    ensures IsSubsequence(a + [x], b + [x])
    decreases |b|
  {
    if |a| == 0 {
      assert a + [x] == [x];
      SubsequenceOfSingleton(b, x);
    } else {
      assert |b| > 0;
      assert (a + [x])[1..] == a[1..] + [x];
      assert (b + [x])[1..] == b[1..] + [x];
      if a[0] == b[0] && IsSubsequence(a[1..], b[1..]) {
        SubsequenceExtend(a[1..], b[1..], x);
      } else {
        SubsequenceExtend(a, b[1..], x);
      }
    }
  }

  lemma {:induction false} SubsequenceOfSingleton<T>(b: seq<T>, x: T)
    ensures IsSubsequence([x], b + [x])
    decreases |b|
  {
    if |b| > 0 {
      assert (b + [x])[1..] == b[1..] + [x];
      SubsequenceOfSingleton(b[1..], x);
    }
  }

  // ---------------------------------------------------------------------------
  // slice(0, n)
  // ---------------------------------------------------------------------------

  /** `s.slice(0, n)`: the first `n` elements, or all of them when fewer. */
  function Take<T>(s: seq<T>, n: nat): (r: seq<T>)
    ensures |r| == if |s| < n then |s| else n
    ensures r == s[..|r|]
  {
    if |s| <= n then s else s[..n]
  }
}

=== FILE: storage.dfy ===
/**
 The in-memory store behind the server: users and contact submissions, each
 kept in insertion order under its id, with one id counter per table. Both
 counters start at 1; a creation takes the current counter value as the new
 id and then increments it, so ids are never reused and the two tables do
 not share ids. The clock reading of a contact creation is a parameter.
 */
module Storage {
  import opened Options
  import opened Seqs
  import opened Schema

  /** The stored records, in insertion order, and the next id of each table. */
  datatype MemStorage = MemStorage(
    users: seq<User>,
    contacts: seq<ContactFormSubmission>,
    userCurrentId: nat,
    contactCurrentId: nat)

  /** A fresh store: nothing stored, both counters at 1. */
  function Initial(): (s: MemStorage)
    ensures s.users == [] && s.contacts == []
    ensures s.userCurrentId == 1 && s.contactCurrentId == 1
  {
    MemStorage([], [], 1, 1)
  }

  /** What every reachable store satisfies: the record at position `i` has
      id `i + 1`, and each counter is one past the last id handed out. */
  predicate Valid(s: MemStorage) {
    && s.userCurrentId == |s.users| + 1
    && s.contactCurrentId == |s.contacts| + 1
    && (forall i :: 0 <= i < |s.users| ==> s.users[i].id == i + 1)
    && (forall i :: 0 <= i < |s.contacts| ==> s.contacts[i].id == i + 1)
  }

  // ---------------------------------------------------------------------------
  // Users
  // ---------------------------------------------------------------------------

  /** `createUser`: the new user gets the current counter as its id. */
  function CreateUser(s: MemStorage, insert: InsertUser): (r: (MemStorage, User))
    ensures r.1 == User(s.userCurrentId, insert.username, insert.password)
    ensures r.0.users == s.users + [r.1]
    ensures r.0.userCurrentId == s.userCurrentId + 1
    ensures r.0.contacts == s.contacts && r.0.contactCurrentId == s.contactCurrentId
  {
    var user := User(s.userCurrentId, insert.username, insert.password);
    (s.(users := s.users + [user], userCurrentId := s.userCurrentId + 1), user)
  }

  function HasId(id: nat): User -> bool {
    (u: User) => u.id == id
  }

  function HasUsername(username: string): User -> bool {
    (u: User) => u.username == username
  }

  /** `getUser`: the user stored under `id`, if any. */
  function GetUser(s: MemStorage, id: nat): (r: Option<User>)
    ensures r.Some? ==> r.value in s.users && r.value.id == id
    ensures r.None? <==> forall u :: u in s.users ==> u.id != id
  {
    Find(s.users, HasId(id))
  }

  /** `getUserByUsername`: the first-created user with that name, if any. */
  function GetUserByUsername(s: MemStorage, username: string): (r: Option<User>)
    ensures r.None? <==> forall i :: 0 <= i < |s.users| ==> s.users[i].username != username
    ensures r.Some? ==> exists i :: 0 <= i < |s.users| && s.users[i] == r.value && r.value.username == username &&
                          forall j :: 0 <= j < i ==> s.users[j].username != username
  {
    Find(s.users, HasUsername(username))
  }

  // ---------------------------------------------------------------------------
  // Contact submissions
  // ---------------------------------------------------------------------------

  /** `submission.business ?? null`: an undefined business is stored as null,
      any string (the empty one included) as it is. */
  function StoredBusiness(b: Nullable): (r: Option<string>)
    ensures r.Some? <==> b.Value?
    ensures b.Value? ==> r.value == b.v
  {
    match b
    case Value(v) => Some(v)
    case _ => None
  }

  /** `createContactSubmission`: the new record gets the current counter as
      its id and the clock reading `now` as its submission time. */
  function CreateContactSubmission(s: MemStorage, submission: InsertContactForm, now: nat): (r: (MemStorage, ContactFormSubmission))
    ensures r.1.id == s.contactCurrentId && r.1.submittedAt == now
    ensures r.1.name == submission.name && r.1.email == submission.email && r.1.message == submission.message
    ensures r.1.business == StoredBusiness(submission.business)
    ensures r.0.contacts == s.contacts + [r.1]
    ensures r.0.contactCurrentId == s.contactCurrentId + 1
    ensures r.0.users == s.users && r.0.userCurrentId == s.userCurrentId
  {
    var record := ContactFormSubmission(
      s.contactCurrentId, submission.name, submission.email,
      StoredBusiness(submission.business), submission.message, now);
    (s.(contacts := s.contacts + [record], contactCurrentId := s.contactCurrentId + 1), record)
  }

  /** `getContactSubmissions`: every stored record, in creation order. */
  function GetContactSubmissions(s: MemStorage): (r: seq<ContactFormSubmission>)
    ensures |r| == |s.contacts|
    ensures forall i :: 0 <= i < |r| ==> r[i] == s.contacts[i]
  {
    s.contacts
  }

  // ---------------------------------------------------------------------------
  // Properties
  // ---------------------------------------------------------------------------

  /** The first contact and the first user of a fresh store both get id 1. */
  lemma FirstIdsAreOne(insertUser: InsertUser, insertContact: InsertContactForm, now: nat)
    ensures CreateUser(Initial(), insertUser).1.id == 1
    ensures CreateContactSubmission(Initial(), insertContact, now).1.id == 1
    ensures CreateContactSubmission(CreateUser(Initial(), insertUser).0, insertContact, now).1.id == 1
  {
  }

  lemma InitialValid()
    ensures Valid(Initial())
  {
  }

  /** Both creations keep the store valid. */
  lemma CreateKeepsValid(s: MemStorage, insertUser: InsertUser, insertContact: InsertContactForm, now: nat)
    requires Valid(s)
    ensures Valid(CreateUser(s, insertUser).0)
    ensures Valid(CreateContactSubmission(s, insertContact, now).0)
  {
  }

  /** In a valid store ids strictly increase with insertion order, so no two
      records share an id. */
  lemma IdsStrictlyIncrease(s: MemStorage, i: nat, j: nat)
    requires Valid(s)
    ensures i < j < |s.contacts| ==> s.contacts[i].id < s.contacts[j].id
    ensures i < j < |s.users| ==> s.users[i].id < s.users[j].id
  {
  }

  /** A new record's id is larger than every id already stored: ids are never reused. */
  lemma NewIdIsFresh(s: MemStorage, insertContact: InsertContactForm, now: nat, insertUser: InsertUser)
    requires Valid(s)
    ensures forall c :: c in s.contacts ==> c.id < CreateContactSubmission(s, insertContact, now).1.id
    ensures forall u :: u in s.users ==> u.id < CreateUser(s, insertUser).1.id
  {
  }

  /** In a valid store, `getUser` finds exactly the ids handed out so far,
      each at its own position. */
  lemma GetUserIff(s: MemStorage, id: nat)
    requires Valid(s)
    ensures GetUser(s, id).Some? <==> 1 <= id <= |s.users|
    ensures GetUser(s, id).Some? ==> GetUser(s, id).value == s.users[id - 1]
  {
    if 1 <= id <= |s.users| {
      assert s.users[id - 1] in s.users;
    }
  }

  /** The whole life of a store: a run of creations from the fresh store. */
  datatype Creation = NewUser(user: InsertUser) | NewContact(contact: InsertContactForm, at: nat)

  function Apply(s: MemStorage, c: Creation): MemStorage {
    match c
    case NewUser(u) => CreateUser(s, u).0
    case NewContact(f, at) => CreateContactSubmission(s, f, at).0
  }

  function Run(s: MemStorage, cs: seq<Creation>): MemStorage
    decreases |cs|
  {
    if |cs| == 0 then s else Run(Apply(s, cs[0]), cs[1..])
  }

  function ContactCount(cs: seq<Creation>): nat {
    if |cs| == 0 then 0 else (if cs[0].NewContact? then 1 else 0) + ContactCount(cs[1..])
  }

  /** Every reachable store is valid, and its contact table holds exactly one
      record per contact creation: user creations do not move the contact
      counter. */
  lemma {:induction false} RunValid(s: MemStorage, cs: seq<Creation>)
    requires Valid(s)
    ensures Valid(Run(s, cs))
    ensures |Run(s, cs).contacts| == |s.contacts| + ContactCount(cs)
    ensures Run(s, cs).contacts[..|s.contacts|] == s.contacts
    decreases |cs|
  {
    if |cs| > 0 {
      var next := Apply(s, cs[0]);
      CreateKeepsValid(s, if cs[0].NewUser? then cs[0].user else InsertUser("", ""),
                       if cs[0].NewContact? then cs[0].contact else InsertContactForm("", "", Undefined, ""),
                       if cs[0].NewContact? then cs[0].at else 0);
      RunValid(next, cs[1..]);
      assert next.contacts[..|s.contacts|] == s.contacts;
    }
  }
}

=== FILE: text.dfy ===
/**
 The JavaScript string semantics the site's components rely on: truthiness
 of optional strings and the `||` fallback built on it, `toLowerCase`,
 `includes`, `join`, `trim`, and the decimal rendering of a number inside a
 template literal.
 */
module Text {
  import opened Options

  // ---------------------------------------------------------------------------
  // Truthiness and `||`
  // ---------------------------------------------------------------------------

  /** A possibly-undefined string is truthy iff it is defined and non-empty. */
  predicate Truthy(s: Option<string>) {
    s.Some? && s.value != ""
  }

  /** JavaScript `a || b` on possibly-undefined strings. */
  function Or(a: Option<string>, b: Option<string>): (r: Option<string>)
    ensures Truthy(a) ==> r == a
    ensures !Truthy(a) ==> r == b
    ensures Truthy(r) <==> Truthy(a) || Truthy(b)
  {
    if Truthy(a) then a else b
  }

  /** A template literal renders an undefined value as the text "undefined". */
  function Render(s: Option<string>): string {
    match s
    case Some(v) => v
    case None => "undefined"
  }

  // ---------------------------------------------------------------------------
  // Case folding
  // ---------------------------------------------------------------------------

  /** Case folding of one character, restricted to the ASCII letters. */
  function LowerChar(c: char): char {
    if 'A' <= c <= 'Z' then (c as int + 32) as char else c
  }

  /** `toLowerCase`, restricted to the ASCII letters. */
  function Lower(s: string): (r: string)
    ensures |r| == |s|
    ensures forall i :: 0 <= i < |s| ==> r[i] == LowerChar(s[i])
  {
    seq(|s|, i requires 0 <= i < |s| => LowerChar(s[i]))
  }

  /** Lowering twice is lowering once. */
  lemma LowerIdempotent(s: string)
    ensures Lower(Lower(s)) == Lower(s)
  {
  }

  // ---------------------------------------------------------------------------
  // Substring search
  // ---------------------------------------------------------------------------

  /** `needle` occurs in `hay` starting at position `i`. */
  predicate OccursAt(hay: string, needle: string, i: int) {
    0 <= i && i + |needle| <= |hay| && hay[i..i + |needle|] == needle
  }

  /** `hay.includes(needle)`: a left-to-right scan for the first occurrence. */
  function Includes(hay: string, needle: string): (r: bool)
    ensures r <==> exists i :: OccursAt(hay, needle, i)
    decreases |hay|
  {
    if |needle| > |hay| then
      assert forall i :: !OccursAt(hay, needle, i);
      false
    else if hay[..|needle|] == needle then
      assert OccursAt(hay, needle, 0);
      true
    else
      var rest := Includes(hay[1..], needle);
      assert forall i :: OccursAt(hay[1..], needle, i) <==> OccursAt(hay, needle, i + 1) by {
        forall i ensures OccursAt(hay[1..], needle, i) <==> OccursAt(hay, needle, i + 1) {
          if 0 <= i && i + |needle| <= |hay| - 1 {
            assert hay[1..][i..i + |needle|] == hay[i + 1..i + 1 + |needle|];
          }
        }
      }
      assert !OccursAt(hay, needle, 0);
      assert rest ==> OccursAt(hay, needle, (var i :| OccursAt(hay[1..], needle, i); i) + 1);
      assert (exists i :: OccursAt(hay, needle, i)) ==> rest by {
        if exists i :: OccursAt(hay, needle, i) {
          var i :| OccursAt(hay, needle, i);
          assert i != 0;
          assert OccursAt(hay[1..], needle, i - 1);
        }
      }
      rest
  }

  /** A needle longer than the text never occurs in it. */
  lemma IncludesTooLong(hay: string, needle: string)
    requires |needle| > |hay|
    ensures !Includes(hay, needle)
  {
  }

  /** A needle as long as the text occurs in it only if it is the text. */
  lemma IncludesSameLength(hay: string, needle: string)
    requires |needle| == |hay|
    ensures Includes(hay, needle) <==> needle == hay
  {
    if Includes(hay, needle) {
      var i :| OccursAt(hay, needle, i);
      assert i == 0 && hay[0..|hay|] == hay;
    } else {
      assert !OccursAt(hay, needle, 0);
      assert hay[0..|hay|] == hay;
    }
  }

  /** Every string includes the empty string. */
  lemma IncludesEmpty(hay: string)
    ensures Includes(hay, "")
  {
    assert OccursAt(hay, "", 0);
  }

  /** Every string includes itself. */
  lemma IncludesSelf(s: string)
    ensures Includes(s, s)
  {
    assert OccursAt(s, s, 0);
  }

  /** The rest of `s` after `prefix`, when `s` starts with it. */
  function StripPrefix(s: string, prefix: string): (r: Option<string>)
    ensures r.Some? <==> |prefix| <= |s| && s[..|prefix|] == prefix
    ensures r.Some? ==> s == prefix + r.value
  {
    if |prefix| <= |s| && s[..|prefix|] == prefix then Some(s[|prefix|..]) else None
  }

  /** Stripping a prefix undoes prepending it. */
  lemma StripPrefixConcat(prefix: string, rest: string)
    ensures StripPrefix(prefix + rest, prefix) == Some(rest)
  {
    assert (prefix + rest)[..|prefix|] == prefix;
    assert (prefix + rest)[|prefix|..] == rest;
  }

  // ---------------------------------------------------------------------------
  // Joining
  // ---------------------------------------------------------------------------

  /** `parts.join(sep)`. */
  function Join(parts: seq<string>, sep: string): string {
    if |parts| == 0 then ""
    else if |parts| == 1 then parts[0]
    else parts[0] + sep + Join(parts[1..], sep)
  }

  /** With a non-empty separator, a join is empty exactly when there is
      nothing to join or the only part is empty. */
  lemma {:induction false} JoinEmptyIff(parts: seq<string>, sep: string)
    requires sep != ""
    ensures Join(parts, sep) == "" <==> |parts| == 0 || (|parts| == 1 && parts[0] == "")
  {
    if |parts| >= 2 {
      assert |Join(parts, sep)| >= |sep|;
    }
  }

  /** The length of a join: the parts plus one separator between each pair. */
  lemma {:induction false} JoinLength(parts: seq<string>, sep: string)
    requires |parts| > 0
    ensures |Join(parts, sep)| == SumLengths(parts) + (|parts| - 1) * |sep|
    decreases |parts|
  {
    if |parts| > 1 {
      JoinLength(parts[1..], sep);
    }
  }

  function SumLengths(parts: seq<string>): nat {
    if |parts| == 0 then 0 else |parts[0]| + SumLengths(parts[1..])
  }

  // ---------------------------------------------------------------------------
  // Trimming
  // ---------------------------------------------------------------------------

  /** The characters `String.prototype.trim` removes: the ECMAScript
      WhiteSpace (including the Unicode space separators) and LineTerminator
      code points. */
  const WhitespaceChars: set<char> := {
    '\t', '\n', '\U{000B}', '\U{000C}', '\r', ' ', '\U{00A0}', '\U{1680}',
    '\U{2000}', '\U{2001}', '\U{2002}', '\U{2003}', '\U{2004}', '\U{2005}',
    '\U{2006}', '\U{2007}', '\U{2008}', '\U{2009}', '\U{200A}',
    '\U{2028}', '\U{2029}', '\U{202F}', '\U{205F}', '\U{3000}', '\U{FEFF}'
  }

  predicate IsWhitespace(c: char) {
    c in WhitespaceChars
  }

  /** Drops leading whitespace. */
  function TrimStart(s: string): (r: string)
    ensures |r| <= |s| && r == s[|s| - |r|..]
    ensures forall i :: 0 <= i < |s| - |r| ==> IsWhitespace(s[i])
    ensures |r| == 0 || !IsWhitespace(r[0])
  {
    if |s| > 0 && IsWhitespace(s[0]) then TrimStart(s[1..]) else s
  }

  /** Drops trailing whitespace. */
  function TrimEnd(s: string): (r: string)
    ensures |r| <= |s| && r == s[..|r|]
    ensures forall i :: |r| <= i < |s| ==> IsWhitespace(s[i])
    ensures |r| == 0 || !IsWhitespace(r[|r| - 1])
  {
    if |s| > 0 && IsWhitespace(s[|s| - 1]) then TrimEnd(s[..|s| - 1]) else s
  }

  /** `s.trim()`. */
  function Trim(s: string): string {
    TrimEnd(TrimStart(s))
  }

  /** A string trims to nothing exactly when every character is whitespace. */
  lemma TrimEmptyIff(s: string)
    ensures Trim(s) == "" <==> forall i :: 0 <= i < |s| ==> IsWhitespace(s[i])
  {
    var t := TrimStart(s);
    if Trim(s) == "" {
      // a non-empty `t` starts with a non-whitespace character that TrimEnd would keep
      assert |t| == 0;
    }
  }

  // ---------------------------------------------------------------------------
  // Numbers in template literals
  // ---------------------------------------------------------------------------

  function DigitChar(d: nat): char
    requires d < 10
  {
    "0123456789"[d]
  }

  predicate IsDigits(s: string) {
    forall i :: 0 <= i < |s| ==> '0' <= s[i] <= '9'
  }

  /** The decimal text of a natural number, as `${n}` renders it. */
  function NatToString(n: nat): (r: string)
    ensures |r| >= 1 && IsDigits(r)
    ensures n >= 10 ==> r[0] != '0'
  {
    if n < 10 then [DigitChar(n)]
    else NatToString(n / 10) + [DigitChar(n % 10)]
  }

  /** Reads decimal digits back into a number. */
  function ParseDigits(s: string): nat
    requires IsDigits(s)
  {
    if |s| == 0 then 0
    else ParseDigits(s[..|s| - 1]) * 10 + (s[|s| - 1] as int - '0' as int)
  }

  /** The decimal rendering loses no information. */
  lemma {:induction false} NatToStringRoundTrip(n: nat)
    ensures ParseDigits(NatToString(n)) == n
  {
    if n < 10 {
      DigitValue(n);
    } else {
      NatToStringRoundTrip(n / 10);
      DigitValue(n % 10);
      ParseDigitsSnoc(NatToString(n / 10), DigitChar(n % 10));
    }
  }

  /** The digit character of `d` is `d` places past '0'. */
  lemma DigitValue(d: nat)
    requires d < 10
    ensures '0' <= DigitChar(d) <= '9'
    ensures DigitChar(d) as int - '0' as int == d
  {
  }

  /** Appending a digit multiplies the value read so far by ten and adds it. */
  lemma ParseDigitsSnoc(s: string, c: char)
    requires IsDigits(s) && '0' <= c <= '9'
    ensures IsDigits(s + [c])
    ensures ParseDigits(s + [c]) == ParseDigits(s) * 10 + (c as int - '0' as int)
  {
    assert (s + [c])[..|s|] == s;
  }
}
